=== FILE: README.md ===
# MovieVerse favorites, modelled in Dafny

MovieVerse is a movie-browsing web application. A user marks movies as favorites, and
those favorites live in three places that must agree:

- the server's MongoDB collection, behind an Express controller;
- the React favorites context, which holds the logged-in user's list in memory;
- the browser's `localStorage`, which keeps an offline copy plus a queue of changes not yet
  sent to the server.

This project models that favorites core and proves properties of it. It covers:

- how a movie record gets an identity, whichever metadata source it came from
  (`getMovieId`, `normalizeMovie`);
- how "is this a favorite?" is decided: exact id first, then title and year;
- the add, remove, toggle and clear operations of the context, of the server and of the
  offline store;
- the server's four-step removal cascade, its poster repair and its duplicate cleanup;
- the offline sync queue and its replay against the server;
- the client's response cache and its client-side result filters.

Stateful code is modelled imperatively:

- the context is the class `FavoritesContext.FavoritesProvider`;
- the MongoDB collection is the class `FavoriteController.FavoriteStore`, holding its
  documents as a sequence in natural order;
- the offline store is the class `LocalStorage.BrowserStorage`, whose dictionaries keyed by
  email are `map` fields;
- the response cache is the class `ResponseCache.Cache`.

Each method's `ensures` ties the new state to pure specification functions. The properties
are proved as lemmas about those functions: what is and is not a favorite after an
operation, the sync queue's coherence, the unique (userId, movieId) index, and which
duplicate survives a cleanup.

Whatever the system gets from outside is a parameter:

- the clock is a `now` argument;
- the server's answers, and OMDb's and TMDB's, are arguments;
- the results of the sync requests are per-item predicates.

JavaScript's missing or `undefined` string fields are written as `""`. Both are falsy, and
every `||` default in the code treats them alike.

Modules, one per file:

| file | module | what it holds |
|---|---|---|
| `wrappers.dfy` | `Wrappers` | `Option` |
| `text.dfy` | `Text` | ASCII string helpers: lower case, trim, `includes`, segments, decimal |
| `seqs.dfy` | `Seqs` | a generic order-keeping filter and its lemmas |
| `movie_identity.dfy` | `MovieIdentity` | `getMovieId`, `normalizeMovie`, the context's `isFavorite` |
| `favorites_context.dfy` | `FavoritesContext` | the React context as a class |
| `favorite_model.dfy` | `FavoriteModel` | the Mongoose schema, its defaults and its unique index |
| `entry_order.dfy` | `EntryOrder` | `sort({ addedAt: ±1 })` |
| `dedup.dfy` | `Dedup` | the duplicate scan of `cleanupDuplicates` |
| `favorite_controller.dfy` | `FavoriteController` | the controller's handlers over the collection |
| `fav_routes.dfy` | `FavRoutes` | the router's registration order (see Findings) |
| `sync_queue.dfy` | `SyncQueue` | offline records and the pending-sync status |
| `local_storage.dfy` | `LocalStorage` | the offline store as a class |
| `response_cache.dfy` | `ResponseCache` | the API response cache |
| `client_filters.dfy` | `ClientFilters` | `applyClientSideFilters` |
| `favorite_api.dfy` | `FavoriteApi` | the API's `checkIfFavorite` / `toggleFavorite` decision |

The offline sync stamps `lastSync` only when at least one replayed request succeeded,
because `syncWithDatabase` calls `markAsSynced` only then
(movieverse/src/utils/localStorage.js:450-455); `SyncQueue.AfterSync` and
`SyncQueue.SyncKeepsExactlyFailures` state exactly that.

## Model

| member | source | states |
|---|---|---|
| MovieIdentity.TitleOf | movieverse/src/context/FavoritesContext.jsx:30 | `Title` wins over `title`, and the result is empty only when both are |
| MovieIdentity.YearOr | movieverse/src/context/FavoritesContext.jsx:32 | `Year` wins; else the part of `release_date` before its first '-', which has no '-'; else the fallback |
| MovieIdentity.CustomId | movieverse/src/context/FavoritesContext.jsx:31-33 | the id starts with "custom-" and ends with '-' and the year |
| MovieIdentity.GetMovieId | movieverse/src/context/FavoritesContext.jsx:6-38 | an id is never empty; there is no id exactly when no id field is truthy (an "N/A" `imdbID` counting as none) and there is no title; the order of precedence is stated by `TmdbIdsWin`, `ImdbIdWithoutTmdbId` and `CustomIdFallback` |
| MovieIdentity.TmdbIdsWin | movieverse/src/context/FavoritesContext.jsx:11-17 | a truthy `id` (string or number) is the identity as its text, and with a falsy `id` a truthy `tmdb_id` is |
| MovieIdentity.NumericIdWins | movieverse/src/context/FavoritesContext.jsx:11-17 | a positive numeric `id` is the identity, as its decimal digits |
| MovieIdentity.ImdbIdWithoutTmdbId | movieverse/src/context/FavoritesContext.jsx:15-27 | with no TMDB id, the IMDb id is used unless it is "N/A"; after that comes `external_ids.imdb_id` |
| MovieIdentity.CustomIdFallback | movieverse/src/context/FavoritesContext.jsx:29-34 | with no usable id, the id is `custom-<alnum lower title>-<year or 'unknown'>`; a year without '-' can be read back as its last segment |
| MovieIdentity.CustomIdShape | movieverse/src/context/FavoritesContext.jsx:29-34 | every fallback id starts with "custom-", and a year without '-' is its last '-'-separated segment |
| MovieIdentity.InceptionCustomId | movieverse/src/context/FavoritesContext.jsx:29-34 | "Inception" (2010) with no ids gets "custom-inception-2010" |
| MovieIdentity.InceptionKey | movieverse/src/context/FavoritesContext.jsx:31-32 | lower-casing "Inception" and dropping non-alphanumerics gives "inception" |
| MovieIdentity.InceptionId | movieverse/src/context/FavoritesContext.jsx:29-34 | the fallback id built from "Inception" and "2010" is "custom-inception-2010" |
| MovieIdentity.NormalizeMovie | movieverse/src/context/FavoritesContext.jsx:41-60 | the id is `getMovieId`'s; the title falls back to 'Unknown'; the poster is `Poster`, else `poster_path`, else 'N/A'; the year is `YearOr` with 'N/A'; the rating is `imdbRating`, else `Rating`, else the text of `vote_average`, else 'N/A'; the genre is `Genre`, else the joined `genres` names, else 'N/A'; the type is `Type` else 'movie'; the plot is `Plot` else `overview` |
| MovieIdentity.NormalizeDefaults | movieverse/src/context/FavoritesContext.jsx:41-60 | a record with only a title gets every default: 'N/A' fields, type 'movie', an empty plot |
| MovieIdentity.SomeIdMatch | movieverse/src/context/FavoritesContext.jsx:124-130 | true exactly when some favorite has the same id |
| MovieIdentity.SomeTitleYearMatch | movieverse/src/context/FavoritesContext.jsx:133-145 | true exactly when some favorite has the same trimmed lower-case title and the same year |
| MovieIdentity.SameTitleYear | movieverse/src/context/FavoritesContext.jsx:133-138 | titles equal up to case (and blanks) with the same year match, and a match always has the same year |
| MovieIdentity.IsFavorite | movieverse/src/context/FavoritesContext.jsx:107-160 | false for a null movie or an unresolvable id; otherwise true exactly when the id matches or the title and year match |
| MovieIdentity.TitleYearFallback | movieverse/src/context/FavoritesContext.jsx:133-160 | a favorite stored under TMDB id 27205 is found for an IMDb-only candidate by title and year |
| MovieIdentity.WithoutMatches | movieverse/src/context/FavoritesContext.jsx:252-261 | the removal filter keeps exactly the favorites that match neither by id nor by title and year |
| MovieIdentity.RemovalMatch | movieverse/src/context/FavoritesContext.jsx:253-258 | a favorite with the id, or with the same title and year, is removed; one removed without the id has the same year |
| MovieIdentity.WithoutMatchesKeepsOrder | movieverse/src/context/FavoritesContext.jsx:252-261 | the favorites left after a removal keep their order |
| MovieIdentity.AppendedIsFavorite | movieverse/src/context/FavoritesContext.jsx:208-213 | after its normalized record is appended, a movie is a favorite |
| MovieIdentity.RemovedIsNotFavorite | movieverse/src/context/FavoritesContext.jsx:252-262 | after the removal filter, the movie is a favorite by neither strategy |
| MovieIdentity.RemovalOfNonFavorite | movieverse/src/context/FavoritesContext.jsx:252-262 | removing a movie that is not a favorite leaves the list unchanged |
| FavoritesContext.FromEntry | movieverse/src/context/FavoritesContext.jsx:84-93 | a fetched document becomes a favorite with the document's movieId as its id, the same title, year, poster, rating and genre, its type or else 'movie', and an empty plot |
| FavoritesContext.FromEntries | movieverse/src/context/FavoritesContext.jsx:84-96 | the fetched list is transformed element by element, in order |
| FavoritesContext.ListedIdIsFavorite | movieverse/src/context/FavoritesContext.jsx:84-131 | after a fetch, a movie whose id is some document's movieId is a favorite |
| FavoritesContext.FavoritesProvider.constructor | movieverse/src/context/FavoritesContext.jsx:63-64 | the provider starts with no favorites and not loading |
| FavoritesContext.FavoritesProvider.FetchFavorites | movieverse/src/context/FavoritesContext.jsx:67-104 | no user empties the list; a usable answer replaces it; a failure keeps it |
| FavoritesContext.FavoritesProvider.AddToFavorites | movieverse/src/context/FavoritesContext.jsx:163-225 | refused without a user, a movie or an id, and for a movie that is already a favorite; a success appends exactly the normalized record, after which the movie is a favorite; nothing else changes the list |
| FavoritesContext.FavoritesProvider.RemoveFromFavorites | movieverse/src/context/FavoritesContext.jsx:228-274 | a success removes every match and nothing else, after which the movie is no favorite; a failure leaves the list alone |
| FavoritesContext.FavoritesProvider.ToggleFavorite | movieverse/src/context/FavoritesContext.jsx:277-285 | a favorite goes through the removal and any other movie through the add: each succeeds exactly when there are a user and an id and the server accepts, leaving the list `WithoutMatches` or with the normalized record appended; a successful toggle flips `isFavorite`; a failed one changes nothing |
| FavoritesContext.FavoritesProvider.ClearAllFavorites | movieverse/src/context/FavoritesContext.jsx:288-313 | the list is emptied exactly when a user is logged in and the server accepts; otherwise it is unchanged |
| FavoriteModel.NewEntry | backend/models/Favorite.js:4-43 | the required paths as given; an undefined optional path takes the schema default ('N/A', 'movie', the creation time) |
| FavoriteModel.DefaultsOfBareEntry | backend/models/Favorite.js:19-42 | a document given only its required paths gets every default |
| FavoriteModel.AppendKeepsValid | backend/models/Favorite.js:5-46 | inserting a conforming document whose (userId, movieId) is new keeps every document valid and the index unique |
| FavoriteModel.RemoveAtKeepsValid | backend/models/Favorite.js:46 | deleting a document keeps the store valid |
| FavoriteModel.FilterKeepsValid | backend/models/Favorite.js:46 | deleting any set of documents keeps the store valid |
| FavoriteModel.UserEntries | backend/controllers/favoriteController.js:157 | `find({ userId })` returns exactly the user's documents |
| FavoriteModel.UserAndOthers | backend/controllers/favoriteController.js:306 | the user's documents and the others' documents partition the collection |
| FavoriteModel.ValidStoreDistinct | backend/models/Favorite.js:46 | the unique index makes the stored documents pairwise distinct |
| EntryOrder.Insert | backend/controllers/favoriteController.js:157 | insertion adds exactly one element |
| EntryOrder.ConsOrdered | backend/controllers/favoriteController.js:157 | an element that comes before every element of an ordered list keeps it ordered when put in front |
| EntryOrder.InsertOrdered | backend/controllers/favoriteController.js:157 | inserting into an ordered list keeps it ordered |
| EntryOrder.SortByAddedAt | backend/controllers/favoriteController.js:157 | the sort (newest first here, oldest first at line 383) is a permutation of its input |
| EntryOrder.SortOrdered | backend/controllers/favoriteController.js:383 | the sorted list runs by `addedAt` in the requested direction |
| EntryOrder.SortSameElements | backend/controllers/favoriteController.js:383 | an element is in the sorted list exactly when it is in the input |
| Dedup.DuplicateKeyYear | backend/controllers/favoriteController.js:391 | a year without '-' can be read back from the key as its last segment |
| Dedup.SameKeySameTitleYear | backend/controllers/favoriteController.js:391 | for years without '-', two documents share a key exactly when their titles agree up to case and their years are equal |
| Dedup.Duplicates | backend/controllers/favoriteController.js:383-404 | the scan marks only scanned documents |
| Dedup.Survivors | backend/controllers/favoriteController.js:383-404 | the documents the scan keeps have pairwise different title-year keys, none of them seen before |
| Dedup.ScanPartition | backend/controllers/favoriteController.js:383-404 | every scanned document is either kept or deleted, exactly once |
| Dedup.LaterDuplicateDeleted | backend/controllers/favoriteController.js:390-397 | a document whose key occurred earlier in the scan is deleted |
| Dedup.FirstOccurrenceKept | backend/controllers/favoriteController.js:390-401 | the first document with a key survives |
| Dedup.DuplicatesDistinct | backend/controllers/favoriteController.js:383-406 | no document is marked twice |
| FavoriteController.FirstMatch | backend/controllers/favoriteController.js:68 | `findOne` finds the first match in natural order, and none exactly when nothing matches |
| FavoriteController.FetchMoviePoster | backend/controllers/favoriteController.js:6-35 | a successful OMDb answer with a real poster gives that poster; otherwise an all-digit id with a non-empty TMDB path gives the w500 image URL; a non-digit id, an unreachable service or an empty path gives 'N/A'; any other poster came from a successful OMDb answer or from TMDB |
| FavoriteController.TmdbOnlyForNumericIds | backend/controllers/favoriteController.js:18-29 | for a non-numeric id, TMDB's answer is irrelevant |
| FavoriteController.RequestedPoster | backend/controllers/favoriteController.js:99 | a given `posterPath` wins, and the result is empty only when neither field is given |
| FavoriteController.FinalPoster | backend/controllers/favoriteController.js:99-110 | a '/' path becomes a full TMDB URL; an empty or 'N/A' poster is looked up; any other poster is kept |
| FavoriteController.PosterPathTakesPrecedence | backend/controllers/favoriteController.js:99 | a non-empty `posterPath` makes `poster` irrelevant |
| FavoriteController.AddAccepted | backend/controllers/favoriteController.js:58-96 | an accepted request has both ids and no stored document with its pair |
| FavoriteController.NewFavorite | backend/controllers/favoriteController.js:114-127 | the new document has the request's ids, the chosen poster and the clock's time; the title is given or 'Unknown'; year, rating and genre are the request's or else 'N/A', and the kind the request's or else 'movie'; it passes validation |
| FavoriteController.AddTwiceRefused | backend/controllers/favoriteController.js:68-77 | once an add is accepted, repeating it is refused |
| FavoriteController.CrossSourceDuplicateRefused | backend/controllers/favoriteController.js:80-96 | a TMDB-id "Inception" refuses an IMDb-id "inception" of the same year |
| FavoriteController.RemoveTarget | backend/controllers/favoriteController.js:215-271 | the deleted document is always the user's, and it is the exact pair whenever that pair is stored |
| FavoriteController.TmdbPrefixStripped | backend/controllers/favoriteController.js:226-239 | an unstored `tmdb-N` id removes the document stored under N |
| FavoriteController.NumericIdPrefixed | backend/controllers/favoriteController.js:241-254 | an unstored all-digit id removes the document stored under its `tmdb-` form |
| FavoriteController.CustomIdRemovesByYear | backend/controllers/favoriteController.js:256-271 | an unstored `custom-<title>-<year>` id removes the user's first document of that year, whatever its title |
| FavoriteController.RemovalKeepsOtherUsers | backend/controllers/favoriteController.js:208-296 | a removal leaves every other user's documents as they were |
| FavoriteController.NeedsPoster | backend/controllers/favoriteController.js:333-340 | only the user's documents with an empty or 'N/A' poster are selected |
| FavoriteController.WithFetchedPoster | backend/controllers/favoriteController.js:333-355 | only the poster can change, only for the user's missing posters, and never to 'N/A' |
| FavoriteController.UpdatedAtMostChecked | backend/controllers/favoriteController.js:333-355 | the updated count never exceeds the checked count |
| FavoriteController.ScanOrder | backend/controllers/favoriteController.js:383 | the scan is a permutation of the user's documents, oldest first |
| FavoriteController.PermutationDistinct | backend/controllers/favoriteController.js:383 | reordering the user's distinct documents keeps them distinct |
| FavoriteController.DeletedCount | backend/controllers/favoriteController.js:406 | deleting distinct stored documents by identity removes exactly that many |
| FavoriteController.CleanupKeepsStore | backend/controllers/favoriteController.js:376-432 | the cleanup deletes as many documents as it marked, keeps the store valid and leaves other users alone |
| FavoriteController.CleanupKeepsFirstOfKey | backend/controllers/favoriteController.js:383-402 | the oldest of the user's documents with each title-year key is still stored after the cleanup |
| FavoriteController.CleanupLeavesDistinctKeys | backend/controllers/favoriteController.js:376-432 | after the cleanup no two of the user's remaining documents share a title-year key |
| FavoriteController.MarkDuplicates | backend/controllers/favoriteController.js:386-402 | the loop collects exactly the scan's duplicates |
| FavoriteController.ThreeReversed | backend/controllers/favoriteController.js:383 | three documents stored newest first are scanned oldest first |
| FavoriteController.TwoReversed | backend/controllers/favoriteController.js:383 | two documents stored newest first come back oldest first |
| FavoriteController.SecondOfKeyMarked | backend/controllers/favoriteController.js:390-401 | of two same-key documents around an unrelated one, the later is marked |
| FavoriteController.NewerDuplicateRemoved | backend/controllers/favoriteController.js:376-432 | of two same-key documents, the cleanup deletes the newer |
| FavoriteController.NewerDuneRemoved | backend/controllers/favoriteController.js:376-432 | of "Dune" and "DUNE" (2021) under different ids, the newer is deleted |
| FavoriteController.FavoriteStore.FindOne | backend/controllers/favoriteController.js:68 | the loop returns the first matching document |
| FavoriteController.FavoriteStore.constructor | backend/models/Favorite.js:46 | an empty collection, which is valid |
| FavoriteController.FavoriteStore.AddFavorite | backend/controllers/favoriteController.js:39-146 | 400 exactly for missing ids; created exactly when neither the pair nor (given title and year) the title-year is stored, appending exactly one valid document; a refusal changes nothing and returns the first stored document with the pair, or failing that the first with the title and year |
| FavoriteController.FavoriteStore.ChoosePoster | backend/controllers/favoriteController.js:98-110 | the stored poster is the one `FinalPoster` picks: a TMDB path made absolute, a missing or "N/A" poster fetched, anything else kept |
| FavoriteController.FavoriteStore.GetUserFavorites | backend/controllers/favoriteController.js:150-179 | exactly the user's documents, newest first |
| FavoriteController.FavoriteStore.CheckFavorite | backend/controllers/favoriteController.js:183-204 | true, with the document, exactly when the pair is stored |
| FavoriteController.FavoriteStore.RemoveFavorite | backend/controllers/favoriteController.js:208-296 | deletes exactly the cascade's target, and 404 with no change exactly when there is none |
| FavoriteController.FavoriteStore.FindRemoveTarget | backend/controllers/favoriteController.js:214-271 | the document found is the cascade's target (exact id, then the tmdb- or numeric-id variants, then the title-year of a custom id), and nothing changes |
| FavoriteController.FavoriteStore.ClearAllFavorites | backend/controllers/favoriteController.js:300-323 | deletes all and only the user's documents, answering their number |
| FavoriteController.FavoriteStore.UpdateFavoritePosters | backend/controllers/favoriteController.js:327-371 | every document is repaired or kept as `WithFetchedPoster` says; the counts are those of missing and repaired posters |
| FavoriteController.FavoriteStore.RepairPosters | backend/controllers/favoriteController.js:341-350 | each document is replaced by `WithFetchedPoster` of it; the counts are those of posters that were missing and of those repaired |
| FavoriteController.PosterRepairKeepsValid | backend/models/Favorite.js:46 | changing only posters keeps the store valid (one document per user and movie) |
| FavoriteController.FavoriteStore.CleanupDuplicates | backend/controllers/favoriteController.js:376-432 | deletes exactly the scan's duplicates, answering their number and the number scanned; other users are untouched |
| FavRoutes.FirstRoute | backend/routes/favRoutes.js:15-33 | the first registered route that matches gets the request |
| FavRoutes.Dispatch | backend/routes/favRoutes.js:15-33 | a request gets the handler of a matching route that no earlier route matches; it gets none exactly when no route matches |
| FavRoutes.RemoveRouteCoversClear | backend/routes/favRoutes.js:24-27 | every request the clear route matches, the remove route matches too |
| FavRoutes.ClearUnreachableAsWritten | backend/routes/favRoutes.js:24-27 | as registered, no request reaches `clearAllFavorites` |
| FavRoutes.ClearRequestReachesRemove | backend/routes/favRoutes.js:24-27 | `DELETE /<user>/clear` reaches `removeFavorite` |
| FavRoutes.ClearAsRemovalDeletesAtMostOne | backend/controllers/favoriteController.js:215-271 | there it removes at most the document stored under the id "clear" |
| FavRoutes.CorrectedClearReachesClear | backend/routes/favRoutes.js:24-27 | with the literal route first, the clear request reaches `clearAllFavorites` |
| FavRoutes.CorrectionOnlyAffectsClear | backend/routes/favRoutes.js:15-33 | the reordering changes the handler of no other request |
| SyncQueue.StatusOf | movieverse/src/utils/localStorage.js:34-50 | a user with nothing stored has empty queues and has never synced |
| SyncQueue.FilteredIdGone | movieverse/src/utils/localStorage.js:79-81 | filtering an id out leaves no record with it |
| SyncQueue.FilterUniqueIds | movieverse/src/utils/localStorage.js:79-81 | a filtered list of distinct ids has distinct ids |
| SyncQueue.Enqueue | movieverse/src/utils/localStorage.js:64-93 | queuing a change keeps `lastSync` and keeps a coherent status coherent |
| SyncQueue.EnqueueAdd | movieverse/src/utils/localStorage.js:64-93 | an add cancels a pending remove of the id and is queued once, unless a record with the id is already queued |
| SyncQueue.EnqueueRemove | movieverse/src/utils/localStorage.js:64-93 | a remove cancels every pending add of the id and is queued once |
| SyncQueue.EnqueueAddKeepsCoherent | movieverse/src/utils/localStorage.js:64-93 | enqueuing an add keeps the queues coherent: no repeats, no id both added and removed |
| SyncQueue.EnqueueRemoveKeepsCoherent | movieverse/src/utils/localStorage.js:64-93 | enqueuing a remove keeps the queues coherent |
| SyncQueue.MarkSynced | movieverse/src/utils/localStorage.js:369-395 | exactly the unsynced items stay; a list that is not given leaves its queue alone; `lastSync` is stamped |
| SyncQueue.MarkSyncedKeepsOrder | movieverse/src/utils/localStorage.js:375-383 | both queues keep their remaining items in their order |
| SyncQueue.MarkSyncedKeepsCoherent | movieverse/src/utils/localStorage.js:369-395 | marking as synced keeps the queues coherent |
| SyncQueue.IdsWhere | movieverse/src/utils/localStorage.js:419-432 | the success list holds exactly the ids of the accepted records |
| SyncQueue.AnyAccepted | movieverse/src/utils/localStorage.js:449-455 | true exactly when some queued add or remove was accepted |
| SyncQueue.AfterSync | movieverse/src/utils/localStorage.js:449-455 | `lastSync` becomes the clock exactly when something was accepted, and nothing changes otherwise |
| SyncQueue.SyncKeepsExactlyFailures | movieverse/src/utils/localStorage.js:397-468 | after a replay, a queued change stays exactly when the server refused it; `lastSync` moves exactly when something was accepted |
| SyncQueue.AllAcceptedEmptiesQueues | movieverse/src/utils/localStorage.js:397-468 | when every change is accepted, both queues end up empty |
| LocalStorage.NewLocalFavorite | movieverse/src/utils/localStorage.js:236-249 | the stored record keeps the movie's id and title; each display field is the movie's own value when it has one and 'N/A' otherwise ('movie' for the type), so none is empty; it keeps the original movie and the time |
| LocalStorage.ConvertDbFavorite | movieverse/src/utils/localStorage.js:479-491 | a database favorite keeps its id and title, is marked as from the database, has type 'movie' and plot 'N/A'; year, poster path, genre, runtime and rating are its own or else 'N/A'; it keeps its `addedAt` or gets the clock's |
| LocalStorage.FromDatabaseAll | movieverse/src/utils/localStorage.js:479-491 | the conversion goes element by element |
| LocalStorage.Ids | movieverse/src/utils/localStorage.js:476 | the local id set holds exactly the stored ids |
| LocalStorage.MergedAreNew | movieverse/src/utils/localStorage.js:499-505 | the merge appends exactly the converted favorites whose id was not local |
| LocalStorage.MergeCoversDatabase | movieverse/src/utils/localStorage.js:471-517 | after a merge, every database favorite's id is stored |
| LocalStorage.PushRecent | movieverse/src/utils/localStorage.js:626-658 | the new search comes first, followed by the old list without its movie, in order, cut to 20 entries in all |
| LocalStorage.PushRecentKeepsOrder | movieverse/src/utils/localStorage.js:631-641 | behind the new item, the previous items keep their order |
| LocalStorage.FilterUniqueMovies | movieverse/src/utils/localStorage.js:633 | filtering keeps the recent list free of repeated movies |
| LocalStorage.PushRecentKeepsUnique | movieverse/src/utils/localStorage.js:626-658 | the recently searched list never holds a movie twice |
| LocalStorage.ValidateUserData | movieverse/src/utils/localStorage.js:869-888 | valid exactly when the trimmed name has 2 characters, the email an '@' and the password 6 characters, with one error per failed rule, in the order name, email, password |
| LocalStorage.BrokenRules | movieverse/src/utils/localStorage.js:872-882 | the error list holds each rule exactly when it is broken, is empty exactly when none is, and lists them in the order name, email, password |
| LocalStorage.MigrateEntry | movieverse/src/utils/localStorage.js:905-921 | a record without `imdbID` takes its `id` as `imdbID` and drops the `id`; a record without a timestamp gets `now` and one with a timestamp keeps it; no other field changes |
| LocalStorage.MigrateEntryIdempotent | movieverse/src/utils/localStorage.js:905-921 | migrating a migrated record changes nothing |
| LocalStorage.MigrateList | movieverse/src/utils/localStorage.js:905-921 | migration goes record by record |
| LocalStorage.MigrateListIdempotent | movieverse/src/utils/localStorage.js:905-921 | migrating a migrated list changes nothing |
| LocalStorage.NeedsMigration | movieverse/src/utils/localStorage.js:896 | no version, an empty one or one below "2" in its first character migrates; one above "2" does not |
| LocalStorage.MigratedVersionIsCurrent | movieverse/src/utils/localStorage.js:896-929 | the version written, "2.0", asks for no further migration |
| LocalStorage.BrowserStorage.constructor | movieverse/src/utils/localStorage.js:34-50 | an empty store is valid |
| LocalStorage.BrowserStorage.GetSyncStatus | movieverse/src/utils/localStorage.js:34-48 | the user's stored status, or empty queues with no last sync when none is stored |
| LocalStorage.BrowserStorage.GetFavorites | movieverse/src/utils/localStorage.js:314-330 | without an email or a stored list the answer is [], and a non-empty answer is the user's stored list |
| LocalStorage.BrowserStorage.IsFavorite | movieverse/src/utils/localStorage.js:332-345 | true exactly when there are an email and an id and the user's stored list has a record with the id |
| LocalStorage.BrowserStorage.HasPendingSyncData | movieverse/src/utils/localStorage.js:941-944 | true exactly when a queue of the user is non-empty, and never for a user with no status |
| LocalStorage.BrowserStorage.AddToSyncQueue | movieverse/src/utils/localStorage.js:64-93 | the user's status is replaced by the enqueued one; nothing else changes |
| LocalStorage.BrowserStorage.AddToFavorites | movieverse/src/utils/localStorage.js:213-270 | succeeds exactly with an email and a movie whose id is not stored; then exactly the new record is appended and an add queued, and the movie is a favorite; otherwise nothing changes |
| LocalStorage.BrowserStorage.RemoveFromFavorites | movieverse/src/utils/localStorage.js:272-312 | succeeds exactly when a record with the id is stored; then every such record goes and a remove is queued; otherwise nothing changes |
| LocalStorage.BrowserStorage.ToggleFavorite | movieverse/src/utils/localStorage.js:347-362 | without an email or a movie it fails; a favorite is removed (always succeeding) and any other movie added (succeeding when no record has its id), with the list and the queue updated as `removeFromFavorites` and `addToFavorites` state; with an email and an id it always succeeds and flips `isFavorite` |
| LocalStorage.BrowserStorage.MarkAsSynced | movieverse/src/utils/localStorage.js:369-395 | the user's status becomes `MarkSynced`'s; nothing else changes |
| LocalStorage.BrowserStorage.ReplayAdds | movieverse/src/utils/localStorage.js:419-432 | the loop splits the queued adds into accepted and refused ids, in order |
| LocalStorage.BrowserStorage.ReplayRemoves | movieverse/src/utils/localStorage.js:434-447 | the loop splits the queued removes into accepted and refused ids, in order |
| LocalStorage.BrowserStorage.SyncWithDatabase | movieverse/src/utils/localStorage.js:397-468 | with nothing pending nothing happens; otherwise the status becomes `AfterSync`'s and the report lists the accepted and refused ids |
| LocalStorage.BrowserStorage.AppendNew | movieverse/src/utils/localStorage.js:499-505 | the loop appends exactly the converted favorites with new ids, in order, and counts them |
| LocalStorage.BrowserStorage.MergeFavoritesFromDatabase | movieverse/src/utils/localStorage.js:471-517 | the user's list gains exactly `Merged`'s records, and their number is answered |
| LocalStorage.BrowserStorage.ClearAllFavorites | movieverse/src/utils/localStorage.js:523-549 | with an email, the list and both queues are emptied and `lastSync` is kept |
| LocalStorage.BrowserStorage.AddToRecentlySearched | movieverse/src/utils/localStorage.js:626-658 | with a movie, the list becomes `PushRecent`'s; without one nothing changes |
| LocalStorage.BrowserStorage.MigrateEntries | movieverse/src/utils/localStorage.js:905-921 | the loop migrates each record |
| LocalStorage.BrowserStorage.MigrateData | movieverse/src/utils/localStorage.js:891-938 | an old or missing version migrates every user's records and ends at "2.0"; a current version changes nothing |
| LocalStorage.BrowserStorage.MigrateUsers | movieverse/src/utils/localStorage.js:905-922 | every user's list is replaced by its migrated form and no user is added or dropped |
| ResponseCache.Lookup | movieverse/src/utils/api.js:36-49 | a read hits exactly for a stored entry that is not stale, and answers its data |
| ResponseCache.StoredDataLivesForTtl | movieverse/src/utils/api.js:36-57 | stored data is read back up to and including `ttl` ms later, and not after |
| ResponseCache.DefaultTtlBoundary | movieverse/src/utils/api.js:26-57 | with the default time-to-live, data is still read at 600000 ms and gone at 600001 ms |
| ResponseCache.StoreIsolated | movieverse/src/utils/api.js:51-57 | storing under one key changes no other key's reads |
| ResponseCache.AfterRead | movieverse/src/utils/api.js:38-43 | a read only ever deletes entries |
| ResponseCache.ReadChangesNoLaterAnswer | movieverse/src/utils/api.js:36-49 | a read's eviction changes no read at the same time or later |
| ResponseCache.Cache.constructor | movieverse/src/utils/api.js:27 | the cache starts empty |
| ResponseCache.Cache.GetCachedData | movieverse/src/utils/api.js:36-49 | answers `Lookup` and evicts a stale entry |
| ResponseCache.Cache.SetCachedData | movieverse/src/utils/api.js:51-57 | overwrites the key, after which it reads back its data |
| ResponseCache.Cache.ClearCache | movieverse/src/utils/api.js:59-62 | every key misses afterwards |
| ClientFilters.FirstDigitRun | movieverse/src/utils/api.js:173 | finds the leftmost run of four digits at or after a position |
| ClientFilters.FirstFourDigits | movieverse/src/utils/api.js:173 | `/(\d{4})/` matches the leftmost run of four digits, and none when there is none |
| ClientFilters.MovieYear | movieverse/src/utils/api.js:172-174 | a movie has a year exactly when it has `Year` or `release_date`; the year is the leftmost four-digit run of `Year` (else `release_date`), or that whole text when it has none |
| ClientFilters.YearPasses | movieverse/src/utils/api.js:171-176 | a movie passes only a set year filter and only with a `Year` or `release_date`; it passes exactly when the filter equals the leftmost four-digit run of `Year` (else `release_date`), or that whole non-empty text when it has no such run |
| ClientFilters.GenrePasses | movieverse/src/utils/api.js:179-182 | the empty genre is in every genre |
| ClientFilters.GenreIgnoresCase | movieverse/src/utils/api.js:181 | the genre filter ignores the case of the genre asked for |
| ClientFilters.LanguagePasses | movieverse/src/utils/api.js:185-198 | the empty language matches every movie |
| ClientFilters.RatingPasses | movieverse/src/utils/api.js:201-204 | `Rated` wins over `rating`; a movie passes exactly when that value equals the set filter |
| ClientFilters.Keep | movieverse/src/utils/api.js:169-207 | with no filter set every movie is kept, and a kept movie passes every filter that is set |
| ClientFilters.ApplyClientSideFilters | movieverse/src/utils/api.js:164-208 | a non-array or empty input gives []; a movie is kept exactly when it passes every non-empty filter |
| ClientFilters.FilteredIsSubsequence | movieverse/src/utils/api.js:164-208 | the result is the input with some movies left out, in order |
| ClientFilters.NoFiltersKeepsAll | movieverse/src/utils/api.js:164-208 | with no filter set, the input comes back whole |
| ClientFilters.ReleaseDateYear | movieverse/src/utils/api.js:171-176 | a movie dated only "2010-07-16" passes year 2010 and not 2011 |
| ClientFilters.KoreanMatchesKo | movieverse/src/utils/api.js:185-198 | the code "ko" also matches the language "Korean" |
| FavoriteApi.FromServerAll | movieverse/src/utils/api.js:738-758 | the server's list, record by record |
| FavoriteApi.FromOfflineAll | movieverse/src/utils/api.js:738-758 | the offline list, record by record |
| FavoriteApi.CheckIfFavorite | movieverse/src/utils/api.js:738-758 | a successful answer with a list gives whether some record has the id as `movieId` or `imdbID`; a failed or listless answer gives false; a thrown request gives the offline answer |
| FavoriteApi.CheckAgainstServer | movieverse/src/utils/api.js:738-758 | answered from the server, the check holds exactly when the user has a document for the movie |
| FavoriteApi.CheckAgainstOffline | movieverse/src/utils/api.js:738-758 | answered offline, the check holds exactly when a stored record has the id |
| FavoriteApi.Toggle | movieverse/src/utils/api.js:760-780 | removes exactly when the check holds, and then by the movie's id |
| FavoriteApi.ToggleAgainstServer | movieverse/src/utils/api.js:760-780 | against the server's list, a movie with a document is removed and any other is added |
| FavoriteApi.FailedListAdds | movieverse/src/utils/api.js:738-780 | a failed or listless answer makes the toggle add, even for a favorite |

The classes' invariants (`FavoriteController.FavoriteStore.Valid`, `LocalStorage.BrowserStorage.Valid`)
and the report accessor `LocalStorage.SyncReport.SyncedCount` are helpers: they are used by
the contracts above and have no row of their own.

## Left out

- Network calls are not modelled. The answers of the server, OMDb and TMDB are parameters,
  and so are the results of the sync requests. Timeouts, retries and the dynamic import of
  the offline store in the API module are not modelled.
- MongoDB and Express are not modelled. The collection is a sequence in natural order and
  each query is a filter on it. Concurrent requests, and the race the unique index guards
  against, are not modelled.
- `sort({ addedAt })` leaves the order of equal timestamps to MongoDB. The model keeps the
  input order.
- Exceptions and their 500 / `{ success: false }` answers are not modelled: failed JSON
  parsing, a full `localStorage`, a thrown `setItem`.
- Cross-tab storage events (`onStorageChange`) are not modelled.
- JavaScript `undefined` and `""` are one value here. Truthiness tests cannot tell them
  apart, but the strict comparisons can: `fav.imdbID === movie.imdbID`
  (movieverse/src/utils/localStorage.js:229), `fav.imdbID === movieId`
  (movieverse/src/utils/api.js:743) and `fav.Year === movieYear`
  (movieverse/src/context/FavoritesContext.jsx:257). The model differs from the code
  there: for an empty id or year, it counts a missing one and an empty one as equal,
  where the code does not.
- `normalizeMovie`'s `_originalData` copy of the record
  (movieverse/src/context/FavoritesContext.jsx:53-58) is not modelled; nothing in the
  core reads it back.
- Case mapping and trimming are ASCII only.
- `runtime` and `plot` are not schema paths, so they are never stored.
- `ClientFilters.GenrePasses`: the TMDB `genres` value is taken as its `toString()` text,
  given as a string.
- `ClientFilters.FirstFourDigits`: the four-digit match is modelled, but the regular-expression
  engine is not.
- FavoritesContext.FavoritesProvider.ToggleFavorite: requires a movie. The source reads
  `movie.Title` before anything else, so a null movie throws there.
- `LocalStorage.SyncReport.SyncedCount`: the 'Synced N items' message text is not
  modelled; only the count is.
- Other parts of the offline store are outside the favorites core and are not modelled:
  - `addToSearchHistory` and `getRecentlySearched`;
  - `clearRecentlySearched`;
  - user registration, login and session;
  - preferences;
  - import and export;
  - storage usage;
  - `clearAllData`;
  - `getSyncSummary` and `initializeUser`.
- The API module's movie search and detail requests are not modelled. They are network
  calls; only their cache and client-side filters are modelled.

## Findings

| source | as written | input that shows it | evidently intended | confidence | as-written member | corrected member |
|---|---|---|---|---|---|---|
| backend/routes/favRoutes.js:24-27 | `DELETE /:userId/:movieId` is registered before `DELETE /:userId/clear`, so the parameterised route takes every clear request | `DELETE /u1/clear` runs `removeFavorite` with movieId "clear": it deletes at most the one document stored under "clear", and answers 404 when there is none | the clear request reaches `clearAllFavorites`, which deletes all of the user's favorites | high, not executed | FavRoutes.ClearRequestReachesRemove | FavRoutes.CorrectedClearReachesClear |

=== FILE: client_filters.dfy ===
/**
 * `applyClientSideFilters`: narrows a list of search results by year, genre, language and
 * rating certificate. A filter field that is "" is not applied; a movie stays when it
 * passes every applied filter, and the survivors keep their order.
 */
module ClientFilters {
  import opened Wrappers
  import opened Text
  import opened Seqs

  /**
   * The keys of a result the filters read; a missing key is "". `genres` is the
   * `toString()` of the TMDB `genres` value.
   */
  datatype FilterMovie = FilterMovie(
    Year: string, release_date: string, Genre: string, genres: string,
    Language: string, language: string, original_language: string,
    Rated: string, rating: string)

  datatype Filters = Filters(year: string, genre: string, language: string, rating: string)

  const NoFilters: Filters := Filters("", "", "", "")

  /** Four digits start at position `i` of `s`. */
  predicate DigitRunAt(s: string, i: nat) {
    i + 4 <= |s| && AllDigits(s[i..i + 4])
  }

  /** Where the first run of four digits at or after position `from` starts. */
  function FirstDigitRun(s: string, from: nat): (r: Option<nat>)
    ensures r.Some? ==> from <= r.value && DigitRunAt(s, r.value)
    ensures r.Some? ==> forall j :: from <= j < r.value ==> !DigitRunAt(s, j)
    ensures r.None? ==> forall j :: from <= j ==> !DigitRunAt(s, j)
    decreases |s| - from
  {
    if from + 4 > |s| then None
    else if DigitRunAt(s, from) then Some(from)
    else FirstDigitRun(s, from + 1)
  }

  /** The match of `/(\d{4})/`: the leftmost run of four digits, if any. */
  function FirstFourDigits(s: string): (r: Option<string>)
    ensures r.Some? ==> exists i: nat :: DigitRunAt(s, i) && r.value == s[i..i + 4]
                                    && forall j :: 0 <= j < i ==> !DigitRunAt(s, j)
    ensures r.None? ==> forall j: nat :: !DigitRunAt(s, j)
  {
    match FirstDigitRun(s, 0)
    case Some(i) => Some(s[i..i + 4])
    case None => None
  }

  /** The year a movie is filtered by: the first four-digit run of `Year || release_date`, else that whole text, else none. */
  function MovieYear(m: FilterMovie): (y: Option<string>)
    ensures y.Some? ==> y.value != ""
    ensures y.None? <==> m.Year == "" && m.release_date == ""
    ensures var text := OrElse(m.Year, m.release_date);
            forall i: nat :: DigitRunAt(text, i) && (forall j :: 0 <= j < i ==> !DigitRunAt(text, j))
                             ==> y == Some(text[i..i + 4])
    ensures var text := OrElse(m.Year, m.release_date);
            text != "" && (forall j: nat :: !DigitRunAt(text, j)) ==> y == Some(text)
  {
    var text := OrElse(m.Year, m.release_date);
    match FirstFourDigits(text)
    case Some(found) => Some(found)
    case None => if text != "" then Some(text) else None
  }

  /**
   * The year filter compares the leftmost four-digit run of `Year || release_date` when
   * there is one, and otherwise that whole text, which must then be non-empty.
   */
  function YearPasses(m: FilterMovie, year: string): (r: bool)
    ensures r ==> year != "" && (m.Year != "" || m.release_date != "")
    ensures var text := OrElse(m.Year, m.release_date);
            forall i: nat :: DigitRunAt(text, i) && (forall j :: 0 <= j < i ==> !DigitRunAt(text, j))
                             ==> (r <==> year == text[i..i + 4])
    ensures var text := OrElse(m.Year, m.release_date);
            (forall j: nat :: !DigitRunAt(text, j)) ==> (r <==> year != "" && year == text)
  {
    var y := MovieYear(m);
    y.Some? && y.value == year
  }

  /** The genre filter is a case-insensitive substring test; "" is in every genre. */
  function GenrePasses(m: FilterMovie, genre: string): (r: bool)
    ensures genre == "" ==> r
  {
    Contains(Lower(OrElse(m.Genre, m.genres)), Lower(genre))
  }

  /** The language names a two-letter code also matches. */
  function LanguageName(code: string): Option<string> {
    if code == "ko" then Some("korean")
    else if code == "ja" then Some("japanese")
    else if code == "zh" then Some("chinese")
    else if code == "hi" then Some("hindi")
    else if code == "es" then Some("spanish")
    else if code == "fr" then Some("french")
    else if code == "de" then Some("german")
    else None
  }

  function LanguagePasses(m: FilterMovie, language: string): (r: bool)
    ensures language == "" ==> r
  {
    var movieLanguage := Lower(OrElse(OrElse(m.Language, m.language), m.original_language));
    Contains(movieLanguage, Lower(language))
    || (LanguageName(language).Some? && Contains(movieLanguage, LanguageName(language).value))
  }

  /** `Rated` wins over `rating`, and a movie with neither passes no rating filter. */
  function RatingPasses(m: FilterMovie, rating: string): (r: bool)
    ensures r <==> rating != "" && (if m.Rated != "" then m.Rated == rating else m.rating == rating)
  {
    var movieRating := OrElse(m.Rated, m.rating);
    movieRating != "" && movieRating == rating
  }

  /** The per-movie test: every non-empty filter field passes. */
  function Keep(f: Filters): (keep: FilterMovie -> bool)
    ensures f == NoFilters ==> forall m :: keep(m)
    ensures forall m :: keep(m) && f.year != "" ==> YearPasses(m, f.year)
    ensures forall m :: keep(m) && f.genre != "" ==> GenrePasses(m, f.genre)
    ensures forall m :: keep(m) && f.language != "" ==> LanguagePasses(m, f.language)
    ensures forall m :: keep(m) && f.rating != "" ==> RatingPasses(m, f.rating)
  {
    (m: FilterMovie) =>
      (f.year != "" ==> YearPasses(m, f.year))
      && (f.genre != "" ==> GenrePasses(m, f.genre))
      && (f.language != "" ==> LanguagePasses(m, f.language))
      && (f.rating != "" ==> RatingPasses(m, f.rating))
  }

  /** `movies` is none when the argument is not an array. */
  function ApplyClientSideFilters(movies: Option<seq<FilterMovie>>, f: Filters): (r: seq<FilterMovie>)
    ensures movies.None? || movies.value == [] ==> r == []
    ensures movies.Some? ==> forall m :: m in r <==> m in movies.value && Keep(f)(m)
  {
    if movies.None? || |movies.value| == 0 then []
    else
      var r := Filter(movies.value, Keep(f));
      assert forall m :: m in r ==> Keep(f)(m);
      r
  }

  /** The result keeps a subset of the input in the input's order. */
  lemma FilteredIsSubsequence(movies: Option<seq<FilterMovie>>, f: Filters)
    ensures movies.Some? ==> Subsequence(ApplyClientSideFilters(movies, f), movies.value)
  {
    if movies.Some? && movies.value != [] {
      FilterSubsequence(movies.value, Keep(f));
    }
  }

  /** The genre filter ignores the case of the genre asked for. */
  lemma GenreIgnoresCase(m: FilterMovie, genre: string)
    ensures GenrePasses(m, genre) <==> GenrePasses(m, Lower(genre))
  {
    LowerIdempotent(genre);
  }

  /** With every filter field empty the input comes back whole. */
  lemma NoFiltersKeepsAll(movies: seq<FilterMovie>)
    ensures ApplyClientSideFilters(Some(movies), NoFilters) == movies
  {
    if movies != [] {
      FilterKeepsAll(movies, Keep(NoFilters));
    }
  }

  /** A movie dated only by its release date is filtered by that date's year. */
  lemma ReleaseDateYear(m: FilterMovie)
    requires m.Year == "" && m.release_date == "2010-07-16"
    ensures YearPasses(m, "2010") && !YearPasses(m, "2011")
  {
    assert AllDigits(m.release_date[..4]) by {
      assert m.release_date[..4] == "2010";
    }
  }

  /** The code "ko" also matches a movie whose language is spelt out as "Korean". */
  lemma KoreanMatchesKo(m: FilterMovie)
    requires m.Language == "Korean"
    ensures LanguagePasses(m, "ko")
  {
    assert Lower("Korean") == "korean";
    assert StartsWith("korean", "korean");
  }
}

=== FILE: dedup.dfy ===
/**
 * The scan at the heart of `cleanupDuplicates`: walking a user's favorites oldest first,
 * the first entry with a given `${title.toLowerCase()}-${year}` key survives and every
 * later entry with that key is marked for deletion.
 */
module Dedup {
  import opened Text
  import opened Seqs
  import opened FavoriteModel

  /** `${title.toLowerCase()}-${year}` */
  function DuplicateKey(e: Entry): string {
    Lower(e.title) + "-" + e.year
  }

  /** A year without '-' can be read back from the key as its last segment. */
  lemma DuplicateKeyYear(e: Entry)
    requires '-' !in e.year
    ensures LastSegment(DuplicateKey(e), '-') == e.year
  {
    LastSegmentAfter(Lower(e.title), '-', e.year);
  }

  /**
   * For years without '-', two entries share a key exactly when their titles agree up to
   * case and their years are the same.
   */
  lemma SameKeySameTitleYear(a: Entry, b: Entry)
    requires '-' !in a.year && '-' !in b.year
    ensures DuplicateKey(a) == DuplicateKey(b) <==> Lower(a.title) == Lower(b.title) && a.year == b.year
  {
    if DuplicateKey(a) == DuplicateKey(b) {
      var k := DuplicateKey(a);
      DuplicateKeyYear(a);
      DuplicateKeyYear(b);
      assert a.year == b.year;
      assert Lower(a.title) == k[..|k| - |a.year| - 1];
      assert Lower(b.title) == k[..|k| - |b.year| - 1];
    }
  }

  /** The entries the scan marks for deletion, given the keys already in the `seen` map. */
  function Duplicates(s: seq<Entry>, seen: set<string>): (r: seq<Entry>)
    ensures |r| <= |s|
    ensures forall i :: 0 <= i < |r| ==> r[i] in s
  {
    if s == [] then []
    else if DuplicateKey(s[0]) in seen then [s[0]] + Duplicates(s[1..], seen)
    else Duplicates(s[1..], seen + {DuplicateKey(s[0])})
  }

  /** The entries the scan keeps: each has a key not seen before it, so their keys are distinct. */
  function Survivors(s: seq<Entry>, seen: set<string>): (r: seq<Entry>)
    ensures |r| <= |s|
    ensures forall i :: 0 <= i < |r| ==> r[i] in s && DuplicateKey(r[i]) !in seen
    ensures forall i, j :: 0 <= i < j < |r| ==> DuplicateKey(r[i]) != DuplicateKey(r[j])
  {
    if s == [] then []
    else if DuplicateKey(s[0]) in seen then Survivors(s[1..], seen)
    else [s[0]] + Survivors(s[1..], seen + {DuplicateKey(s[0])})
  }

  /** Every scanned entry is either kept or deleted, never both and never neither. */
  lemma {:induction false} ScanPartition(s: seq<Entry>, seen: set<string>)
    ensures multiset(Survivors(s, seen)) + multiset(Duplicates(s, seen)) == multiset(s)
    ensures |Survivors(s, seen)| + |Duplicates(s, seen)| == |s|
  {
    if s != [] {
      assert s == [s[0]] + s[1..];
      if DuplicateKey(s[0]) in seen {
        ScanPartition(s[1..], seen);
      } else {
        ScanPartition(s[1..], seen + {DuplicateKey(s[0])});
      }
    }
  }

  /** An entry whose key was seen, or occurs earlier in the scan, is deleted. */
  lemma {:induction false} LaterDuplicateDeleted(s: seq<Entry>, seen: set<string>, j: nat)
    requires j < |s|
    requires DuplicateKey(s[j]) in seen
             || exists i :: 0 <= i < j && DuplicateKey(s[i]) == DuplicateKey(s[j])
    ensures s[j] in Duplicates(s, seen)
  {
    var k0 := DuplicateKey(s[0]);
    var seen' := if k0 in seen then seen else seen + {k0};
    if j > 0 {
      assert s[1..][j - 1] == s[j];
      if DuplicateKey(s[j]) !in seen' {
        var i :| 0 <= i < j && DuplicateKey(s[i]) == DuplicateKey(s[j]);
        assert i > 0;
        assert s[1..][i - 1] == s[i];
      }
      LaterDuplicateDeleted(s[1..], seen', j - 1);
    }
  }

  /** The first entry with a key not yet seen survives. */
  lemma {:induction false} FirstOccurrenceKept(s: seq<Entry>, seen: set<string>, j: nat)
    requires j < |s| && DuplicateKey(s[j]) !in seen
    requires forall i :: 0 <= i < j ==> DuplicateKey(s[i]) != DuplicateKey(s[j])
    ensures s[j] in Survivors(s, seen)
  {
    if j > 0 {
      var k0 := DuplicateKey(s[0]);
      var seen' := if k0 in seen then seen else seen + {k0};
      assert s[1..][j - 1] == s[j];
      forall i | 0 <= i < j - 1 ensures DuplicateKey(s[1..][i]) != DuplicateKey(s[1..][j - 1]) {
        assert s[1..][i] == s[i + 1];
      }
      FirstOccurrenceKept(s[1..], seen', j - 1);
    }
  }

  /** A scan over entries without repeats deletes no entry twice. */
  lemma {:induction false} DuplicatesDistinct(s: seq<Entry>, seen: set<string>)
    requires Distinct(s)
    ensures Distinct(Duplicates(s, seen))
  {
    if s != [] {
      var rest := s[1..];
      assert Distinct(rest) by {
        forall i, j | 0 <= i < j < |rest| ensures rest[i] != rest[j] {
          assert rest[i] == s[i + 1] && rest[j] == s[j + 1];
        }
      }
      if DuplicateKey(s[0]) in seen {
        DuplicatesDistinct(rest, seen);
        var d := Duplicates(rest, seen);
        var r := [s[0]] + d;
        forall i, j | 0 <= i < j < |r| ensures r[i] != r[j] {
          if i == 0 {
            assert r[j] == d[j - 1] && d[j - 1] in rest;
            var k :| 0 <= k < |rest| && rest[k] == r[j];
            assert s[k + 1] == r[j];
          } else {
            assert r[i] == d[i - 1] && r[j] == d[j - 1];
          }
        }
      } else {
        DuplicatesDistinct(rest, seen + {DuplicateKey(s[0])});
      }
    }
  }
}

=== FILE: entry_order.dfy ===
/**
 * `.sort({ addedAt: 1 })` and `.sort({ addedAt: -1 })` on a query result: an insertion sort
 * on `addedAt`, proved to give an ordered permutation of its input. Mongo leaves the order of
 * equal `addedAt` values open; this model keeps them in input order.
 */
module EntryOrder {
  import opened FavoriteModel

  /** `a` may come before `b`: oldest first when ascending, newest first when descending. */
  predicate Precedes(a: Entry, b: Entry, descending: bool) {
    if descending then a.addedAt >= b.addedAt else a.addedAt <= b.addedAt
  }

  predicate Ordered(s: seq<Entry>, descending: bool) {
    forall i, j :: 0 <= i < j < |s| ==> Precedes(s[i], s[j], descending)
  }

  /** Places `e` before the first element it precedes. */
  function Insert(e: Entry, s: seq<Entry>, descending: bool): (r: seq<Entry>)
    ensures |r| == |s| + 1
    ensures multiset(r) == multiset(s) + multiset{e}
  {
    if s == [] then [e]
    else if Precedes(e, s[0], descending) then [e] + s
    else
      assert s == [s[0]] + s[1..];
      [s[0]] + Insert(e, s[1..], descending)
  }

  /** An element that precedes every element of an ordered list can be put in front of it. */
  lemma ConsOrdered(x: Entry, t: seq<Entry>, descending: bool)
    requires Ordered(t, descending)
    requires forall k :: 0 <= k < |t| ==> Precedes(x, t[k], descending)
    ensures Ordered([x] + t, descending)
  {
    var r := [x] + t;
    forall i, j | 0 <= i < j < |r| ensures Precedes(r[i], r[j], descending) {
      assert r[j] == t[j - 1];
      if i > 0 {
        assert r[i] == t[i - 1];
      }
    }
  }

  /** Inserting into an ordered list keeps it ordered. */
  lemma {:induction false} InsertOrdered(e: Entry, s: seq<Entry>, descending: bool)
    requires Ordered(s, descending)
    ensures Ordered(Insert(e, s, descending), descending)
  {
    if s == [] {
    } else if Precedes(e, s[0], descending) {
      ConsOrdered(e, s, descending);
    } else {
      var rest := s[1..];
      assert Ordered(rest, descending) by {
        forall i, j | 0 <= i < j < |rest| ensures Precedes(rest[i], rest[j], descending) {
          assert rest[i] == s[i + 1] && rest[j] == s[j + 1];
        }
      }
      InsertOrdered(e, rest, descending);
      var tail := Insert(e, rest, descending);
      forall k | 0 <= k < |tail| ensures Precedes(s[0], tail[k], descending) {
        assert tail[k] in multiset(rest) + multiset{e};
        if tail[k] != e {
          assert tail[k] in rest;
          var m :| 0 <= m < |rest| && rest[m] == tail[k];
          assert s[m + 1] == tail[k];
        }
      }
      ConsOrdered(s[0], tail, descending);
    }
  }

  function SortByAddedAt(s: seq<Entry>, descending: bool): (r: seq<Entry>)
    ensures |r| == |s|
    ensures multiset(r) == multiset(s)
  {
    if s == [] then []
    else
      assert s == [s[0]] + s[1..];
      Insert(s[0], SortByAddedAt(s[1..], descending), descending)
  }

  /** The sort returns its input, reordered so that `addedAt` runs the requested way. */
  lemma {:induction false} SortOrdered(s: seq<Entry>, descending: bool)
    ensures Ordered(SortByAddedAt(s, descending), descending)
  {
    if s != [] {
      SortOrdered(s[1..], descending);
      InsertOrdered(s[0], SortByAddedAt(s[1..], descending), descending);
    }
  }

  /** Sorting does not add or lose any element. */
  lemma SortSameElements(s: seq<Entry>, descending: bool, e: Entry)
    ensures e in SortByAddedAt(s, descending) <==> e in s
  {
    assert e in SortByAddedAt(s, descending) <==> e in multiset(SortByAddedAt(s, descending));
  }
}

=== FILE: fav_routes.dfy ===
/**
 * The favorites router: routes are tried in registration order and the first whose verb
 * and path pattern match the request gets it. As registered, `DELETE /:userId/:movieId`
 * precedes `DELETE /:userId/clear`, so a clear request reaches `removeFavorite` with the
 * movie id "clear". `Corrected` registers the literal route first.
 */
module FavRoutes {
  import opened Wrappers
  import opened FavoriteModel
  import opened FavoriteController
  import opened Text
  import MovieIdentity

  datatype Verb = Get | Post | Delete

  /** A path segment pattern: a `:param` (any non-empty segment) or a literal. */
  datatype Segment = Param | Literal(text: string)

  datatype Handler =
    | GetUserFavoritesHandler | CheckFavoriteHandler | AddFavoriteHandler | RemoveFavoriteHandler
    | ClearAllFavoritesHandler | UpdateFavoritePostersHandler | CleanupDuplicatesHandler

  datatype Route = Route(verb: Verb, pattern: seq<Segment>, handler: Handler)

  predicate SegmentMatches(p: Segment, s: string) {
    s != "" && (p.Param? || p.text == s)
  }

  predicate RouteMatches(r: Route, verb: Verb, path: seq<string>) {
    r.verb == verb && |r.pattern| == |path|
    && forall i :: 0 <= i < |path| ==> SegmentMatches(r.pattern[i], path[i])
  }

  /** The position of the first registered route that matches the request. */
  function FirstRoute(routes: seq<Route>, verb: Verb, path: seq<string>): (r: Option<nat>)
    ensures r.Some? ==> r.value < |routes| && RouteMatches(routes[r.value], verb, path)
    ensures r.Some? ==> forall j :: 0 <= j < r.value ==> !RouteMatches(routes[j], verb, path)
    ensures r.None? ==> forall j :: 0 <= j < |routes| ==> !RouteMatches(routes[j], verb, path)
  {
    if routes == [] then None
    else if RouteMatches(routes[0], verb, path) then Some(0)
    else match FirstRoute(routes[1..], verb, path)
      case None => None
      case Some(k) => Some(k + 1)
  }

  /** The handler the router calls, or none (Express's 404). */
  function Dispatch(routes: seq<Route>, verb: Verb, path: seq<string>): (h: Option<Handler>)
    ensures h.None? <==> forall j :: 0 <= j < |routes| ==> !RouteMatches(routes[j], verb, path)
    ensures h.Some? ==> exists k :: 0 <= k < |routes| && RouteMatches(routes[k], verb, path)
                                    && h.value == routes[k].handler
                                    && forall j :: 0 <= j < k ==> !RouteMatches(routes[j], verb, path)
  {
    match FirstRoute(routes, verb, path)
    case None => None
    case Some(k) => Some(routes[k].handler)
  }

  /** A literal segment is more specific than a parameter: the clear route's requests all match the remove route. */
  lemma RemoveRouteCoversClear(verb: Verb, path: seq<string>)
    requires RouteMatches(ClearRoute, verb, path)
    ensures RouteMatches(RemoveRoute, verb, path)
  {
    assert SegmentMatches(ClearRoute.pattern[0], path[0]) && SegmentMatches(ClearRoute.pattern[1], path[1]);
  }

  const RemoveRoute: Route := Route(Delete, [Param, Param], RemoveFavoriteHandler)
  const ClearRoute: Route := Route(Delete, [Param, Literal("clear")], ClearAllFavoritesHandler)

  /** The routes in the order the router registers them. */
  const AsWritten: seq<Route> := [
    Route(Get, [Param], GetUserFavoritesHandler),
    Route(Get, [Param, Literal("check"), Param], CheckFavoriteHandler),
    Route(Post, [], AddFavoriteHandler),
    RemoveRoute,
    ClearRoute,
    Route(Post, [Literal("update-posters"), Param], UpdateFavoritePostersHandler),
    Route(Post, [Param, Literal("cleanup-duplicates")], CleanupDuplicatesHandler)
  ]

  /** The same routes with the literal clear route registered before the parameterised one. */
  const Corrected: seq<Route> := AsWritten[..3] + [ClearRoute, RemoveRoute] + AsWritten[5..]

  /** As registered, no request ever reaches `clearAllFavorites`. */
  lemma ClearUnreachableAsWritten(verb: Verb, path: seq<string>)
    ensures Dispatch(AsWritten, verb, path) != Some(ClearAllFavoritesHandler)
  {
    var r := FirstRoute(AsWritten, verb, path);
    if r == Some(4) {
      assert AsWritten[3] == RemoveRoute && AsWritten[4] == ClearRoute;
      RemoveRouteCoversClear(verb, path);
      assert false;
    }
    if r.Some? && r.value != 4 {
      var k := r.value;
      assert k in {0, 1, 2, 3, 5, 6};
      assert AsWritten[k].handler != ClearAllFavoritesHandler;
    }
  }

  /** As registered, the client's clear request `DELETE /<user>/clear` goes to `removeFavorite`. */
  lemma ClearRequestReachesRemove(userId: string)
    requires userId != ""
    ensures Dispatch(AsWritten, Delete, [userId, "clear"]) == Some(RemoveFavoriteHandler)
  {
    assert RouteMatches(AsWritten[3], Delete, [userId, "clear"]);
  }

  /**
   * There it is an ordinary removal of the movie id "clear": it deletes at most the one
   * entry stored under that id, and answers 404 when there is none.
   */
  lemma ClearAsRemovalDeletesAtMostOne(entries: seq<Entry>, userId: string)
    ensures RemoveTarget(entries, userId, "clear") == FirstMatch(entries, ByPair(userId, "clear"))
  {
    assert !AllDigits("clear") by { assert !IsDigit("clear"[0]); }
    assert !StartsWith("clear", TmdbPrefix) by { assert "clear"[0] != TmdbPrefix[0]; }
    assert !StartsWith("clear", MovieIdentity.CustomPrefix) by { assert "clear"[1] != MovieIdentity.CustomPrefix[1]; }
  }

  /** With the corrected order the clear request reaches `clearAllFavorites`. */
  lemma CorrectedClearReachesClear(userId: string)
    requires userId != ""
    ensures Dispatch(Corrected, Delete, [userId, "clear"]) == Some(ClearAllFavoritesHandler)
  {
    var path := [userId, "clear"];
    assert Corrected[3] == ClearRoute;
    assert RouteMatches(ClearRoute, Delete, path);
    assert !RouteMatches(Corrected[0], Delete, path) && !RouteMatches(Corrected[1], Delete, path)
        && !RouteMatches(Corrected[2], Delete, path);
  }

  /** The correction changes the handler of no request other than the clear request. */
  lemma CorrectionOnlyAffectsClear(verb: Verb, path: seq<string>)
    requires !RouteMatches(ClearRoute, verb, path)
    ensures Dispatch(Corrected, verb, path) == Dispatch(AsWritten, verb, path)
  {
    var w, c := FirstRoute(AsWritten, verb, path), FirstRoute(Corrected, verb, path);
    assert forall j :: 0 <= j < 3 ==> Corrected[j] == AsWritten[j];
    assert Corrected[3] == AsWritten[4] && Corrected[4] == AsWritten[3];
    assert forall j :: 5 <= j < 7 ==> Corrected[j] == AsWritten[j];
    if w.Some? {
      assert c.Some?;
    }
  }
}

=== FILE: favorite_api.dfy ===
/**
 * The client API's favorite check and toggle. `checkIfFavorite` asks for the user's
 * favorites and looks for the id among their `movieId`s (server records) and `imdbID`s
 * (offline records); `toggleFavorite` removes when that check holds and adds otherwise.
 * The list request is a parameter; when it throws, the offline store's answer is used.
 */
module FavoriteApi {
  import opened Wrappers
  import opened FavoriteModel
  import opened SyncQueue

  /** A favorite as the list request returns it; a key the record lacks is "". */
  datatype ApiFavorite = ApiFavorite(movieId: string, imdbID: string)

  /** What `getUserFavorites` resolved to, or that it threw. */
  datatype ListResult = ListResult(success: bool, favorites: Option<seq<ApiFavorite>>) | Threw

  predicate Listed(favorites: seq<ApiFavorite>, movieId: string) {
    exists i :: 0 <= i < |favorites| && (favorites[i].movieId == movieId || favorites[i].imdbID == movieId)
  }

  /**
   * `checkIfFavorite`: for a successful answer with a list, whether some record carries the
   * id; false for any other answer; the offline store's `isFavorite` when the request threw.
   */
  function CheckIfFavorite(result: ListResult, movieId: string, offlineIsFavorite: bool): (r: bool)
    ensures result.Threw? ==> r == offlineIsFavorite
    ensures result.ListResult? && !(result.success && result.favorites.Some?) ==> !r
    ensures result.ListResult? && result.success && result.favorites.Some? ==>
              (r <==> exists i :: 0 <= i < |result.favorites.value|
                                  && (result.favorites.value[i].movieId == movieId
                                      || result.favorites.value[i].imdbID == movieId))
  {
    match result
    case Threw => offlineIsFavorite
    case ListResult(success, favorites) => success && favorites.Some? && Listed(favorites.value, movieId)
  }

  /** A server record carries `movieId` and no `imdbID`. */
  function FromServer(e: Entry): ApiFavorite {
    ApiFavorite(e.movieId, "")
  }

  function FromServerAll(entries: seq<Entry>): (r: seq<ApiFavorite>)
    ensures |r| == |entries|
    ensures forall i :: 0 <= i < |entries| ==> r[i] == FromServer(entries[i])
  {
    if entries == [] then [] else [FromServer(entries[0])] + FromServerAll(entries[1..])
  }

  /** An offline record carries `imdbID` and no `movieId`. */
  function FromOffline(f: LocalFavorite): ApiFavorite {
    ApiFavorite("", f.imdbID)
  }

  function FromOfflineAll(s: seq<LocalFavorite>): (r: seq<ApiFavorite>)
    ensures |r| == |s|
    ensures forall i :: 0 <= i < |s| ==> r[i] == FromOffline(s[i])
  {
    if s == [] then [] else [FromOffline(s[0])] + FromOfflineAll(s[1..])
  }

  /** Answered from the server's list, the check holds exactly when the user has an entry for the movie. */
  lemma CheckAgainstServer(entries: seq<Entry>, movieId: string, offline: bool)
    requires movieId != ""
    ensures CheckIfFavorite(ListResult(true, Some(FromServerAll(entries))), movieId, offline)
        <==> exists i :: 0 <= i < |entries| && entries[i].movieId == movieId
  {
    var favorites := FromServerAll(entries);
    if Listed(favorites, movieId) {
      var i :| 0 <= i < |favorites| && (favorites[i].movieId == movieId || favorites[i].imdbID == movieId);
      assert favorites[i] == ApiFavorite(entries[i].movieId, "");
      assert entries[i].movieId == movieId;
    }
    if exists i :: 0 <= i < |entries| && entries[i].movieId == movieId {
      var i :| 0 <= i < |entries| && entries[i].movieId == movieId;
      assert favorites[i].movieId == movieId;
    }
  }

  /** Answered from the offline list, the check holds exactly when a stored record has the id. */
  lemma CheckAgainstOffline(s: seq<LocalFavorite>, movieId: string, offline: bool)
    requires movieId != ""
    ensures CheckIfFavorite(ListResult(true, Some(FromOfflineAll(s))), movieId, offline) <==> HasId(s, movieId)
  {
    var favorites := FromOfflineAll(s);
    if HasId(s, movieId) {
      var i :| 0 <= i < |s| && s[i].imdbID == movieId;
      assert favorites[i].imdbID == movieId;
    }
  }

  /** The request `toggleFavorite` sends. */
  datatype ToggleRequest = RemoveMovie(movieId: string) | AddMovie

  /** `toggleFavorite`: remove the movie's id when the check holds, add the movie otherwise. */
  function Toggle(result: ListResult, movieId: string, offlineIsFavorite: bool): (req: ToggleRequest)
    ensures req.RemoveMovie? <==> CheckIfFavorite(result, movieId, offlineIsFavorite)
    ensures req.RemoveMovie? ==> req.movieId == movieId
  {
    if CheckIfFavorite(result, movieId, offlineIsFavorite) then RemoveMovie(movieId) else AddMovie
  }

  /** Against the server's list, the toggle removes exactly the movies the user has an entry for. */
  lemma ToggleAgainstServer(entries: seq<Entry>, movieId: string, offline: bool)
    requires movieId != ""
    ensures Toggle(ListResult(true, Some(FromServerAll(entries))), movieId, offline) == RemoveMovie(movieId)
        <==> exists i :: 0 <= i < |entries| && entries[i].movieId == movieId
    ensures Toggle(ListResult(true, Some(FromServerAll(entries))), movieId, offline) != RemoveMovie(movieId)
        ==> Toggle(ListResult(true, Some(FromServerAll(entries))), movieId, offline) == AddMovie
  {
    CheckAgainstServer(entries, movieId, offline);
  }

  /** A failed or listless answer makes the toggle add, even for a movie that is a favorite. */
  lemma FailedListAdds(favorites: Option<seq<ApiFavorite>>, movieId: string, offline: bool)
    ensures Toggle(ListResult(false, favorites), movieId, offline) == AddMovie
    ensures Toggle(ListResult(true, None), movieId, offline) == AddMovie
  {
  }
}

=== FILE: favorite_controller.dfy ===
/**
 * The favorites controller over an in-memory collection. The collection is a sequence of
 * entries in natural (insertion) order whose (userId, movieId) pairs are unique; each
 * handler is a method of the store, and the OMDb/TMDB answers the poster lookup would get
 * are parameters.
 */
module FavoriteController {
  import opened Wrappers
  import opened Text
  import opened Seqs
  import opened FavoriteModel
  import opened EntryOrder
  import opened Dedup
  import MovieIdentity

  /** The filters the handlers pass to `findOne` and `findOneAndDelete`. */
  datatype Query =
    | ByPair(userId: string, movieId: string)              // { userId, movieId }
    | ByTitleYear(userId: string, title: string, year: string)  // { userId, title: /^title$/i, year }
    | ByYear(userId: string, year: string)                 // { userId, year }

  /**
   * Whether a document satisfies a filter. The title filter is the title, regex-escaped and
   * anchored at both ends with the `i` flag: an equality of titles up to case.
   */
  predicate Matches(q: Query, e: Entry) {
    match q
    case ByPair(u, m) => e.userId == u && e.movieId == m
    case ByTitleYear(u, t, y) => e.userId == u && Lower(e.title) == Lower(t) && e.year == y
    case ByYear(u, y) => e.userId == u && e.year == y
  }

  predicate Found(entries: seq<Entry>, q: Query) {
    exists i :: 0 <= i < |entries| && Matches(q, entries[i])
  }

  /** The position of the document `findOne` returns: the first match in natural order. */
  function FirstMatch(entries: seq<Entry>, q: Query): (r: Option<nat>)
    ensures r.Some? ==> r.value < |entries| && Matches(q, entries[r.value])
    ensures r.Some? ==> forall j :: 0 <= j < r.value ==> !Matches(q, entries[j])
    ensures r.None? <==> !Found(entries, q)
  {
    if entries == [] then None
    else if Matches(q, entries[0]) then Some(0)
    else match FirstMatch(entries[1..], q)
      case None => None
      case Some(k) => Some(k + 1)
  }

  // ---------------------------------------------------------------- the poster lookup

  /** What the OMDb request produced: its `Response` and `Poster` fields, or a thrown error. */
  datatype OmdbReply = OmdbAnswer(response: string, poster: string) | OmdbUnreachable

  /** What the TMDB request produced: its `poster_path` ('' when absent), or a thrown error. */
  datatype TmdbReply = TmdbAnswer(posterPath: string) | TmdbUnreachable

  const TmdbImageBase: string := "https://image.tmdb.org/t/p/w500"

  /**
   * `fetchMoviePoster`: the OMDb poster when OMDb answers 'True' with a real poster;
   * otherwise, for an all-digit (TMDB) id only, the TMDB image URL; otherwise 'N/A'.
   * Any thrown error gives 'N/A'.
   */
  function FetchMoviePoster(movieId: string, omdb: OmdbReply, tmdb: TmdbReply): (poster: string)
    ensures omdb.OmdbAnswer? && omdb.response == "True" && omdb.poster != NotAvailable
            ==> poster == omdb.poster
    ensures (omdb.OmdbAnswer? && !(omdb.response == "True" && omdb.poster != NotAvailable)
             && AllDigits(movieId) && tmdb.TmdbAnswer? && tmdb.posterPath != "")
            ==> poster == TmdbImageBase + tmdb.posterPath
    ensures poster != NotAvailable ==>
              (omdb.OmdbAnswer? && omdb.response == "True" && poster == omdb.poster)
              || (AllDigits(movieId) && tmdb.TmdbAnswer? && tmdb.posterPath != ""
                  && poster == TmdbImageBase + tmdb.posterPath)
    ensures omdb.OmdbUnreachable? ==> poster == NotAvailable
    ensures (omdb.OmdbAnswer? && !(omdb.response == "True" && omdb.poster != NotAvailable)
             && !AllDigits(movieId))
            ==> poster == NotAvailable
  {
    match omdb
    case OmdbUnreachable => NotAvailable
    case OmdbAnswer(response, p) =>
      if response == "True" && p != NotAvailable then p
      else if AllDigits(movieId) then
        match tmdb
        case TmdbUnreachable => NotAvailable
        case TmdbAnswer(path) => if path != "" then TmdbImageBase + path else NotAvailable
      else NotAvailable
  }

  /** TMDB is consulted for all-digit ids only: for any other id its answer is irrelevant. */
  lemma TmdbOnlyForNumericIds(movieId: string, omdb: OmdbReply, t1: TmdbReply, t2: TmdbReply)
    requires !AllDigits(movieId)
    ensures FetchMoviePoster(movieId, omdb, t1) == FetchMoviePoster(movieId, omdb, t2)
  {
  }

  // ---------------------------------------------------------------- addFavorite

  /** `posterPath || poster`: a TMDB path given by the client wins over a plain poster. */
  function RequestedPoster(req: AddRequest): (r: string)
    ensures req.posterPath != "" ==> r == req.posterPath
    ensures r == "" <==> req.posterPath == "" && req.poster == ""
  {
    OrElse(req.posterPath, req.poster)
  }

  /**
   * The poster `addFavorite` stores: a TMDB path (leading '/') becomes a full image URL,
   * an empty or 'N/A' poster is looked up, any other value is kept.
   */
  function FinalPoster(req: AddRequest, omdb: OmdbReply, tmdb: TmdbReply): (p: string)
    ensures StartsWith(RequestedPoster(req), "/") ==> p == TmdbImageBase + RequestedPoster(req)
    ensures (RequestedPoster(req) == "" || RequestedPoster(req) == NotAvailable)
            ==> p == FetchMoviePoster(req.movieId, omdb, tmdb)
    ensures (!StartsWith(RequestedPoster(req), "/") && RequestedPoster(req) != ""
             && RequestedPoster(req) != NotAvailable) ==> p == RequestedPoster(req)
  {
    var chosen := RequestedPoster(req);
    assert !StartsWith(NotAvailable, "/") by { assert NotAvailable[0] != '/'; }
    if chosen != "" && StartsWith(chosen, "/") then TmdbImageBase + chosen
    else if chosen == "" || chosen == NotAvailable then FetchMoviePoster(req.movieId, omdb, tmdb)
    else chosen
  }

  /** A non-empty `posterPath` makes the `poster` field irrelevant. */
  lemma PosterPathTakesPrecedence(req: AddRequest, other: string, omdb: OmdbReply, tmdb: TmdbReply)
    requires req.posterPath != ""
    ensures FinalPoster(req.(poster := other), omdb, tmdb) == FinalPoster(req, omdb, tmdb)
  {
  }

  /**
   * The document `new Favorite({...})` builds: `||` defaults for the optional fields and the
   * clock for `addedAt`. `runtime` and `plot` are not schema paths and are dropped.
   */
  function NewFavorite(req: AddRequest, poster: string, now: int): (e: Entry)
    ensures e.userId == req.userId && e.movieId == req.movieId
    ensures e.poster == poster && e.addedAt == now
    ensures e.title == (if req.title != "" then req.title else "Unknown")
    ensures e.year == OrElse(req.year, NotAvailable) && e.rating == OrElse(req.rating, NotAvailable)
    ensures e.genre == OrElse(req.genre, NotAvailable) && e.kind == OrElse(req.kind, DefaultKind)
    ensures e.year != "" && e.rating != "" && e.genre != "" && e.kind != ""
    ensures req.userId != "" && req.movieId != "" ==> Conforms(e)
  {
    NewEntry(req.userId, req.movieId, OrElse(req.title, "Unknown"), Some(poster),
             Some(OrElse(req.year, NotAvailable)), Some(OrElse(req.rating, NotAvailable)),
             Some(OrElse(req.genre, NotAvailable)), Some(OrElse(req.kind, DefaultKind)),
             Some(now), now)
  }

  /**
   * When `addFavorite` creates a document: both ids are given, the pair is not stored, and
   * (when title and year are both given) no entry of the user has that title up to case and
   * exactly that year.
   */
  function AddAccepted(entries: seq<Entry>, req: AddRequest): (r: bool)
    ensures r ==> req.userId != "" && req.movieId != ""
    ensures r ==> forall i :: 0 <= i < |entries| ==> !(entries[i].userId == req.userId && entries[i].movieId == req.movieId)
  {
    req.userId != "" && req.movieId != ""
    && !Found(entries, ByPair(req.userId, req.movieId))
    && !(req.title != "" && req.year != "" && Found(entries, ByTitleYear(req.userId, req.title, req.year)))
  }

  /** Adding is idempotent: once a request is accepted, repeating it is refused. */
  lemma AddTwiceRefused(entries: seq<Entry>, req: AddRequest, poster: string, now: int)
    requires AddAccepted(entries, req)
    ensures !AddAccepted(entries + [NewFavorite(req, poster, now)], req)
  {
    var after := entries + [NewFavorite(req, poster, now)];
    assert Matches(ByPair(req.userId, req.movieId), after[|entries|]);
  }

  /**
   * The title-and-year check catches the same film saved under another source's id: an
   * entry stored under TMDB id "27205" refuses a request for IMDb id "tt1375666" with the
   * same title in another case.
   */
  lemma CrossSourceDuplicateRefused(entries: seq<Entry>, req: AddRequest)
    requires |entries| > 0
    requires entries[0] == Entry("u1", "27205", "Inception", "N/A", "2010", "8.8", "N/A", "movie", 1)
    requires req.userId == "u1" && req.movieId == "tt1375666"
    requires req.title == "inception" && req.year == "2010"
    ensures !AddAccepted(entries, req)
  {
    assert Lower("Inception") == Lower("inception") by {
      assert forall i :: 0 <= i < 9 ==> LowerChar("Inception"[i]) == LowerChar("inception"[i]);
    }
    assert Matches(ByTitleYear("u1", "inception", "2010"), entries[0]);
  }

  /** `addFavorite`'s result: 201 with the new document, or one of its 400 answers. */
  datatype AddResult =
    | Created(favorite: Entry)
    | MissingIds                      // 'userId and movieId are required'
    | AlreadyFavorite(favorite: Entry)  // 'Movie already in favorites', with the existing document

  // ---------------------------------------------------------------- removeFavorite

  const TmdbPrefix: string := "tmdb-"

  /**
   * The document `removeFavorite` deletes: the exact pair; else, for a `tmdb-` id, the id
   * without the prefix; else, for an all-digit id, the id with the prefix; else, for a
   * `custom-` id, any entry of the user whose year is the id's last `-` segment.
   */
  function RemoveTarget(entries: seq<Entry>, userId: string, movieId: string): (r: Option<nat>)
    ensures r.Some? ==> r.value < |entries| && entries[r.value].userId == userId
    ensures Found(entries, ByPair(userId, movieId)) ==> r == FirstMatch(entries, ByPair(userId, movieId))
  {
    var exact := FirstMatch(entries, ByPair(userId, movieId));
    var stripped :=
      if StartsWith(movieId, TmdbPrefix) then FirstMatch(entries, ByPair(userId, movieId[|TmdbPrefix|..]))
      else None;
    var prefixed :=
      if AllDigits(movieId) then FirstMatch(entries, ByPair(userId, TmdbPrefix + movieId)) else None;
    var byYear :=
      if StartsWith(movieId, MovieIdentity.CustomPrefix) then FirstMatch(entries, ByYear(userId, LastSegment(movieId, '-')))
      else None;
    if exact.Some? then exact
    else if stripped.Some? then stripped
    else if prefixed.Some? then prefixed
    else byYear
  }

  /** A `tmdb-` id that is not stored removes the entry stored under the bare TMDB id ("tmdb-550" removes "550"). */
  lemma TmdbPrefixStripped(entries: seq<Entry>, userId: string, raw: string)
    requires !Found(entries, ByPair(userId, TmdbPrefix + raw))
    ensures RemoveTarget(entries, userId, TmdbPrefix + raw) == FirstMatch(entries, ByPair(userId, raw))
  {
    var id := TmdbPrefix + raw;
    assert StartsWith(id, TmdbPrefix) && id[|TmdbPrefix|..] == raw;
    assert !AllDigits(id) by { assert !IsDigit(id[0]); }
    assert !StartsWith(id, MovieIdentity.CustomPrefix) by { assert id[0] != MovieIdentity.CustomPrefix[0]; }
  }

  /** An all-digit id that is not stored removes the entry stored under its `tmdb-` form. */
  lemma NumericIdPrefixed(entries: seq<Entry>, userId: string, digits: string)
    requires AllDigits(digits) && !Found(entries, ByPair(userId, digits))
    ensures RemoveTarget(entries, userId, digits) == FirstMatch(entries, ByPair(userId, TmdbPrefix + digits))
  {
    assert !StartsWith(digits, TmdbPrefix) by { assert IsDigit(digits[0]); }
    assert !StartsWith(digits, MovieIdentity.CustomPrefix) by { assert IsDigit(digits[0]); }
  }

  /**
   * A synthesized `custom-<title>-<year>` id that is not stored removes the user's first
   * entry of that year, whatever its title.
   */
  lemma CustomIdRemovesByYear(entries: seq<Entry>, userId: string, title: string, year: string)
    requires '-' !in year
    requires !Found(entries, ByPair(userId, MovieIdentity.CustomId(title, year)))
    ensures RemoveTarget(entries, userId, MovieIdentity.CustomId(title, year))
         == FirstMatch(entries, ByYear(userId, year))
  {
    var id := MovieIdentity.CustomId(title, year);
    var head := MovieIdentity.CustomPrefix + KeepAlnum(Lower(title));
    assert id == head + ['-'] + year;
    LastSegmentAfter(head, '-', year);
    assert id[..|MovieIdentity.CustomPrefix|] == MovieIdentity.CustomPrefix;
    assert !StartsWith(id, TmdbPrefix) by { assert id[1] != TmdbPrefix[1]; }
    assert !AllDigits(id) by { assert !IsDigit(id[0]); }
  }

  /** Deleting one of the user's entries leaves every other user's entries as they were. */
  lemma RemovalKeepsOtherUsers(entries: seq<Entry>, k: nat, userId: string)
    requires k < |entries| && entries[k].userId == userId
    ensures OtherEntries(entries[..k] + entries[k + 1..], userId) == OtherEntries(entries, userId)
  {
    var front, back := entries[..k], entries[k + 1..];
    var others := NotOwnedBy(userId);
    assert entries == front + ([entries[k]] + back);
    FilterConcat(front, [entries[k]] + back, others);
    FilterConcat([entries[k]], back, others);
    FilterConcat(front, back, others);
    assert Filter([entries[k]], others) == [];
  }

  datatype RemoveResult =
    | Deleted(favorite: Entry)  // 200 with the deleted document
    | NotFound                  // 404 'Favorite not found'

  // ---------------------------------------------------------------- updateFavoritePosters

  /** The `find` of `updateFavoritePosters`: the user's documents whose poster is 'N/A' or empty. */
  function NeedsPoster(e: Entry, userId: string): (r: bool)
    ensures r ==> e.userId == userId && e.poster != "" ==> e.poster == NotAvailable
  {
    e.userId == userId && (e.poster == NotAvailable || e.poster == "")
  }

  function NeedingPoster(userId: string): Entry -> bool {
    (e: Entry) => NeedsPoster(e, userId)
  }

  /** What `fetchMoviePoster` answers for an entry, given the replies per movie id. */
  function FetchedPoster(e: Entry, replies: string -> (OmdbReply, TmdbReply)): string {
    FetchMoviePoster(e.movieId, replies(e.movieId).0, replies(e.movieId).1)
  }

  function PosterRepaired(userId: string, replies: string -> (OmdbReply, TmdbReply)): Entry -> bool {
    (e: Entry) => NeedsPoster(e, userId) && FetchedPoster(e, replies) != NotAvailable
  }

  /** An entry after the update: a missing poster is replaced unless the lookup gave 'N/A'. */
  function WithFetchedPoster(e: Entry, userId: string, replies: string -> (OmdbReply, TmdbReply)): (r: Entry)
    ensures r.(poster := e.poster) == e
    ensures r.poster != e.poster ==> NeedsPoster(e, userId) && r.poster != NotAvailable
    ensures PosterRepaired(userId, replies)(e) ==> r.poster == FetchedPoster(e, replies)
  {
    if PosterRepaired(userId, replies)(e) then e.(poster := FetchedPoster(e, replies)) else e
  }

  /** Repairing posters changes no pair and no required path, so the store stays valid. */
  lemma PosterRepairKeepsValid(before: seq<Entry>, after: seq<Entry>, userId: string, replies: string -> (OmdbReply, TmdbReply))
    requires ValidStore(before) && |after| == |before|
    requires forall i :: 0 <= i < |before| ==> after[i] == WithFetchedPoster(before[i], userId, replies)
    ensures ValidStore(after)
  {
    assert forall j :: 0 <= j < |after| ==> SamePair(after[j], before[j]) && (Conforms(after[j]) == Conforms(before[j]));
  }

  /** Every repaired entry was checked, so the update count never exceeds the checked count. */
  lemma {:induction false} UpdatedAtMostChecked(s: seq<Entry>, userId: string, replies: string -> (OmdbReply, TmdbReply))
    ensures Count(s, PosterRepaired(userId, replies)) <= Count(s, NeedingPoster(userId))
  {
    if s != [] {
      UpdatedAtMostChecked(s[1..], userId, replies);
    }
  }

  // ---------------------------------------------------------------- cleanupDuplicates

  function NotAmong(doomed: seq<Entry>): Entry -> bool {
    (e: Entry) => e !in doomed
  }

  function Among(doomed: seq<Entry>): Entry -> bool {
    (e: Entry) => e in doomed
  }

  /** The user's documents, oldest first: the order `cleanupDuplicates` scans them in. */
  function ScanOrder(entries: seq<Entry>, userId: string): (r: seq<Entry>)
    ensures multiset(r) == multiset(UserEntries(entries, userId))
    ensures Ordered(r, false)
  {
    SortOrdered(UserEntries(entries, userId), false);
    SortByAddedAt(UserEntries(entries, userId), false)
  }

  /** Distinct values keep being distinct under reordering. */
  lemma PermutationDistinct(a: seq<Entry>, b: seq<Entry>)
    requires Distinct(a) && multiset(a) == multiset(b)
    ensures Distinct(b)
  {
    forall i, j | 0 <= i < j < |b| ensures b[i] != b[j] {
      var x := b[i];
      DistinctMultiplicity(a, x);
      assert b == b[..j] + [b[j]] + b[j + 1..];
      assert b[..j][i] == x;
      assert multiset(b)[x] == multiset(b[..j])[x] + multiset([b[j]])[x] + multiset(b[j + 1..])[x];
    }
  }

  /** Deleting a list of distinct stored documents by identity deletes exactly that many. */
  lemma DeletedCount(entries: seq<Entry>, doomed: seq<Entry>)
    requires Distinct(entries) && Distinct(doomed)
    requires forall i :: 0 <= i < |doomed| ==> doomed[i] in entries
    ensures |Filter(entries, NotAmong(doomed))| == |entries| - |doomed|
  {
    var hit := Filter(entries, Among(doomed));
    forall x: Entry ensures multiset(hit)[x] == multiset(doomed)[x] {
      FilterMultiplicity(entries, Among(doomed), x);
      DistinctMultiplicity(entries, x);
      DistinctMultiplicity(doomed, x);
    }
    assert multiset(hit) == multiset(doomed);
    assert |hit| == |multiset(hit)|;
    FilterPartition(entries, NotAmong(doomed), Among(doomed));
  }

  /**
   * What deleting the scan's duplicates does to a valid store: it deletes exactly as many
   * documents as there are duplicates, stays valid, and leaves other users' entries alone.
   */
  lemma CleanupKeepsStore(entries: seq<Entry>, userId: string)
    requires ValidStore(entries)
    ensures var doomed := Duplicates(ScanOrder(entries, userId), {});
      && |Filter(entries, NotAmong(doomed))| == |entries| - |doomed|
      && ValidStore(Filter(entries, NotAmong(doomed)))
      && OtherEntries(Filter(entries, NotAmong(doomed)), userId) == OtherEntries(entries, userId)
  {
    var scan := ScanOrder(entries, userId);
    var doomed := Duplicates(scan, {});
    ValidStoreDistinct(entries);
    FilterDistinct(entries, OwnedBy(userId));
    PermutationDistinct(UserEntries(entries, userId), scan);
    DuplicatesDistinct(scan, {});
    forall j | 0 <= j < |doomed| ensures doomed[j] in entries && doomed[j].userId == userId {
      assert doomed[j] in multiset(scan);
      assert doomed[j] in UserEntries(entries, userId);
    }
    DeletedCount(entries, doomed);
    FilterKeepsValid(entries, NotAmong(doomed));
    FilterOfFilter(entries, NotAmong(doomed), NotOwnedBy(userId));
  }

  /**
   * The oldest of the user's documents with a given key is never deleted: it is a survivor
   * of the scan, and since the scan repeats no document it is not also among the duplicates.
   */
  lemma CleanupKeepsFirstOfKey(entries: seq<Entry>, userId: string, j: nat)
    requires ValidStore(entries)
    requires j < |ScanOrder(entries, userId)|
    requires forall i :: 0 <= i < j ==>
      DuplicateKey(ScanOrder(entries, userId)[i]) != DuplicateKey(ScanOrder(entries, userId)[j])
    ensures ScanOrder(entries, userId)[j] in Filter(entries, NotAmong(Duplicates(ScanOrder(entries, userId), {})))
  {
    var scan := ScanOrder(entries, userId);
    var x := scan[j];
    var doomed := Duplicates(scan, {});
    ValidStoreDistinct(entries);
    FilterDistinct(entries, OwnedBy(userId));
    PermutationDistinct(UserEntries(entries, userId), scan);
    FirstOccurrenceKept(scan, {}, j);
    ScanPartition(scan, {});
    DistinctMultiplicity(scan, x);
    assert x !in doomed by {
      assert multiset(Survivors(scan, {}))[x] >= 1;
      assert multiset(doomed)[x] == 0;
    }
    assert x in entries by {
      assert x in multiset(scan);
      assert x in UserEntries(entries, userId);
    }
  }

  /** Two different scanned documents sharing a key cannot both escape the deletion list. */
  lemma KeyTwinDeleted(scan: seq<Entry>, a: Entry, b: Entry)
    requires a in scan && b in scan && a != b && DuplicateKey(a) == DuplicateKey(b)
    ensures a in Duplicates(scan, {}) || b in Duplicates(scan, {})
  {
    var ia :| 0 <= ia < |scan| && scan[ia] == a;
    var ib :| 0 <= ib < |scan| && scan[ib] == b;
    if ia < ib {
      LaterDuplicateDeleted(scan, {}, ib);
    } else {
      LaterDuplicateDeleted(scan, {}, ia);
    }
  }

  /** After the cleanup no two of the user's remaining documents share a title-year key. */
  lemma CleanupLeavesDistinctKeys(entries: seq<Entry>, userId: string)
    requires ValidStore(entries)
    ensures var after := Filter(entries, NotAmong(Duplicates(ScanOrder(entries, userId), {})));
      forall p, q :: 0 <= p < q < |after| && after[p].userId == userId && after[q].userId == userId
        ==> DuplicateKey(after[p]) != DuplicateKey(after[q])
  {
    var scan := ScanOrder(entries, userId);
    var doomed := Duplicates(scan, {});
    var after := Filter(entries, NotAmong(doomed));
    ValidStoreDistinct(entries);
    FilterDistinct(entries, NotAmong(doomed));
    forall p, q | 0 <= p < q < |after| && after[p].userId == userId && after[q].userId == userId
      ensures DuplicateKey(after[p]) != DuplicateKey(after[q])
    {
      var a, b := after[p], after[q];
      assert a in UserEntries(entries, userId) && b in UserEntries(entries, userId);
      assert a in multiset(scan) && b in multiset(scan);
      assert NotAmong(doomed)(a) && NotAmong(doomed)(b);
      if DuplicateKey(a) == DuplicateKey(b) {
        KeyTwinDeleted(scan, a, b);
        assert false;
      }
    }
  }

  /**
   * The loop of `cleanupDuplicates`: the `seen` keys (the map's values are only logged) and
   * the list of documents to delete, filled while walking the scan.
   */
  method MarkDuplicates(favorites: seq<Entry>) returns (toDelete: seq<Entry>)
    ensures toDelete == Duplicates(favorites, {})
  {
    var seen: set<string> := {};
    toDelete := [];
    var i := 0;
    while i < |favorites|
      invariant 0 <= i <= |favorites|
      invariant toDelete + Duplicates(favorites[i..], seen) == Duplicates(favorites, {})
    {
      var key := DuplicateKey(favorites[i]);
      assert favorites[i..] == [favorites[i]] + favorites[i + 1..];
      if key in seen {
        assert (toDelete + [favorites[i]]) + Duplicates(favorites[i + 1..], seen)
            == toDelete + Duplicates(favorites[i..], seen);
        toDelete := toDelete + [favorites[i]];
      } else {
        seen := seen + {key};
      }
      i := i + 1;
    }
    assert favorites[i..] == [];
  }

  /** Two entries stored newest first are scanned oldest first. */
  lemma TwoReversed(a: Entry, b: Entry)
    requires a.addedAt < b.addedAt
    ensures SortByAddedAt([b, a], false) == [a, b]
  {
    assert [a][1..] == [];
    assert SortByAddedAt([a], false) == Insert(a, [], false) == [a];
    assert [b, a][1..] == [a];
    assert Insert(b, [a], false) == [a] + Insert(b, [], false);
  }

  /** Three entries stored newest first are scanned oldest first. */
  lemma ThreeReversed(a: Entry, b: Entry, c: Entry)
    requires a.addedAt < b.addedAt < c.addedAt
    ensures SortByAddedAt([c, b, a], false) == [a, b, c]
  {
    TwoReversed(a, b);
    assert [c, b, a][1..] == [b, a];
    assert SortByAddedAt([c, b, a], false) == Insert(c, [a, b], false);
    assert [a, b][1..] == [b] && [b][1..] == [];
    assert Insert(c, [b], false) == [b] + Insert(c, [], false);
    assert Insert(c, [a, b], false) == [a] + Insert(c, [b], false);
  }

  /** The scan marks the later of two same-key entries around an unrelated one. */
  lemma SecondOfKeyMarked(first: Entry, middle: Entry, last: Entry)
    requires DuplicateKey(last) == DuplicateKey(first) != DuplicateKey(middle)
    ensures Duplicates([first, middle, last], {}) == [last]
  {
    var k1, k2 := DuplicateKey(first), DuplicateKey(middle);
    assert [first, middle, last][1..] == [middle, last];
    assert [middle, last][1..] == [last];
    assert [last][1..] == [];
    assert Duplicates([last], {} + {k1} + {k2}) == [last];
    assert Duplicates([middle, last], {} + {k1}) == [last];
  }

  /**
   * Of two entries with the same key, stored newest first next to an unrelated entry, the
   * scan deletes the newer one.
   */
  lemma NewerDuplicateRemoved(userId: string, older: Entry, other: Entry, newer: Entry)
    requires older.userId == userId && other.userId == userId && newer.userId == userId
    requires older.addedAt < other.addedAt < newer.addedAt
    requires DuplicateKey(newer) == DuplicateKey(older) != DuplicateKey(other)
    ensures Duplicates(ScanOrder([newer, other, older], userId), {}) == [newer]
  {
    var store := [newer, other, older];
    FilterKeepsAll(store, OwnedBy(userId));
    ThreeReversed(older, other, newer);
    SecondOfKeyMarked(older, other, newer);
  }

  /**
   * Two "Dune" (2021) entries saved under different ids, in different case, and one
   * unrelated entry: the newer Dune is the one the cleanup deletes.
   */
  lemma NewerDuneRemoved(older: Entry, other: Entry, newer: Entry)
    requires older == Entry("u1", "438631", "Dune", "N/A", "2021", "8.0", "Sci-Fi", "movie", 1)
    requires other == Entry("u1", "27205", "Inception", "N/A", "2010", "8.8", "Sci-Fi", "movie", 2)
    requires newer == Entry("u1", "tt1160419", "DUNE", "N/A", "2021", "8.0", "Sci-Fi", "movie", 3)
    ensures Duplicates(ScanOrder([newer, other, older], "u1"), {}) == [newer]
  {
    assert DuplicateKey(newer) == DuplicateKey(older) by {
      assert forall i :: 0 <= i < 4 ==> LowerChar("Dune"[i]) == LowerChar("DUNE"[i]);
      assert Lower("Dune") == Lower("DUNE");
    }
    assert DuplicateKey(other) != DuplicateKey(older) by {
      assert |DuplicateKey(other)| != |DuplicateKey(older)|;
    }
    NewerDuplicateRemoved("u1", older, other, newer);
  }

  // ---------------------------------------------------------------- the store

  class FavoriteStore {
    var entries: seq<Entry>

    /** Every document passes validation and the unique (userId, movieId) index holds. */
    predicate Valid()
      reads this
    {
      ValidStore(entries)
    }

    constructor ()
      ensures entries == [] && Valid()
    {
      entries := [];
    }

    /** `Favorite.findOne(q)`: the position of the first matching document, if any. */
    method FindOne(q: Query) returns (found: Option<nat>)
      ensures found == FirstMatch(entries, q)
    {
      var i := 0;
      while i < |entries|
        invariant 0 <= i <= |entries|
        invariant forall j :: 0 <= j < i ==> !Matches(q, entries[j])
      {
        if Matches(q, entries[i]) {
          return Some(i);
        }
        i := i + 1;
      }
      return None;
    }

    /** The poster `addFavorite` settles on, step by step. */
    static method ChoosePoster(req: AddRequest, omdb: OmdbReply, tmdb: TmdbReply) returns (poster: string)
      ensures poster == FinalPoster(req, omdb, tmdb)
    {
      poster := RequestedPoster(req);
      if poster != "" && StartsWith(poster, "/") {
        poster := TmdbImageBase + poster;
      } else if poster == "" || poster == NotAvailable {
        poster := FetchMoviePoster(req.movieId, omdb, tmdb);
      }
    }

    /**
     * `addFavorite`: refuses missing ids and duplicates (by pair, then by title and year)
     * without touching the store; otherwise appends exactly one new document.
     */
    method AddFavorite(req: AddRequest, omdb: OmdbReply, tmdb: TmdbReply, now: int) returns (result: AddResult)
      requires Valid()
      modifies this
      ensures Valid()
      ensures result.MissingIds? <==> req.userId == "" || req.movieId == ""
      ensures result.Created? <==> AddAccepted(old(entries), req)
      ensures result.Created? ==>
        result.favorite == NewFavorite(req, FinalPoster(req, omdb, tmdb), now)
        && entries == old(entries) + [result.favorite]
      ensures result.AlreadyFavorite? ==>
        result.favorite in old(entries)
        && (Matches(ByPair(req.userId, req.movieId), result.favorite)
            || (req.title != "" && req.year != ""
                && Matches(ByTitleYear(req.userId, req.title, req.year), result.favorite)))
      ensures req.userId != "" && req.movieId != "" && Found(old(entries), ByPair(req.userId, req.movieId)) ==>
        result == AlreadyFavorite(old(entries)[FirstMatch(old(entries), ByPair(req.userId, req.movieId)).value])
      ensures req.userId != "" && req.movieId != "" && !Found(old(entries), ByPair(req.userId, req.movieId))
              && req.title != "" && req.year != ""
              && Found(old(entries), ByTitleYear(req.userId, req.title, req.year)) ==>
        result == AlreadyFavorite(old(entries)[FirstMatch(old(entries), ByTitleYear(req.userId, req.title, req.year)).value])
      ensures !result.Created? ==> entries == old(entries)
    {
      if req.userId == "" || req.movieId == "" {
        return MissingIds;
      }
      var existing := FindOne(ByPair(req.userId, req.movieId));
      if existing.Some? {
        return AlreadyFavorite(entries[existing.value]);
      }
      if req.title != "" && req.year != "" {
        var sameTitle := FindOne(ByTitleYear(req.userId, req.title, req.year));
        if sameTitle.Some? {
          return AlreadyFavorite(entries[sameTitle.value]);
        }
      }
      var poster := ChoosePoster(req, omdb, tmdb);
      var favorite := NewFavorite(req, poster, now);
      assert forall i :: 0 <= i < |entries| ==> !Matches(ByPair(req.userId, req.movieId), entries[i]);
      AppendKeepsValid(entries, favorite);
      entries := entries + [favorite];
      result := Created(favorite);
    }

    /** `getUserFavorites`: exactly the user's documents, newest first. */
    method GetUserFavorites(userId: string) returns (favorites: seq<Entry>)
      ensures multiset(favorites) == multiset(UserEntries(entries, userId))
      ensures Ordered(favorites, true)
    {
      favorites := SortByAddedAt(UserEntries(entries, userId), true);
      SortOrdered(UserEntries(entries, userId), true);
    }

    /** `checkFavorite`: true, with the document, exactly when the pair is stored. */
    method CheckFavorite(userId: string, movieId: string) returns (isFavorite: bool, favorite: Option<Entry>)
      ensures isFavorite <==> Found(entries, ByPair(userId, movieId))
      ensures isFavorite <==> favorite.Some?
      ensures favorite.Some? ==>
        favorite.value in entries && favorite.value.userId == userId && favorite.value.movieId == movieId
    {
      var found := FindOne(ByPair(userId, movieId));
      if found.Some? {
        return true, Some(entries[found.value]);
      }
      return false, None;
    }

    /** The four lookups of `removeFavorite`, each tried only when the previous ones found nothing. */
    method FindRemoveTarget(userId: string, movieId: string) returns (hit: Option<nat>)
      ensures hit == RemoveTarget(entries, userId, movieId)
    {
      hit := FindOne(ByPair(userId, movieId));
      if hit.None? && StartsWith(movieId, TmdbPrefix) {
        hit := FindOne(ByPair(userId, movieId[|TmdbPrefix|..]));
      }
      if hit.None? && AllDigits(movieId) {
        hit := FindOne(ByPair(userId, TmdbPrefix + movieId));
      }
      if hit.None? && StartsWith(movieId, MovieIdentity.CustomPrefix) {
        hit := FindOne(ByYear(userId, LastSegment(movieId, '-')));
      }
    }

    /** `removeFavorite`: the four-step cascade; deletes at most one document, else 404. */
    method RemoveFavorite(userId: string, movieId: string) returns (result: RemoveResult)
      requires Valid()
      modifies this
      ensures Valid()
      ensures result.NotFound? <==> RemoveTarget(old(entries), userId, movieId).None?
      ensures result.NotFound? ==> entries == old(entries)
      ensures result.Deleted? ==>
        var k := RemoveTarget(old(entries), userId, movieId).value;
        result.favorite == old(entries)[k] && entries == old(entries)[..k] + old(entries)[k + 1..]
    {
      var hit := FindRemoveTarget(userId, movieId);
      if hit.None? {
        return NotFound;
      }
      var k := hit.value;
      result := Deleted(entries[k]);
      RemoveAtKeepsValid(entries, k);
      entries := entries[..k] + entries[k + 1..];
    }

    /** `clearAllFavorites`: `deleteMany({ userId })`, answering the number deleted. */
    method ClearAllFavorites(userId: string) returns (deletedCount: nat)
      requires Valid()
      modifies this
      ensures Valid()
      ensures entries == OtherEntries(old(entries), userId)
      ensures deletedCount == |UserEntries(old(entries), userId)|
      ensures deletedCount == |old(entries)| - |entries|
    {
      deletedCount := |UserEntries(entries, userId)|;
      UserAndOthers(entries, userId);
      FilterKeepsValid(entries, NotOwnedBy(userId));
      entries := OtherEntries(entries, userId);
    }

    /**
     * The loop of `updateFavoritePosters` over the user's documents: each missing poster is
     * looked up and replaced unless the lookup gave 'N/A'; the lookups and the replacements
     * are counted.
     */
    static method RepairPosters(favorites: seq<Entry>, userId: string, replies: string -> (OmdbReply, TmdbReply))
      returns (repaired: seq<Entry>, updatedCount: nat, totalChecked: nat)
      ensures |repaired| == |favorites|
      ensures forall i :: 0 <= i < |favorites| ==> repaired[i] == WithFetchedPoster(favorites[i], userId, replies)
      ensures totalChecked == Count(favorites, NeedingPoster(userId))
      ensures updatedCount == Count(favorites, PosterRepaired(userId, replies))
    {
      repaired, updatedCount, totalChecked := favorites, 0, 0;
      for i := 0 to |favorites|
        invariant |repaired| == |favorites|
        invariant forall j :: 0 <= j < i ==> repaired[j] == WithFetchedPoster(favorites[j], userId, replies)
        invariant forall j :: i <= j < |favorites| ==> repaired[j] == favorites[j]
        invariant totalChecked == Count(favorites[..i], NeedingPoster(userId))
        invariant updatedCount == Count(favorites[..i], PosterRepaired(userId, replies))
      {
        assert favorites[..i + 1] == favorites[..i] + [favorites[i]];
        CountConcat(favorites[..i], [favorites[i]], NeedingPoster(userId));
        CountConcat(favorites[..i], [favorites[i]], PosterRepaired(userId, replies));
        var fav := favorites[i];
        if NeedsPoster(fav, userId) {
          totalChecked := totalChecked + 1;
          var newPoster := FetchedPoster(fav, replies);
          if newPoster != NotAvailable {
            repaired := repaired[i := fav.(poster := newPoster)];
            updatedCount := updatedCount + 1;
          }
        }
      }
      assert favorites[..|favorites|] == favorites;
    }

    /**
     * `updateFavoritePosters`: every entry of the user with a missing poster gets the
     * looked-up poster unless that is 'N/A'; answers how many were updated and checked.
     */
    method UpdateFavoritePosters(userId: string, replies: string -> (OmdbReply, TmdbReply))
      returns (updatedCount: nat, totalChecked: nat)
      requires Valid()
      modifies this
      ensures Valid()
      ensures |entries| == |old(entries)|
      ensures forall i :: 0 <= i < |entries| ==> entries[i] == WithFetchedPoster(old(entries)[i], userId, replies)
      ensures totalChecked == Count(old(entries), NeedingPoster(userId))
      ensures updatedCount == Count(old(entries), PosterRepaired(userId, replies))
    {
      var repaired;
      repaired, updatedCount, totalChecked := RepairPosters(entries, userId, replies);
      PosterRepairKeepsValid(entries, repaired, userId, replies);
      entries := repaired;
    }

    /**
     * `cleanupDuplicates`: scans the user's entries oldest first and deletes every entry whose
     * title-and-year key was already seen; answers the number removed and the number scanned.
     */
    method CleanupDuplicates(userId: string) returns (removedCount: nat, totalChecked: nat)
      requires Valid()
      modifies this
      ensures Valid()
      ensures totalChecked == |UserEntries(old(entries), userId)|
      ensures entries == Filter(old(entries), NotAmong(Duplicates(ScanOrder(old(entries), userId), {})))
      ensures removedCount == |Duplicates(ScanOrder(old(entries), userId), {})|
      ensures OtherEntries(entries, userId) == OtherEntries(old(entries), userId)
    {
      var favorites := SortByAddedAt(UserEntries(entries, userId), false);
      var toDelete := MarkDuplicates(favorites);
      CleanupKeepsStore(entries, userId);
      var before := entries;
      entries := Filter(entries, NotAmong(toDelete));
      removedCount := |before| - |entries|;
      totalChecked := |favorites|;
    }
  }
}

=== FILE: favorite_model.dfy ===
/**
 * The persisted favorite (`favoriteSchema`): its paths, their defaults, the `required`
 * paths, and the unique compound index on (userId, movieId) as an invariant of the store.
 */
module FavoriteModel {
  import opened Wrappers
  import opened Seqs

  /**
   * One stored favorite. `kind` is the schema's `type` path; `addedAt` is a clock value in
   * milliseconds. The schema has no `runtime` and no `plot` path, so neither is stored.
   */
  datatype Entry = Entry(
    userId: string, movieId: string, title: string, poster: string,
    year: string, rating: string, genre: string, kind: string, addedAt: int)

  const NotAvailable: string := "N/A"
  const DefaultKind: string := "movie"

  /**
   * `new Favorite({...})`: an undefined optional path takes the schema default ('N/A',
   * 'movie', the creation time); the required paths are taken as given.
   */
  function NewEntry(userId: string, movieId: string, title: string,
                    poster: Option<string>, year: Option<string>, rating: Option<string>,
                    genre: Option<string>, kind: Option<string>, addedAt: Option<int>, now: int): (e: Entry)
    ensures e.userId == userId && e.movieId == movieId && e.title == title
    ensures e.poster == (if poster.Some? then poster.value else NotAvailable)
    ensures e.year == (if year.Some? then year.value else NotAvailable)
    ensures e.rating == (if rating.Some? then rating.value else NotAvailable)
    ensures e.genre == (if genre.Some? then genre.value else NotAvailable)
    ensures e.kind == (if kind.Some? then kind.value else DefaultKind)
    ensures e.addedAt == (if addedAt.Some? then addedAt.value else now)
  {
    Entry(userId, movieId, title,
          if poster.Some? then poster.value else NotAvailable,
          if year.Some? then year.value else NotAvailable,
          if rating.Some? then rating.value else NotAvailable,
          if genre.Some? then genre.value else NotAvailable,
          if kind.Some? then kind.value else DefaultKind,
          if addedAt.Some? then addedAt.value else now)
  }

  /** A document given only its required paths gets every default. */
  lemma DefaultsOfBareEntry(userId: string, movieId: string, title: string, now: int)
    ensures NewEntry(userId, movieId, title, None, None, None, None, None, None, now)
         == Entry(userId, movieId, title, "N/A", "N/A", "N/A", "N/A", "movie", now)
  {
  }

  /** `required: true` on a String path rejects a missing or empty value. */
  predicate Conforms(e: Entry) {
    e.userId != "" && e.movieId != "" && e.title != ""
  }

  predicate SamePair(a: Entry, b: Entry) {
    a.userId == b.userId && a.movieId == b.movieId
  }

  /** The unique compound index: no two stored entries share (userId, movieId). */
  predicate UniquePairs(entries: seq<Entry>) {
    forall i, j :: 0 <= i < j < |entries| ==> !SamePair(entries[i], entries[j])
  }

  /** What the collection always satisfies: every entry passes validation, pairs are unique. */
  predicate ValidStore(entries: seq<Entry>) {
    (forall i :: 0 <= i < |entries| ==> Conforms(entries[i])) && UniquePairs(entries)
  }

  predicate HasPair(entries: seq<Entry>, userId: string, movieId: string) {
    exists i :: 0 <= i < |entries| && entries[i].userId == userId && entries[i].movieId == movieId
  }

  /** Inserting a conforming entry whose pair is not yet present keeps the store valid. */
  lemma AppendKeepsValid(entries: seq<Entry>, e: Entry)
    requires ValidStore(entries) && Conforms(e)
    requires !HasPair(entries, e.userId, e.movieId)
    ensures ValidStore(entries + [e])
  {
    var s := entries + [e];
    forall i, j | 0 <= i < j < |s| ensures !SamePair(s[i], s[j]) {
      if j == |entries| {
        assert s[i] == entries[i];
      } else {
        assert s[i] == entries[i] && s[j] == entries[j];
      }
    }
  }

  /** Deleting one document keeps the store valid. */
  lemma RemoveAtKeepsValid(entries: seq<Entry>, k: nat)
    requires ValidStore(entries) && k < |entries|
    ensures ValidStore(entries[..k] + entries[k + 1..])
  {
    var s := entries[..k] + entries[k + 1..];
    assert forall i :: 0 <= i < |s| ==> s[i] == entries[if i < k then i else i + 1];
  }

  /** Deleting any set of documents (a filter) keeps the store valid. */
  lemma FilterKeepsValid(entries: seq<Entry>, keep: Entry -> bool)
    requires ValidStore(entries)
    ensures ValidStore(Filter(entries, keep))
  {
    var r := Filter(entries, keep);
    ValidStoreDistinct(entries);
    FilterDistinct(entries, keep);
    forall i, j | 0 <= i < j < |r| ensures !SamePair(r[i], r[j]) {
      var a :| 0 <= a < |entries| && entries[a] == r[i];
      var b :| 0 <= b < |entries| && entries[b] == r[j];
      assert a != b;
      if a > b {
        assert !SamePair(entries[b], entries[a]);
      }
    }
  }

  function OwnedBy(userId: string): Entry -> bool {
    (e: Entry) => e.userId == userId
  }

  function NotOwnedBy(userId: string): Entry -> bool {
    (e: Entry) => e.userId != userId
  }

  /** `Favorite.find({ userId })` in natural order. */
  function UserEntries(entries: seq<Entry>, userId: string): (r: seq<Entry>)
    ensures forall i :: 0 <= i < |r| ==> r[i] in entries && r[i].userId == userId
    ensures forall i :: 0 <= i < |entries| && entries[i].userId == userId ==> entries[i] in r
  {
    Filter(entries, OwnedBy(userId))
  }

  /** Every entry that does not belong to `userId`, in natural order. */
  function OtherEntries(entries: seq<Entry>, userId: string): (r: seq<Entry>)
    ensures forall i :: 0 <= i < |r| ==> r[i] in entries && r[i].userId != userId
    ensures forall i :: 0 <= i < |entries| && entries[i].userId != userId ==> entries[i] in r
  {
    Filter(entries, NotOwnedBy(userId))
  }

  /** Every entry belongs either to the user or to someone else. */
  lemma UserAndOthers(entries: seq<Entry>, userId: string)
    ensures |UserEntries(entries, userId)| + |OtherEntries(entries, userId)| == |entries|
  {
    FilterPartition(entries, OwnedBy(userId), NotOwnedBy(userId));
  }

  /** Unique pairs make the stored entries pairwise distinct values. */
  lemma ValidStoreDistinct(entries: seq<Entry>)
    requires ValidStore(entries)
    ensures Distinct(entries)
  {
  }

  /**
   * The POST body of an add request. A missing field is "", which the controller's
   * `||` defaults treat like undefined.
   */
  datatype AddRequest = AddRequest(
    userId: string, movieId: string, title: string, poster: string, posterPath: string,
    year: string, rating: string, genre: string, kind: string, runtime: string, plot: string)
}

=== FILE: favorites_context.dfy ===
/**
 * The favorites context of the browser client: one list of favorites for the logged-in
 * user, kept in step with the server. Each callback sends one request; the server's answer
 * is a parameter here, and the list changes only when that answer is a success.
 */
module FavoritesContext {
  import opened Wrappers
  import opened Text
  import opened MovieIdentity
  import opened FavoriteModel

  /** The `user` prop; its key is `user._id || user.id || user.email`. */
  datatype User = User(mongoId: string, id: string, email: string)

  function UserKey(u: User): string {
    if u.mongoId != "" then u.mongoId else if u.id != "" then u.id else u.email
  }

  /**
   * What came back from a mutating request: `response.ok && data.success`, a refusal with
   * the server's message (possibly empty), or a thrown network/parse error.
   */
  datatype Reply = Accepted | Refused(message: string) | NetworkFailure

  /** What came back from the list request: the entries when ok and successful, otherwise nothing usable. */
  datatype ListReply = Listed(entries: seq<Entry>) | NotListed

  /** The `{success, message}` a callback resolves to, one constructor per message. */
  datatype Outcome =
    | Added | Removed | Cleared
    | LoginRequired      // 'Please login first'; the auth modal is opened
    | InvalidMovieData   // 'Invalid movie data'
    | InvalidRequest     // 'Invalid request'
    | InvalidMovieId     // 'Invalid movie ID'
    | AlreadyFavorite    // 'Already in favorites'
    | NotLoggedIn        // 'Not logged in'
    | ServerFailure(message: string)
    | NetworkError
  {
    predicate Success() {
      Added? || Removed? || Cleared?
    }
  }

  /** `data.message || fallback` */
  function MessageOr(message: string, fallback: string): string {
    if message != "" then message else fallback
  }

  /**
   * `fetchFavorites`' record transform. `poster || posterPath` is the stored poster because
   * entries have no `posterPath`; `plot` is not a stored path, so `Plot` is always ''.
   */
  function FromEntry(e: Entry): (f: Favorite)
    ensures f.imdbID == Some(e.movieId) && f.Title == e.title && f.Year == e.year
    ensures f.Poster == e.poster && f.imdbRating == e.rating && f.Genre == e.genre
    ensures f.Type == OrElse(e.kind, "movie")
    ensures f.Type != "" && f.Plot == ""
  {
    Favorite(Some(e.movieId), e.title, e.poster, e.year, e.rating, e.genre,
             if e.kind != "" then e.kind else "movie", "")
  }

  function FromEntries(entries: seq<Entry>): (r: seq<Favorite>)
    ensures |r| == |entries|
    ensures forall i :: 0 <= i < |entries| ==> r[i] == FromEntry(entries[i])
  {
    if entries == [] then [] else [FromEntry(entries[0])] + FromEntries(entries[1..])
  }

  /** After a fetch, a movie is a favorite whenever its id is the movieId of some listed entry. */
  lemma ListedIdIsFavorite(entries: seq<Entry>, m: MovieRecord)
    ensures (exists k :: 0 <= k < |entries| && GetMovieId(m) == Some(entries[k].movieId))
            ==> IsFavorite(Some(m), FromEntries(entries))
  {
    if k :| 0 <= k < |entries| && GetMovieId(m) == Some(entries[k].movieId) {
      var favorites := FromEntries(entries);
      var id := entries[k].movieId;
      assert favorites[k].imdbID == Some(id);
      assert SomeIdMatch(favorites, id);
    }
  }

  class FavoritesProvider {
    const user: Option<User>
    var favorites: seq<Favorite>
    var loading: bool

    constructor (user: Option<User>)
      ensures this.user == user && favorites == [] && !loading
    {
      this.user := user;
      favorites := [];
      loading := false;
    }

    /** `fetchFavorites`: no user empties the list; a usable answer replaces it; anything else keeps it. */
    method FetchFavorites(reply: ListReply)
      modifies this
      ensures loading == (old(loading) && user.None?)
      ensures user.None? ==> favorites == []
      ensures user.Some? && reply.Listed? ==> favorites == FromEntries(reply.entries)
      ensures user.Some? && reply.NotListed? ==> favorites == old(favorites)
    {
      if user.None? {
        favorites := [];
        return;
      }
      loading := true;
      if reply.Listed? {
        favorites := FromEntries(reply.entries);
      }
      loading := false;
    }

    /**
     * `addToFavorites`: rejected without a user, a movie or an id, or when `isFavorite`
     * already holds; otherwise the request is sent and, on success, exactly the normalized
     * record is appended, after which the movie is a favorite.
     */
    method AddToFavorites(movie: Option<MovieRecord>, reply: Reply) returns (outcome: Outcome)
      modifies this
      ensures loading == (old(loading) && !(outcome.Added? || outcome.ServerFailure? || outcome.NetworkError?))
      ensures outcome.Success() ==> outcome == Added
      ensures outcome == Added <==>
        user.Some? && movie.Some? && GetMovieId(movie.value).Some?
        && !IsFavorite(movie, old(favorites)) && reply.Accepted?
      ensures user.None? ==> outcome == LoginRequired
      ensures user.Some? && movie.None? ==> outcome == InvalidMovieData
      ensures user.Some? && movie.Some? && GetMovieId(movie.value).None? ==> outcome == InvalidMovieId
      ensures user.Some? && movie.Some? && IsFavorite(movie, old(favorites)) ==> outcome == AlreadyFavorite
      ensures outcome == Added ==> favorites == old(favorites) + [NormalizeMovie(movie.value)]
      ensures outcome == Added ==> IsFavorite(movie, favorites)
      ensures outcome != Added ==> favorites == old(favorites)
    {
      if user.None? {
        return LoginRequired;
      }
      if movie.None? {
        return InvalidMovieData;
      }
      var id := GetMovieId(movie.value);
      if id.None? {
        return InvalidMovieId;
      }
      if IsFavorite(movie, favorites) {
        return AlreadyFavorite;
      }
      var normalized := NormalizeMovie(movie.value);
      loading := true;
      match reply {
        case Accepted =>
          AppendedIsFavorite(movie.value, favorites);
          favorites := favorites + [normalized];
          outcome := Added;
        case Refused(message) =>
          outcome := ServerFailure(MessageOr(message, "Failed to add"));
        case NetworkFailure =>
          outcome := NetworkError;
      }
      loading := false;
    }

    /**
     * `removeFromFavorites`: on success every entry with the same id or the same title and
     * year leaves the list, the others stay in order, and the movie is no longer a favorite.
     */
    method RemoveFromFavorites(movie: Option<MovieRecord>, reply: Reply) returns (outcome: Outcome)
      modifies this
      ensures loading == (old(loading) && !(outcome.Removed? || outcome.ServerFailure? || outcome.NetworkError?))
      ensures outcome.Success() ==> outcome == Removed
      ensures outcome == Removed <==>
        user.Some? && movie.Some? && GetMovieId(movie.value).Some? && reply.Accepted?
      ensures outcome == Removed ==>
        favorites == WithoutMatches(old(favorites), GetMovieId(movie.value).value, movie.value)
      ensures outcome == Removed ==> !IsFavorite(movie, favorites)
      ensures user.None? || movie.None? ==> outcome == InvalidRequest
      ensures user.Some? && movie.Some? && GetMovieId(movie.value).None? ==> outcome == InvalidMovieId
      ensures outcome != Removed ==> favorites == old(favorites)
    {
      if user.None? || movie.None? {
        return InvalidRequest;
      }
      var id := GetMovieId(movie.value);
      if id.None? {
        return InvalidMovieId;
      }
      loading := true;
      match reply {
        case Accepted =>
          RemovedIsNotFavorite(movie.value, favorites);
          favorites := WithoutMatches(favorites, id.value, movie.value);
          outcome := Removed;
        case Refused(message) =>
          outcome := ServerFailure(MessageOr(message, "Failed to remove"));
        case NetworkFailure =>
          outcome := NetworkError;
      }
      loading := false;
    }

    /**
     * `toggleFavorite`: removes when `isFavorite` holds and adds otherwise, so a successful
     * toggle flips whether the movie is a favorite. (The source reads `movie.Title` first and
     * throws on a null movie, so a movie is required.)
     */
    method ToggleFavorite(movie: Option<MovieRecord>, reply: Reply) returns (outcome: Outcome)
      requires movie.Some?
      modifies this
      ensures old(IsFavorite(movie, favorites)) ==> outcome != Added
      ensures !old(IsFavorite(movie, favorites)) ==> outcome != Removed
      ensures old(IsFavorite(movie, favorites)) ==>
        (outcome == Removed <==> user.Some? && GetMovieId(movie.value).Some? && reply.Accepted?)
      ensures !old(IsFavorite(movie, favorites)) ==>
        (outcome == Added <==> user.Some? && GetMovieId(movie.value).Some? && reply.Accepted?)
      ensures outcome == Removed ==>
        favorites == WithoutMatches(old(favorites), GetMovieId(movie.value).value, movie.value)
      ensures outcome == Added ==> favorites == old(favorites) + [NormalizeMovie(movie.value)]
      ensures user.None? ==> outcome == InvalidRequest || outcome == LoginRequired
      ensures outcome.Success() ==> IsFavorite(movie, favorites) == !old(IsFavorite(movie, favorites))
      ensures !outcome.Success() ==> favorites == old(favorites)
    {
      if IsFavorite(movie, favorites) {
        outcome := RemoveFromFavorites(movie, reply);
      } else {
        outcome := AddToFavorites(movie, reply);
      }
    }

    /** `clearAllFavorites`: the list is emptied only on success and is unchanged on any failure. */
    method ClearAllFavorites(reply: Reply) returns (outcome: Outcome)
      modifies this
      ensures loading == (old(loading) && outcome == NotLoggedIn)
      ensures outcome == Cleared <==> user.Some? && reply.Accepted?
      ensures user.None? ==> outcome == NotLoggedIn
      ensures outcome == Cleared ==> favorites == []
      ensures outcome != Cleared ==> favorites == old(favorites)
    {
      if user.None? {
        return NotLoggedIn;
      }
      loading := true;
      match reply {
        case Accepted =>
          favorites := [];
          outcome := Cleared;
        case Refused(message) =>
          outcome := ServerFailure(MessageOr(message, "Failed to clear"));
        case NetworkFailure =>
          outcome := NetworkError;
      }
      loading := false;
    }
  }
}

=== FILE: local_storage.dfy ===
/**
 * The browser's durable store: per-user favorites and sync statuses kept as dictionaries
 * keyed by email, the recently searched list, and the data version. Every exported
 * operation reads a dictionary, changes the user's part and writes it back; here the
 * dictionaries are fields and each write is an assignment. The clock is the `now` parameter.
 */
module LocalStorage {
  import opened Wrappers
  import opened Text
  import opened Seqs
  import opened SyncQueue
  import opened FavoriteModel

  /** `stored` is what a `given || dflt` default produces: the given text when there is one. */
  predicate Defaulted(stored: string, given: string, dflt: string) {
    (given != "" ==> stored == given) && (given == "" ==> stored == dflt)
  }

  /** The record `addToFavorites` stores: the movie's fields with 'N/A'/'movie' defaults. */
  function NewLocalFavorite(m: LocalMovie, now: int): (f: LocalFavorite)
    ensures f.imdbID == m.imdbID && f.Title == m.Title && f.legacyId == ""
    ensures Defaulted(f.Year, m.Year, NotAvailable) && Defaulted(f.Poster, m.Poster, NotAvailable)
    ensures Defaulted(f.Genre, m.Genre, NotAvailable) && Defaulted(f.Runtime, m.Runtime, NotAvailable)
    ensures Defaulted(f.imdbRating, m.imdbRating, NotAvailable) && Defaulted(f.Plot, m.Plot, NotAvailable)
    ensures Defaulted(f.Type, m.Type, "movie")
    ensures f.Year != "" && f.Poster != "" && f.Genre != "" && f.Runtime != ""
    ensures f.imdbRating != "" && f.Type != "" && f.Plot != ""
    ensures f.addedAt == Some(now) && f.origin == Original(m)
  {
    LocalFavorite(m.imdbID, "", m.Title, OrElse(m.Year, NotAvailable), OrElse(m.Poster, NotAvailable),
      OrElse(m.Genre, NotAvailable), OrElse(m.Runtime, NotAvailable), OrElse(m.imdbRating, NotAvailable),
      OrElse(m.Type, "movie"), OrElse(m.Plot, NotAvailable), Some(now), Original(m))
  }

  /** A favorite as the database hands it over; `addedAt` may be missing. */
  datatype DbFavorite = DbFavorite(
    movieId: string, title: string, year: string, posterPath: string, genre: string,
    runtime: string, rating: string, addedAt: Option<int>)

  /** `mergeFavoritesFromDatabase`'s conversion of one database favorite. */
  function ConvertDbFavorite(d: DbFavorite, now: int): (f: LocalFavorite)
    ensures f.imdbID == d.movieId && f.Title == d.title && f.origin == FromDatabase
    ensures f.Type == "movie" && f.Plot == NotAvailable && f.addedAt.Some?
    ensures d.addedAt.Some? ==> f.addedAt == d.addedAt
    ensures d.addedAt.None? ==> f.addedAt == Some(now)
    ensures f.legacyId == "" && f.Year == OrElse(d.year, NotAvailable) && f.Poster == OrElse(d.posterPath, NotAvailable)
    ensures f.Genre == OrElse(d.genre, NotAvailable) && f.Runtime == OrElse(d.runtime, NotAvailable)
    ensures f.imdbRating == OrElse(d.rating, NotAvailable)
  {
    LocalFavorite(d.movieId, "", d.title, OrElse(d.year, NotAvailable), OrElse(d.posterPath, NotAvailable),
      OrElse(d.genre, NotAvailable), OrElse(d.runtime, NotAvailable), OrElse(d.rating, NotAvailable),
      "movie", NotAvailable, if d.addedAt.Some? then d.addedAt else Some(now), FromDatabase)
  }

  function FromDatabaseAll(db: seq<DbFavorite>, now: int): (r: seq<LocalFavorite>)
    ensures |r| == |db|
    ensures forall i :: 0 <= i < |db| ==> r[i] == ConvertDbFavorite(db[i], now)
  {
    if db == [] then [] else [ConvertDbFavorite(db[0], now)] + FromDatabaseAll(db[1..], now)
  }

  /** The ids of a list of records, in order. */
  function Ids(s: seq<LocalFavorite>): (r: seq<string>)
    ensures |r| == |s|
    ensures forall x :: x in r <==> HasId(s, x)
  {
    if s == [] then []
    else
      assert forall i :: 0 <= i < |s| - 1 ==> s[1..][i] == s[i + 1];
      [s[0].imdbID] + Ids(s[1..])
  }

  /** The records a merge appends: the converted database favorites whose id is not local. */
  function Merged(local: seq<LocalFavorite>, db: seq<DbFavorite>, now: int): seq<LocalFavorite> {
    Filter(FromDatabaseAll(db, now), IdNotIn(Ids(local)))
  }

  /** The records a merge appends are exactly the converted database favorites that were not local. */
  lemma MergedAreNew(local: seq<LocalFavorite>, db: seq<DbFavorite>, now: int)
    ensures forall f :: f in Merged(local, db, now) <==>
      (exists i :: 0 <= i < |db| && f == ConvertDbFavorite(db[i], now)) && !HasId(local, f.imdbID)
  {
    var converted := FromDatabaseAll(db, now);
    forall f ensures f in Merged(local, db, now) <==>
      (exists i :: 0 <= i < |db| && f == ConvertDbFavorite(db[i], now)) && !HasId(local, f.imdbID)
    {
      if f in Merged(local, db, now) {
        assert IdNotIn(Ids(local))(f);
        var k :| 0 <= k < |converted| && converted[k] == f;
        assert f == ConvertDbFavorite(db[k], now);
      }
      if i :| 0 <= i < |db| && f == ConvertDbFavorite(db[i], now) {
        assert converted[i] == f;
      }
    }
  }

  /** After a merge into `local`, every database favorite's id is among the stored ids. */
  lemma MergeCoversDatabase(local: seq<LocalFavorite>, db: seq<DbFavorite>, now: int)
    ensures forall i :: 0 <= i < |db| ==> HasId(local + Merged(local, db, now), db[i].movieId)
  {
    var converted := FromDatabaseAll(db, now);
    var merged := Merged(local, db, now);
    forall i | 0 <= i < |db| ensures HasId(local + merged, db[i].movieId) {
      var f := converted[i];
      if HasId(local, f.imdbID) {
        var k :| 0 <= k < |local| && local[k].imdbID == f.imdbID;
        assert (local + merged)[k] == local[k];
      } else {
        assert IdNotIn(Ids(local))(f);
        assert f in merged;
        var k :| 0 <= k < |merged| && merged[k] == f;
        assert (local + merged)[|local| + k] == f;
      }
    }
  }

  /** `{...movie, searchedAt}` */
  datatype Searched = Searched(movie: LocalMovie, searchedAt: int)

  const MaxRecent: nat := 20

  function NotMovie(id: string): Searched -> bool {
    (s: Searched) => s.movie.imdbID != id
  }

  /**
   * `addToRecentlySearched`'s new list: the item first, then the previous items without
   * the same `imdbID`, cut to the first 20.
   */
  function PushRecent(recent: seq<Searched>, item: Searched): (r: seq<Searched>)
    ensures 0 < |r| <= MaxRecent && r[0] == item
    ensures forall i :: 0 < i < |r| ==> r[i] in recent && r[i].movie.imdbID != item.movie.imdbID
    ensures var rest := Filter(recent, NotMovie(item.movie.imdbID));
      |r| == (if 1 + |rest| > MaxRecent then MaxRecent else 1 + |rest|)
      && forall i :: 0 < i < |r| ==> r[i] == rest[i - 1]
  {
    var rest := Filter(recent, NotMovie(item.movie.imdbID));
    var all := [item] + rest;
    var r := if |all| > MaxRecent then all[..MaxRecent] else all;
    assert forall i :: 0 < i < |r| ==> r[i] == rest[i - 1];
    assert forall i :: 0 < i < |r| ==> NotMovie(item.movie.imdbID)(r[i]);
    r
  }

  /** Behind the new item, the previous items keep their order. */
  lemma PushRecentKeepsOrder(recent: seq<Searched>, item: Searched)
    ensures Subsequence(PushRecent(recent, item)[1..], recent)
  {
    var rest := Filter(recent, NotMovie(item.movie.imdbID));
    var r := PushRecent(recent, item);
    FilterSubsequence(recent, NotMovie(item.movie.imdbID));
    SubsequencePrefix(rest, recent, |r| - 1);
    assert r[1..] == rest[..|r| - 1];
  }

  predicate UniqueMovies(recent: seq<Searched>) {
    forall i, j :: 0 <= i < j < |recent| ==> recent[i].movie.imdbID != recent[j].movie.imdbID
  }

  /** A sub-list of a list without repeated movies has no repeated movie. */
  lemma FilterUniqueMovies(s: seq<Searched>, keep: Searched -> bool)
    requires UniqueMovies(s)
    ensures UniqueMovies(Filter(s, keep))
  {
    FilterKeepsKeysUnique(s, keep, (x: Searched) => x.movie.imdbID);
  }

  /** The recently searched list never holds the same movie twice. */
  lemma PushRecentKeepsUnique(recent: seq<Searched>, item: Searched)
    requires UniqueMovies(recent)
    ensures UniqueMovies(PushRecent(recent, item))
  {
    var rest := Filter(recent, NotMovie(item.movie.imdbID));
    FilterUniqueMovies(recent, NotMovie(item.movie.imdbID));
    var r := PushRecent(recent, item);
    forall i, j | 0 < i < j < |r| ensures r[i].movie.imdbID != r[j].movie.imdbID {
      assert r[i] == rest[i - 1] && r[j] == rest[j - 1];
    }
  }

  /** The three rules `validateUserData` checks, one per error message. */
  datatype ValidationError = NameTooShort | InvalidEmail | PasswordTooShort

  /** The order in which the rules are checked: name, then email, then password. */
  function RuleOrder(e: ValidationError): nat {
    match e
    case NameTooShort => 0
    case InvalidEmail => 1
    case PasswordTooShort => 2
  }

  /** The message the source reports for each broken rule. */
  function Message(e: ValidationError): string {
    match e
    case NameTooShort => "Name must be at least 2 characters long"
    case InvalidEmail => "Please enter a valid email address"
    case PasswordTooShort => "Password must be at least 6 characters long"
  }

  /** `validateUserData`'s answer: the broken rules in check order, valid when there are none. */
  datatype Validation = Validation(isValid: bool, errors: seq<ValidationError>)

  /** Valid exactly when the trimmed name has 2 characters, the email an '@' and the password 6 characters. */
  function ValidateUserData(name: string, email: string, password: string): (r: Validation)
    ensures r.isValid <==> |Trim(name)| >= 2 && Contains(email, "@") && |password| >= 6
    ensures r.isValid <==> r.errors == []
    ensures NameTooShort in r.errors <==> |Trim(name)| < 2
    ensures InvalidEmail in r.errors <==> !Contains(email, "@")
    ensures PasswordTooShort in r.errors <==> |password| < 6
    ensures forall i, j :: 0 <= i < j < |r.errors| ==> RuleOrder(r.errors[i]) < RuleOrder(r.errors[j])
  {
    var nameBad := name == "" || |Trim(name)| < 2;
    var emailBad := email == "" || !Contains(email, "@");
    var passwordBad := password == "" || |password| < 6;
    assert nameBad == (|Trim(name)| < 2);
    assert emailBad == !Contains(email, "@") by {
      if email == "" {
        assert !StartsWith(email, "@");
      }
    }
    var errors := BrokenRules(nameBad, emailBad, passwordBad);
    Validation(|errors| == 0, errors)
  }

  /** The error list, in check order: a rule is listed exactly when it is broken. */
  function BrokenRules(nameBad: bool, emailBad: bool, passwordBad: bool): (errors: seq<ValidationError>)
    ensures NameTooShort in errors <==> nameBad
    ensures InvalidEmail in errors <==> emailBad
    ensures PasswordTooShort in errors <==> passwordBad
    ensures errors == [] <==> !nameBad && !emailBad && !passwordBad
    ensures forall i, j :: 0 <= i < j < |errors| ==> RuleOrder(errors[i]) < RuleOrder(errors[j])
  {
    (if nameBad then [NameTooShort] else [])
    + (if emailBad then [InvalidEmail] else [])
    + (if passwordBad then [PasswordTooShort] else [])
  }

  /** `!version || version < '2.0'`, with JavaScript's string comparison. */
  function NeedsMigration(version: Option<string>): (r: bool)
    ensures version.None? || version == Some("") ==> r
    ensures version.Some? && version.value != "" && version.value[0] < '2' ==> r
    ensures version.Some? && version.value != "" && version.value[0] > '2' ==> !r
  {
    version.None? || version.value == "" || LexLess(version.value, "2.0")
  }

  /** A record written before 2.0 gets its `id` as `imdbID` and a timestamp when it has none. */
  function MigrateEntry(f: LocalFavorite, now: int): (r: LocalFavorite)
    ensures r.addedAt.Some? && (f.addedAt.Some? ==> r.addedAt == f.addedAt)
    ensures f.imdbID != "" ==> r.imdbID == f.imdbID && r.legacyId == f.legacyId
    ensures f.imdbID == "" ==> r.imdbID == f.legacyId && r.legacyId == ""
    ensures f.addedAt.None? ==> r.addedAt == Some(now)
    ensures r == f.(imdbID := r.imdbID, legacyId := r.legacyId, addedAt := r.addedAt)
  {
    var f1 := if f.imdbID == "" && f.legacyId != "" then f.(imdbID := f.legacyId, legacyId := "") else f;
    if f1.addedAt.None? then f1.(addedAt := Some(now)) else f1
  }

  /** Migrating a migrated record changes nothing, whatever the clock says. */
  lemma MigrateEntryIdempotent(f: LocalFavorite, now: int, later: int)
    ensures MigrateEntry(MigrateEntry(f, now), later) == MigrateEntry(f, now)
  {
  }

  function MigrateList(s: seq<LocalFavorite>, now: int): (r: seq<LocalFavorite>)
    ensures |r| == |s|
    ensures forall i :: 0 <= i < |s| ==> r[i] == MigrateEntry(s[i], now)
  {
    if s == [] then [] else [MigrateEntry(s[0], now)] + MigrateList(s[1..], now)
  }

  lemma MigrateListIdempotent(s: seq<LocalFavorite>, now: int, later: int)
    ensures MigrateList(MigrateList(s, now), later) == MigrateList(s, now)
  {
    var once := MigrateList(s, now);
    forall i | 0 <= i < |s| ensures MigrateList(once, later)[i] == once[i] {
      MigrateEntryIdempotent(s[i], now, later);
    }
  }

  /** The version `migrateData` writes does not ask for another migration. */
  lemma MigratedVersionIsCurrent()
    ensures !NeedsMigration(Some("2.0"))
  {
    assert !LexLess("2.0"[1..][1..], "2.0"[1..][1..]);
  }

  class BrowserStorage {
    var favorites: map<string, seq<LocalFavorite>>
    var sync: map<string, SyncStatus>
    var recent: seq<Searched>
    var version: Option<string>

    /** Every stored sync status is coherent and the recent list has no repeated movie. */
    predicate Valid()
      reads this
    {
      (forall e :: e in sync ==> Coherent(sync[e])) && UniqueMovies(recent)
    }

    constructor ()
      ensures Valid()
      ensures favorites == map[] && sync == map[] && recent == [] && version == None
    {
      favorites := map[];
      sync := map[];
      recent := [];
      version := None;
    }

    /** `getFavorites`: nothing without an email, otherwise the user's list or []. */
    function GetFavorites(email: string): (r: seq<LocalFavorite>)
      reads this
      ensures email == "" || email !in favorites ==> r == []
      ensures r != [] ==> email in favorites && r == favorites[email]
    {
      if email != "" && email in favorites then favorites[email] else []
    }

    /** `isFavorite`: false without an email or id; otherwise whether a record has the id. */
    function IsFavorite(email: string, id: string): (r: bool)
      reads this
      ensures r <==> email != "" && id != "" && email in favorites
                     && exists i :: 0 <= i < |favorites[email]| && favorites[email][i].imdbID == id
    {
      email != "" && id != "" && HasId(GetFavorites(email), id)
    }

    function GetSyncStatus(email: string): (st: SyncStatus)
      reads this
      ensures email in sync ==> st == sync[email]
      ensures email !in sync ==> st.pendingAdds == [] && st.pendingRemoves == [] && st.lastSync.None?
    {
      StatusOf(sync, email)
    }

    /** `hasPendingSyncData`: either queue is non-empty. */
    function HasPendingSyncData(email: string): (r: bool)
      reads this
      ensures email !in sync ==> !r
      ensures r <==> GetSyncStatus(email).pendingAdds != [] || GetSyncStatus(email).pendingRemoves != []
    {
      |GetSyncStatus(email).pendingAdds| > 0 || |GetSyncStatus(email).pendingRemoves| > 0
    }

    /** `addToSyncQueue`: the user's status is read (empty when absent), updated and written back. */
    method AddToSyncQueue(email: string, action: SyncAction)
      requires Valid()
      modifies this
      ensures Valid()
      ensures sync == old(sync)[email := Enqueue(old(GetSyncStatus(email)), action)]
      ensures favorites == old(favorites) && recent == old(recent) && version == old(version)
    {
      var st := GetSyncStatus(email);
      match action {
        case AddAction(f) => EnqueueAddKeepsCoherent(st, f);
        case RemoveAction(id) => EnqueueRemoveKeepsCoherent(st, id);
      }
      sync := sync[email := Enqueue(st, action)];
    }

    /**
     * `addToFavorites`: refused without an email or a movie, or when a record with the
     * movie's id is stored; otherwise the defaulted record is appended and an add queued.
     */
    method AddToFavorites(email: string, movie: Option<LocalMovie>, now: int) returns (ok: bool)
      requires Valid()
      modifies this
      ensures Valid()
      ensures ok <==> email != "" && movie.Some? && !HasId(old(GetFavorites(email)), movie.value.imdbID)
      ensures ok ==> favorites == old(favorites)[email := old(GetFavorites(email)) + [NewLocalFavorite(movie.value, now)]]
      ensures ok ==> sync == old(sync)[email := EnqueueAdd(old(GetSyncStatus(email)), NewLocalFavorite(movie.value, now))]
      ensures ok && movie.value.imdbID != "" ==> IsFavorite(email, movie.value.imdbID)
      ensures !ok ==> favorites == old(favorites) && sync == old(sync)
      ensures recent == old(recent) && version == old(version)
    {
      if email == "" || movie.None? {
        return false;
      }
      var list := GetFavorites(email);
      if HasId(list, movie.value.imdbID) {
        return false;
      }
      var record := NewLocalFavorite(movie.value, now);
      var updated := list + [record];
      assert updated[|list|] == record;
      favorites := favorites[email := updated];
      AddToSyncQueue(email, AddAction(record));
      ok := true;
    }

    /**
     * `removeFromFavorites`: every record with the id goes; only when that shortened the
     * list is it written back, a remove queued and true answered.
     */
    method RemoveFromFavorites(email: string, movieId: string) returns (ok: bool)
      requires Valid()
      modifies this
      ensures Valid()
      ensures ok <==> email != "" && movieId != "" && HasId(old(GetFavorites(email)), movieId)
      ensures ok ==> favorites == old(favorites)[email := Filter(old(favorites[email]), IdIsNot(movieId))]
      ensures ok ==> sync == old(sync)[email := EnqueueRemove(old(GetSyncStatus(email)), movieId)]
      ensures ok ==> !IsFavorite(email, movieId)
      ensures !ok ==> favorites == old(favorites) && sync == old(sync)
      ensures recent == old(recent) && version == old(version)
    {
      if email == "" || movieId == "" {
        return false;
      }
      if email !in favorites {
        return false;
      }
      var list := favorites[email];
      var filtered := Filter(list, IdIsNot(movieId));
      FilterShorter(list, IdIsNot(movieId));
      assert HasId(list, movieId) <==> exists i :: 0 <= i < |list| && !IdIsNot(movieId)(list[i]);
      if |filtered| < |list| {
        FilteredIdGone(list, movieId);
        favorites := favorites[email := filtered];
        AddToSyncQueue(email, RemoveAction(movieId));
        return true;
      }
      return false;
    }

    /**
     * `toggleFavorite`: removes when `isFavorite` holds and adds otherwise. With an email and
     * a non-empty id the toggle always succeeds and flips whether the movie is a favorite.
     */
    method ToggleFavorite(email: string, movie: Option<LocalMovie>, now: int) returns (ok: bool)
      requires Valid()
      modifies this
      ensures Valid()
      ensures movie.Some? && email != "" && movie.value.imdbID != "" ==>
        ok && IsFavorite(email, movie.value.imdbID) == !old(IsFavorite(email, movie.value.imdbID))
      ensures email == "" || movie.None? ==> !ok
      ensures movie.Some? && old(IsFavorite(email, movie.value.imdbID)) ==>
        ok
        && favorites == old(favorites)[email := Filter(old(favorites[email]), IdIsNot(movie.value.imdbID))]
        && sync == old(sync)[email := EnqueueRemove(old(GetSyncStatus(email)), movie.value.imdbID)]
      ensures movie.Some? && !old(IsFavorite(email, movie.value.imdbID)) ==>
        (ok <==> email != "" && !HasId(old(GetFavorites(email)), movie.value.imdbID))
      ensures movie.Some? && !old(IsFavorite(email, movie.value.imdbID)) && ok ==>
        favorites == old(favorites)[email := old(GetFavorites(email)) + [NewLocalFavorite(movie.value, now)]]
        && sync == old(sync)[email := EnqueueAdd(old(GetSyncStatus(email)), NewLocalFavorite(movie.value, now))]
      ensures !ok ==> favorites == old(favorites) && sync == old(sync)
      ensures recent == old(recent) && version == old(version)
    {
      if movie.None? {
        return false;
      }
      if IsFavorite(email, movie.value.imdbID) {
        ok := RemoveFromFavorites(email, movie.value.imdbID);
      } else {
        ok := AddToFavorites(email, movie, now);
      }
    }

    /** `markAsSynced`: the user's status with the synced ids dropped and `lastSync` stamped. */
    method MarkAsSynced(email: string, syncedAdds: Option<seq<string>>, syncedRemoves: Option<seq<string>>, now: int)
      requires Valid()
      modifies this
      ensures Valid()
      ensures sync == old(sync)[email := MarkSynced(old(GetSyncStatus(email)), syncedAdds, syncedRemoves, now)]
      ensures favorites == old(favorites) && recent == old(recent) && version == old(version)
    {
      var st := GetSyncStatus(email);
      MarkSyncedKeepsCoherent(st, syncedAdds, syncedRemoves, now);
      sync := sync[email := MarkSynced(st, syncedAdds, syncedRemoves, now)];
    }

    /** The loop over the queued adds: each record's id goes to the successes or the failures. */
    static method ReplayAdds(adds: seq<LocalFavorite>, addOk: LocalFavorite -> bool)
      returns (successes: seq<string>, failures: seq<string>)
      ensures successes == IdsWhere(adds, addOk) && failures == IdsWhere(adds, Failed(addOk))
    {
      successes, failures := [], [];
      for i := 0 to |adds|
        invariant successes == IdsWhere(adds[..i], addOk)
        invariant failures == IdsWhere(adds[..i], Failed(addOk))
      {
        assert adds[..i + 1][..i] == adds[..i];
        var movie := adds[i];
        if addOk(movie) {
          successes := successes + [movie.imdbID];
        } else {
          failures := failures + [movie.imdbID];
        }
      }
      assert adds[..|adds|] == adds;
    }

    /** The loop over the queued removes: each id goes to the successes or the failures. */
    static method ReplayRemoves(removes: seq<string>, removeOk: string -> bool)
      returns (successes: seq<string>, failures: seq<string>)
      ensures successes == Filter(removes, removeOk) && failures == Filter(removes, Rejected(removeOk))
    {
      successes, failures := [], [];
      for i := 0 to |removes|
        invariant successes == Filter(removes[..i], removeOk)
        invariant failures == Filter(removes[..i], Rejected(removeOk))
      {
        var movieId := removes[i];
        assert removes[..i + 1] == removes[..i] + [movieId];
        FilterAppendOne(removes[..i], movieId, removeOk);
        FilterAppendOne(removes[..i], movieId, Rejected(removeOk));
        if removeOk(movieId) {
          successes := successes + [movieId];
        } else {
          failures := failures + [movieId];
        }
      }
      assert removes[..|removes|] == removes;
    }

    /**
     * `syncWithDatabase`: with both queues empty nothing happens. Otherwise every queued add
     * and remove is replayed in order against the server, whose answers are `addOk` and
     * `removeOk`, and the accepted ones are marked as synced when there are any.
     */
    method SyncWithDatabase(email: string, addOk: LocalFavorite -> bool, removeOk: string -> bool, now: int)
      returns (report: SyncReport)
      requires Valid()
      modifies this
      ensures Valid()
      ensures var st := old(GetSyncStatus(email));
        && (st.pendingAdds == [] && st.pendingRemoves == [] ==> report == NothingToSync && sync == old(sync))
        && (st.pendingAdds != [] || st.pendingRemoves != [] ==>
              report == Synced(IdsWhere(st.pendingAdds, addOk), IdsWhere(st.pendingAdds, Failed(addOk)),
                               Filter(st.pendingRemoves, removeOk), Filter(st.pendingRemoves, Rejected(removeOk))))
        && sync == (if AnyAccepted(st, addOk, removeOk) then old(sync)[email := AfterSync(st, addOk, removeOk, now)] else old(sync))
      ensures favorites == old(favorites) && recent == old(recent) && version == old(version)
    {
      var st := GetSyncStatus(email);
      if |st.pendingAdds| == 0 && |st.pendingRemoves| == 0 {
        return NothingToSync;
      }
      var addSuccesses, addFailures := ReplayAdds(st.pendingAdds, addOk);
      var removeSuccesses, removeFailures := ReplayRemoves(st.pendingRemoves, removeOk);
      if |addSuccesses| > 0 || |removeSuccesses| > 0 {
        MarkAsSynced(email, Some(addSuccesses), Some(removeSuccesses), now);
      }
      report := Synced(addSuccesses, addFailures, removeSuccesses, removeFailures);
    }

    /** The merge loop: each converted favorite whose id is not in `localIds` is pushed and counted. */
    static method AppendNew(base: seq<LocalFavorite>, converted: seq<LocalFavorite>, localIds: seq<string>)
      returns (list: seq<LocalFavorite>, addedCount: nat)
      ensures list == base + Filter(converted, IdNotIn(localIds))
      ensures addedCount == |Filter(converted, IdNotIn(localIds))|
    {
      list := base;
      addedCount := 0;
      for i := 0 to |converted|
        invariant list == base + Filter(converted[..i], IdNotIn(localIds))
        invariant addedCount == |Filter(converted[..i], IdNotIn(localIds))|
      {
        var dbFav := converted[i];
        assert converted[..i + 1] == converted[..i] + [dbFav];
        FilterConcat(converted[..i], [dbFav], IdNotIn(localIds));
        if dbFav.imdbID !in localIds {
          list := list + [dbFav];
          addedCount := addedCount + 1;
        }
      }
      assert converted[..|converted|] == converted;
    }

    /**
     * `mergeFavoritesFromDatabase`: the converted database favorites whose id was not among
     * the local ids before the merge are appended in order; the count of them is answered.
     */
    method MergeFavoritesFromDatabase(email: string, db: seq<DbFavorite>, now: int) returns (mergedCount: nat)
      requires Valid()
      modifies this
      ensures Valid()
      ensures var base := if email in old(favorites) then old(favorites)[email] else [];
        favorites == old(favorites)[email := base + Merged(old(GetFavorites(email)), db, now)]
      ensures mergedCount == |Merged(old(GetFavorites(email)), db, now)|
      ensures sync == old(sync) && recent == old(recent) && version == old(version)
    {
      var localIds := Ids(GetFavorites(email));
      var converted := FromDatabaseAll(db, now);
      var list;
      list, mergedCount := AppendNew(if email in favorites then favorites[email] else [], converted, localIds);
      favorites := favorites[email := list];
    }

    /** `clearAllFavorites`: the user's list and both queues are emptied; `lastSync` stays. */
    method ClearAllFavorites(email: string) returns (ok: bool)
      requires Valid()
      modifies this
      ensures Valid()
      ensures ok <==> email != ""
      ensures ok ==> favorites == old(favorites)[email := []]
      ensures ok ==> sync == old(sync)[email := SyncStatus([], [], old(GetSyncStatus(email)).lastSync)]
      ensures ok ==> GetFavorites(email) == [] && !HasPendingSyncData(email)
      ensures !ok ==> favorites == old(favorites) && sync == old(sync)
      ensures recent == old(recent) && version == old(version)
    {
      if email == "" {
        return false;
      }
      favorites := favorites[email := []];
      var st := GetSyncStatus(email);
      sync := sync[email := st.(pendingAdds := [], pendingRemoves := [])];
      ok := true;
    }

    /** `addToRecentlySearched`: refused without a movie; otherwise the list becomes `PushRecent`'s. */
    method AddToRecentlySearched(movie: Option<LocalMovie>, now: int) returns (ok: bool)
      requires Valid()
      modifies this
      ensures Valid()
      ensures ok <==> movie.Some?
      ensures ok ==> recent == PushRecent(old(recent), Searched(movie.value, now))
      ensures !ok ==> recent == old(recent)
      ensures favorites == old(favorites) && sync == old(sync) && version == old(version)
    {
      if movie.None? {
        return false;
      }
      PushRecentKeepsUnique(recent, Searched(movie.value, now));
      recent := PushRecent(recent, Searched(movie.value, now));
      ok := true;
    }

    /** One user's records migrated in place, one at a time. */
    static method MigrateEntries(s: seq<LocalFavorite>, now: int) returns (r: seq<LocalFavorite>)
      ensures r == MigrateList(s, now)
    {
      r := s;
      for i := 0 to |r|
        invariant |r| == |s|
        invariant forall j :: 0 <= j < i ==> r[j] == MigrateEntry(s[j], now)
        invariant forall j :: i <= j < |r| ==> r[j] == s[j]
      {
        r := r[i := MigrateEntry(r[i], now)];
      }
    }

    /** The loop over the users: each user's records are migrated in turn. */
    static method MigrateUsers(store: map<string, seq<LocalFavorite>>, now: int)
      returns (migrated: map<string, seq<LocalFavorite>>)
      ensures migrated == map e | e in store :: MigrateList(store[e], now)
    {
      migrated := store;
      var pending := store.Keys;
      while pending != {}
        invariant pending <= store.Keys && migrated.Keys == store.Keys
        invariant forall e :: e in store ==>
          migrated[e] == if e in pending then store[e] else MigrateList(store[e], now)
        decreases pending
      {
        var e :| e in pending;
        var list := MigrateEntries(migrated[e], now);
        migrated := migrated[e := list];
        pending := pending - {e};
      }
    }

    /**
     * `migrateData`: when the stored version is missing or below "2.0", every user's records
     * are migrated and the version becomes "2.0"; otherwise nothing changes.
     */
    method MigrateData(now: int)
      requires Valid()
      modifies this
      ensures Valid()
      ensures !NeedsMigration(version)
      ensures NeedsMigration(old(version)) ==>
        favorites == (map e | e in old(favorites) :: MigrateList(old(favorites)[e], now)) && version == Some("2.0")
      ensures !NeedsMigration(old(version)) ==> favorites == old(favorites) && version == old(version)
      ensures sync == old(sync) && recent == old(recent)
    {
      if !NeedsMigration(version) {
        return;
      }
      favorites := MigrateUsers(favorites, now);
      MigratedVersionIsCurrent();
      version := Some("2.0");
    }
  }

  /** `syncWithDatabase`'s answer: nothing to sync, or the ids of the accepted and failed requests. */
  datatype SyncReport =
    | NothingToSync
    | Synced(addSuccesses: seq<string>, addFailures: seq<string>, removeSuccesses: seq<string>, removeFailures: seq<string>)
  {
    /** The count in the 'Synced N items successfully' message. */
    function SyncedCount(): nat {
      if NothingToSync? then 0 else |addSuccesses| + |removeSuccesses|
    }
  }
}

=== FILE: movie_identity.dfy ===
/**
 * How the favorites context gives a movie record an identity (`getMovieId`), brings the
 * records of the different metadata sources into one shape (`normalizeMovie`) and decides
 * whether a movie is already a favorite (`isFavorite`): exact id first, then title and year.
 */
module MovieIdentity {
  import opened Wrappers
  import opened Text
  import opened Seqs

  /** A JavaScript value held by an id-like field: absent, a string, or an integer. */
  datatype Scalar = Absent | Str(s: string) | Num(n: int)

  /** JavaScript truthiness: `undefined`, `""` and `0` are falsy. */
  predicate Truthy(v: Scalar) {
    match v
    case Absent => false
    case Str(s) => s != ""
    case Num(n) => n != 0
  }

  /** `v.toString()` (`v?.toString()` for an absent value gives nothing, written "" here). */
  function ScalarText(v: Scalar): (r: string)
    ensures Truthy(v) ==> r != ""
    ensures v.Num? && v.n > 0 ==> AllDigits(r)
  {
    match v
    case Absent => ""
    case Str(s) => s
    case Num(n) => IntToString(n)
  }

  /**
   * A movie record as it arrives from a trending list (TMDB shape), a search result or
   * detail page (OMDb shape) or an already-favorited record. Field names are the record's
   * own keys; a string field that is missing is "", which JavaScript treats as falsy too.
   * `externalImdbId` is `external_ids.imdb_id`; `genres` holds the `name`s of the genre list.
   */
  datatype MovieRecord = MovieRecord(
    id: Scalar, tmdb_id: Scalar, imdbID: string, externalImdbId: string,
    Title: string, title: string, Year: string, release_date: string,
    Poster: string, poster_path: string,
    imdbRating: string, Rating: string, vote_average: Scalar,
    Genre: string, genres: Option<seq<string>>,
    Type: string, Plot: string, overview: string)

  /** The shape every favorite has in the context's list (`normalizeMovie`'s result). */
  datatype Favorite = Favorite(
    imdbID: Option<string>, Title: string, Poster: string, Year: string,
    imdbRating: string, Genre: string, Type: string, Plot: string)

  /** `movie.Title || movie.title` */
  function TitleOf(m: MovieRecord): (r: string)
    ensures r == "" <==> m.Title == "" && m.title == ""
    ensures m.Title != "" ==> r == m.Title
  {
    if m.Title != "" then m.Title else m.title
  }

  /** `movie.Year || (movie.release_date ? movie.release_date.split('-')[0] : fallback)` */
  function YearOr(m: MovieRecord, fallback: string): (r: string)
    ensures m.Year != "" ==> r == m.Year
    ensures m.Year == "" && m.release_date != "" ==> '-' !in r && StartsWith(m.release_date, r)
    ensures m.Year == "" && m.release_date == "" ==> r == fallback
  {
    if m.Year != "" then m.Year
    else if m.release_date != "" then FirstSegment(m.release_date, '-')
    else fallback
  }

  const CustomPrefix: string := "custom-"

  /** The synthesized id of a movie known only by title and year. */
  function CustomId(title: string, year: string): (r: string)
    ensures StartsWith(r, CustomPrefix)
    ensures |year| < |r| && r[|r| - |year|..] == year && r[|r| - |year| - 1] == '-'
  {
    var r := CustomPrefix + KeepAlnum(Lower(title)) + "-" + year;
    assert r[..|CustomPrefix|] == CustomPrefix;
    r
  }

  /**
   * `getMovieId`: the first truthy of `id`, `tmdb_id`, `imdbID` (unless it is the sentinel
   * "N/A") and `external_ids.imdb_id`; failing those a `custom-<title>-<year>` id; and
   * null when there is no title either.
   */
  function GetMovieId(m: MovieRecord): (r: Option<string>)
    ensures r.Some? ==> r.value != ""
    ensures r.None? <==> !Truthy(m.id) && !Truthy(m.tmdb_id) && (m.imdbID == "" || m.imdbID == "N/A")
                         && m.externalImdbId == "" && TitleOf(m) == ""
  {
    if Truthy(m.id) then Some(ScalarText(m.id))
    else if Truthy(m.tmdb_id) then Some(ScalarText(m.tmdb_id))
    else if m.imdbID != "" && m.imdbID != "N/A" then Some(m.imdbID)
    else if m.externalImdbId != "" then Some(m.externalImdbId)
    else if TitleOf(m) != "" then Some(CustomId(TitleOf(m), YearOr(m, "unknown")))
    else None
  }

  /**
   * The first truthy of `id` and `tmdb_id` is the identity, as its `toString()` text: a
   * truthy `id` of either type wins over everything, and `tmdb_id` wins when `id` is falsy.
   */
  lemma TmdbIdsWin(m: MovieRecord)
    ensures Truthy(m.id) ==> GetMovieId(m) == Some(ScalarText(m.id))
    ensures m.id.Str? && m.id.s != "" ==> GetMovieId(m) == Some(m.id.s)
    ensures !Truthy(m.id) && Truthy(m.tmdb_id) ==> GetMovieId(m) == Some(ScalarText(m.tmdb_id))
    ensures !Truthy(m.id) && m.tmdb_id.Str? && m.tmdb_id.s != "" ==> GetMovieId(m) == Some(m.tmdb_id.s)
  {
  }

  /** A positive numeric TMDB id wins over every other id and is used as its bare digits. */
  lemma NumericIdWins(m: MovieRecord, n: int)
    requires m.id == Num(n) && n > 0
    ensures GetMovieId(m) == Some(NatToDecimal(n))
    ensures AllDigits(GetMovieId(m).value)
  {
  }

  /** Without TMDB ids an IMDb id is used as-is, unless it is the sentinel "N/A". */
  lemma ImdbIdWithoutTmdbId(m: MovieRecord)
    requires !Truthy(m.id) && !Truthy(m.tmdb_id)
    ensures m.imdbID != "" && m.imdbID != "N/A" ==> GetMovieId(m) == Some(m.imdbID)
    ensures (m.imdbID == "" || m.imdbID == "N/A") && m.externalImdbId != "" ==>
      GetMovieId(m) == Some(m.externalImdbId)
  {
  }

  /**
   * The fallback id: "custom-", the title reduced to [a-z0-9], "-", the year. The year can be
   * read back as the id's last "-"-separated segment whenever the year has no "-" itself,
   * which is what the server's last removal strategy relies on.
   */
  lemma {:induction false} CustomIdFallback(m: MovieRecord)
    requires !Truthy(m.id) && !Truthy(m.tmdb_id)
    requires m.imdbID == "" || m.imdbID == "N/A"
    requires m.externalImdbId == "" && TitleOf(m) != ""
    ensures GetMovieId(m) == Some(CustomId(TitleOf(m), YearOr(m, "unknown")))
    ensures StartsWith(GetMovieId(m).value, CustomPrefix)
    ensures '-' !in YearOr(m, "unknown") ==> LastSegment(GetMovieId(m).value, '-') == YearOr(m, "unknown")
  {
    CustomIdShape(TitleOf(m), YearOr(m, "unknown"));
  }

  /** A custom id starts with "custom-", and a year without '-' is its last segment. */
  lemma CustomIdShape(title: string, year: string)
    ensures StartsWith(CustomId(title, year), CustomPrefix)
    ensures '-' !in year ==> LastSegment(CustomId(title, year), '-') == year
  {
    var head := CustomPrefix + KeepAlnum(Lower(title));
    assert CustomId(title, year) == head + ['-'] + year;
    assert CustomId(title, year)[..|CustomPrefix|] == CustomPrefix;
    if '-' !in year {
      LastSegmentAfter(head, '-', year);
    }
  }

  /** "Inception" reduced to lower-case letters and digits. */
  lemma InceptionKey()
    ensures KeepAlnum(Lower("Inception")) == "inception"
  {
    var low := Lower("Inception");
    assert low[0] == 'i' && low[1] == 'n' && low[2] == 'c' && low[3] == 'e' && low[4] == 'p';
    assert low[5] == 't' && low[6] == 'i' && low[7] == 'o' && low[8] == 'n';
    assert low == "inception";
    assert IsLowerAlnum('i') && IsLowerAlnum('n') && IsLowerAlnum('c') && IsLowerAlnum('e');
    assert IsLowerAlnum('p') && IsLowerAlnum('t') && IsLowerAlnum('o');
    KeepAlnumOfAlnum(low);
  }

  /** The fallback id of "Inception" (2010). */
  lemma InceptionId()
    ensures CustomId("Inception", "2010") == "custom-inception-2010"
  {
    InceptionKey();
    assert CustomId("Inception", "2010") == CustomPrefix + "inception" + "-" + "2010";
  }

  /** `Title: "Inception", Year: "2010"` and no ids gives "custom-inception-2010". */
  lemma InceptionCustomId(m: MovieRecord)
    requires m == MovieRecord(Absent, Absent, "", "", "Inception", "", "2010", "", "", "",
                              "", "", Absent, "", None, "", "", "")
    ensures GetMovieId(m) == Some("custom-inception-2010")
  {
    assert TitleOf(m) == "Inception" && YearOr(m, "unknown") == "2010";
    CustomIdFallback(m);
    InceptionId();
  }

  /**
   * `normalizeMovie`: the id is `getMovieId`'s, and the display fields fall back through the
   * sources' names to the defaults 'Unknown', 'N/A', 'movie' and ''.
   */
  function NormalizeMovie(m: MovieRecord): (f: Favorite)
    ensures f.imdbID == GetMovieId(m)
    ensures f.Title == (if TitleOf(m) != "" then TitleOf(m) else "Unknown")
    ensures f.Poster == OrElse(OrElse(m.Poster, m.poster_path), "N/A")
    ensures f.Year == YearOr(m, "N/A")
    ensures f.imdbRating == OrElse(OrElse(OrElse(m.imdbRating, m.Rating), ScalarText(m.vote_average)), "N/A")
    ensures m.Genre != "" ==> f.Genre == m.Genre
    ensures m.Genre == "" && m.genres.Some? ==> f.Genre == Join(m.genres.value, ", ")
    ensures m.Genre == "" && m.genres.None? ==> f.Genre == "N/A"
    ensures f.Type == OrElse(m.Type, "movie")
    ensures f.Plot == OrElse(m.Plot, m.overview)
    ensures f.Title != "" && f.Poster != "" && f.imdbRating != "" && f.Type != ""
  {
    Favorite(
      imdbID := GetMovieId(m),
      Title := if TitleOf(m) != "" then TitleOf(m) else "Unknown",
      Poster := if m.Poster != "" then m.Poster else if m.poster_path != "" then m.poster_path else "N/A",
      Year := YearOr(m, "N/A"),
      imdbRating :=
        if m.imdbRating != "" then m.imdbRating
        else if m.Rating != "" then m.Rating
        else if ScalarText(m.vote_average) != "" then ScalarText(m.vote_average)
        else "N/A",
      Genre := if m.Genre != "" then m.Genre else if m.genres.Some? then Join(m.genres.value, ", ") else "N/A",
      Type := if m.Type != "" then m.Type else "movie",
      Plot := if m.Plot != "" then m.Plot else m.overview)
  }

  /** A record that carries only a title is normalized with every default in place. */
  lemma NormalizeDefaults(m: MovieRecord, t: string)
    requires t != ""
    requires m == MovieRecord(Absent, Absent, "", "", t, "", "", "", "", "", "", "", Absent, "", None, "", "", "")
    ensures NormalizeMovie(m) == Favorite(Some(CustomId(t, "unknown")), t, "N/A", "N/A", "N/A", "N/A", "movie", "")
  {
  }

  /** Title comparison key: lower-cased, then trimmed. */
  function MatchKey(title: string): string {
    Trim(Lower(title))
  }

  /** Strategy B: same title up to case and surrounding blanks, and exactly the same year string. */
  function SameTitleYear(f: Favorite, m: MovieRecord): (r: bool)
    ensures Lower(f.Title) == Lower(TitleOf(m)) && f.Year == YearOr(m, "") ==> r
    ensures r ==> f.Year == YearOr(m, "")
  {
    MatchKey(f.Title) == MatchKey(TitleOf(m)) && f.Year == YearOr(m, "")
  }

  /** `favorites.some(fav => fav.imdbID === id)` */
  function SomeIdMatch(favorites: seq<Favorite>, id: string): (r: bool)
    ensures r <==> exists i :: 0 <= i < |favorites| && favorites[i].imdbID == Some(id)
  {
    if favorites == [] then false
    else favorites[0].imdbID == Some(id) || SomeIdMatch(favorites[1..], id)
  }

  /** `favorites.some(fav => <same title and year>)` */
  function SomeTitleYearMatch(favorites: seq<Favorite>, m: MovieRecord): (r: bool)
    ensures r <==> exists i :: 0 <= i < |favorites| && SameTitleYear(favorites[i], m)
  {
    if favorites == [] then false
    else SameTitleYear(favorites[0], m) || SomeTitleYearMatch(favorites[1..], m)
  }

  /**
   * `isFavorite`: false for a null movie, an empty list or an unresolvable id; otherwise
   * true exactly when some favorite has the same id (strategy A) or the same title and
   * year (strategy B).
   */
  function IsFavorite(movie: Option<MovieRecord>, favorites: seq<Favorite>): (r: bool)
    ensures r <==> movie.Some? && GetMovieId(movie.value).Some?
                   && ((exists i :: 0 <= i < |favorites| && favorites[i].imdbID == GetMovieId(movie.value))
                       || (exists i :: 0 <= i < |favorites| && SameTitleYear(favorites[i], movie.value)))
  {
    if movie.None? || |favorites| == 0 then false
    else match GetMovieId(movie.value)
      case None => false
      case Some(id) => SomeIdMatch(favorites, id) || SomeTitleYearMatch(favorites, movie.value)
  }

  /**
   * Strategy B fires when strategy A fails: a favorite stored under the TMDB id "27205" is
   * found for a candidate that only carries the IMDb id "tt1375666", by title and year.
   */
  lemma TitleYearFallback(stored: Favorite, candidate: MovieRecord)
    requires stored == Favorite(Some("27205"), "Inception", "N/A", "2010", "8.8", "Sci-Fi", "movie", "")
    requires candidate == MovieRecord(Absent, Absent, "tt1375666", "", "Inception", "", "2010", "", "", "",
                                      "", "", Absent, "", None, "", "", "")
    ensures !SomeIdMatch([stored], "tt1375666")
    ensures IsFavorite(Some(candidate), [stored])
  {
    assert SameTitleYear([stored][0], candidate);
  }

  /** Which entries `removeFromFavorites` takes out of the list: same id, or same title and year. */
  function RemovalMatch(f: Favorite, id: string, m: MovieRecord): (r: bool)
    ensures f.imdbID == Some(id) ==> r
    ensures SameTitleYear(f, m) ==> r
    ensures r && f.imdbID != Some(id) ==> f.Year == YearOr(m, "")
  {
    f.imdbID == Some(id) || SameTitleYear(f, m)
  }

  /** The context's list after a successful removal: every matching entry goes, the rest stay in order. */
  function WithoutMatches(favorites: seq<Favorite>, id: string, m: MovieRecord): (r: seq<Favorite>)
    ensures forall i :: 0 <= i < |r| ==> r[i] in favorites && !RemovalMatch(r[i], id, m)
    ensures forall i :: 0 <= i < |favorites| && !RemovalMatch(favorites[i], id, m) ==> favorites[i] in r
  {
    Filter(favorites, f => !RemovalMatch(f, id, m))
  }

  /** The removal keeps the other favorites in their order. */
  lemma WithoutMatchesKeepsOrder(favorites: seq<Favorite>, id: string, m: MovieRecord)
    ensures Subsequence(WithoutMatches(favorites, id, m), favorites)
  {
    FilterSubsequence(favorites, f => !RemovalMatch(f, id, m));
  }

  /** Once a normalized record is appended, the movie is a favorite. */
  lemma AppendedIsFavorite(m: MovieRecord, favorites: seq<Favorite>)
    requires GetMovieId(m).Some?
    ensures IsFavorite(Some(m), favorites + [NormalizeMovie(m)])
  {
    var after := favorites + [NormalizeMovie(m)];
    assert after[|favorites|].imdbID == GetMovieId(m);
  }

  /** After the removal filter the movie is no longer a favorite by either strategy. */
  lemma RemovedIsNotFavorite(m: MovieRecord, favorites: seq<Favorite>)
    requires GetMovieId(m).Some?
    ensures !IsFavorite(Some(m), WithoutMatches(favorites, GetMovieId(m).value, m))
  {
  }

  /** Removing from a list where nothing matches changes nothing. */
  lemma RemovalOfNonFavorite(m: MovieRecord, favorites: seq<Favorite>)
    requires GetMovieId(m).Some? && !IsFavorite(Some(m), favorites)
    ensures WithoutMatches(favorites, GetMovieId(m).value, m) == favorites
  {
    var id := GetMovieId(m).value;
    FilterKeepsAll(favorites, f => !RemovalMatch(f, id, m));
  }
}

=== FILE: response_cache.dfy ===
/**
 * The client's in-memory response cache: a map from request key to the data, the time it was
 * stored and its time-to-live. A read past the time-to-live evicts the entry and misses; a
 * read at exactly the time-to-live still hits. The clock is the `now` parameter.
 */
module ResponseCache {
  import opened Wrappers

  /** `CACHE_DURATION`: ten minutes, in milliseconds. */
  const CacheDuration: int := 10 * 60 * 1000

  datatype CacheEntry<T> = CacheEntry(data: T, timestamp: int, ttl: int)

  /** Not yet stale: no more than `ttl` milliseconds have passed since the entry was stored. */
  predicate Live<T>(e: CacheEntry<T>, now: int) {
    now - e.timestamp <= e.ttl
  }

  /** What a read of `key` at `now` answers. */
  function Lookup<T>(entries: map<string, CacheEntry<T>>, key: string, now: int): (r: Option<T>)
    ensures r.Some? <==> key in entries && Live(entries[key], now)
    ensures r.Some? ==> r.value == entries[key].data
  {
    if key in entries && Live(entries[key], now) then Some(entries[key].data) else None
  }

  /** Data stored with a time-to-live is read back up to and including that many milliseconds later, and not after. */
  lemma StoredDataLivesForTtl<T>(entries: map<string, CacheEntry<T>>, key: string, data: T, stored: int, ttl: int, now: int)
    requires stored <= now
    ensures Lookup(entries[key := CacheEntry(data, stored, ttl)], key, now) == (if now - stored <= ttl then Some(data) else None)
  {
  }

  /** With the default time-to-live an entry is still read ten minutes after it was stored, and not a millisecond later. */
  lemma DefaultTtlBoundary<T>(entries: map<string, CacheEntry<T>>, key: string, data: T, stored: int)
    ensures Lookup(entries[key := CacheEntry(data, stored, CacheDuration)], key, stored + 600000) == Some(data)
    ensures Lookup(entries[key := CacheEntry(data, stored, CacheDuration)], key, stored + 600001) == None
  {
  }

  /** Storing under one key does not change what any other key reads. */
  lemma StoreIsolated<T>(entries: map<string, CacheEntry<T>>, key: string, e: CacheEntry<T>, other: string, now: int)
    requires other != key
    ensures Lookup(entries[key := e], other, now) == Lookup(entries, other, now)
  {
  }

  /** The map after a read: an entry found stale is deleted. */
  function AfterRead<T>(entries: map<string, CacheEntry<T>>, key: string, now: int): (r: map<string, CacheEntry<T>>)
    ensures r.Keys <= entries.Keys
    ensures forall k :: k in r ==> r[k] == entries[k]
  {
    if key in entries && !Live(entries[key], now) then entries - {key} else entries
  }

  /**
   * A read never changes what a read at the same time or later answers, for any key:
   * the only entry it deletes had already gone stale, and stays stale as time passes.
   */
  lemma {:induction false} ReadChangesNoLaterAnswer<T>(entries: map<string, CacheEntry<T>>, key: string, now: int, k: string, later: int)
    requires now <= later
    ensures Lookup(AfterRead(entries, key, now), k, later) == Lookup(entries, k, later)
  {
    if k == key && key in entries && !Live(entries[key], now) {
      assert !Live(entries[key], later);
    }
  }

  class Cache<T> {
    var entries: map<string, CacheEntry<T>>

    constructor ()
      ensures entries == map[]
    {
      entries := map[];
    }

    /** `getCachedData`: the live data, null for a missing key, and eviction plus null for a stale one. */
    method GetCachedData(key: string, now: int) returns (r: Option<T>)
      modifies this
      ensures r == Lookup(old(entries), key, now)
      ensures entries == AfterRead(old(entries), key, now)
    {
      if key !in entries {
        return None;
      }
      var entry := entries[key];
      if now - entry.timestamp > entry.ttl {
        entries := entries - {key};
        return None;
      }
      return Some(entry.data);
    }

    /** `setCachedData`: the key is overwritten with the data, the current time and the time-to-live. */
    method SetCachedData(key: string, data: T, now: int, ttl: int := CacheDuration)
      modifies this
      ensures entries == old(entries)[key := CacheEntry(data, now, ttl)]
      ensures Lookup(entries, key, now) == (if ttl >= 0 then Some(data) else None)
    {
      entries := entries[key := CacheEntry(data, now, ttl)];
    }

    /** `clearCache`: every key misses afterwards. */
    method ClearCache()
      modifies this
      ensures entries == map[]
      ensures forall k, now :: Lookup(entries, k, now).None?
    {
      entries := map[];
    }
  }
}

=== FILE: seqs.dfy ===
/**
 * `Array.prototype.filter` and the facts about it that the favorites lists rely on:
 * membership, order (filtering distributes over concatenation) and counting.
 */
module Seqs {

  function Filter<T>(s: seq<T>, keep: T -> bool): (r: seq<T>)
    ensures |r| <= |s|
    ensures forall i :: 0 <= i < |r| ==> r[i] in s && keep(r[i])
    ensures forall i :: 0 <= i < |s| && keep(s[i]) ==> s[i] in r
  {
    if s == [] then []
    else if keep(s[0]) then [s[0]] + Filter(s[1..], keep)
    else Filter(s[1..], keep)
  }

  /** Filtering keeps relative order: the kept part of `a` comes before the kept part of `b`. */
  lemma {:induction false} FilterConcat<T>(a: seq<T>, b: seq<T>, keep: T -> bool)
    ensures Filter(a + b, keep) == Filter(a, keep) + Filter(b, keep)
  {
    if a == [] {
      assert a + b == b;
    } else {
      assert (a + b)[0] == a[0];
      assert (a + b)[1..] == a[1..] + b;
      FilterConcat(a[1..], b, keep);
    }
  }

  /** A filter keeps a key that is unique across the list unique. */
  lemma FilterKeepsKeysUnique<T, K>(s: seq<T>, keep: T -> bool, key: T -> K)
    requires forall i, j :: 0 <= i < j < |s| ==> key(s[i]) != key(s[j])
    ensures var r := Filter(s, keep);
      forall i, j :: 0 <= i < j < |r| ==> key(r[i]) != key(r[j])
  {
    var r := Filter(s, keep);
    assert Distinct(s) by {
      forall i, j | 0 <= i < j < |s| ensures s[i] != s[j] {
        assert key(s[i]) != key(s[j]);
      }
    }
    FilterDistinct(s, keep);
    forall i, j | 0 <= i < j < |r| ensures key(r[i]) != key(r[j]) {
      var a :| 0 <= a < |s| && s[a] == r[i];
      var b :| 0 <= b < |s| && s[b] == r[j];
      assert a != b;
      if a > b {
        assert key(s[b]) != key(s[a]);
      }
    }
  }

  /** Filtering a list extended by one element extends the filtered list by that element when it is kept. */
  lemma FilterAppendOne<T>(s: seq<T>, x: T, keep: T -> bool)
    ensures Filter(s + [x], keep) == Filter(s, keep) + (if keep(x) then [x] else [])
  {
    FilterConcat(s, [x], keep);
    assert [x][1..] == [];
  }

  /** When every element is kept, the filter is the identity. */
  lemma {:induction false} FilterKeepsAll<T>(s: seq<T>, keep: T -> bool)
    requires forall i :: 0 <= i < |s| ==> keep(s[i])
    ensures Filter(s, keep) == s
  {
    if s != [] {
      FilterKeepsAll(s[1..], keep);
    }
  }

  /** Two complementary filters split a sequence without losing or duplicating anything. */
  lemma {:induction false} FilterPartition<T>(s: seq<T>, keep: T -> bool, drop: T -> bool)
    requires forall i :: 0 <= i < |s| ==> drop(s[i]) == !keep(s[i])
    ensures |Filter(s, keep)| + |Filter(s, drop)| == |s|
  {
    if s != [] {
      FilterPartition(s[1..], keep, drop);
    }
  }

  /** The number of elements that satisfy `p`. */
  function Count<T>(s: seq<T>, p: T -> bool): (n: nat)
    ensures n <= |s|
  {
    if s == [] then 0 else (if p(s[0]) then 1 else 0) + Count(s[1..], p)
  }

  lemma {:induction false} CountIsFilterLength<T>(s: seq<T>, p: T -> bool)
    ensures Count(s, p) == |Filter(s, p)|
  {
    if s != [] {
      CountIsFilterLength(s[1..], p);
    }
  }

  lemma {:induction false} CountConcat<T>(a: seq<T>, b: seq<T>, p: T -> bool)
    ensures Count(a + b, p) == Count(a, p) + Count(b, p)
  {
    if a == [] {
      assert a + b == b;
    } else {
      assert (a + b)[0] == a[0];
      assert (a + b)[1..] == a[1..] + b;
      CountConcat(a[1..], b, p);
    }
  }

  /** No element occurs twice. */
  predicate Distinct<T(==)>(s: seq<T>) {
    forall i, j :: 0 <= i < j < |s| ==> s[i] != s[j]
  }

  lemma {:induction false} FilterDistinct<T>(s: seq<T>, keep: T -> bool)
    requires Distinct(s)
    ensures Distinct(Filter(s, keep))
  {
    if s != [] {
      var rest := s[1..];
      FilterDistinct(rest, keep);
      var r := Filter(rest, keep);
      if keep(s[0]) {
        var f := [s[0]] + r;
        forall i, j | 0 <= i < j < |f| ensures f[i] != f[j] {
          if i == 0 {
            assert f[j] == r[j - 1] && r[j - 1] in rest;
            var k :| 0 <= k < |rest| && rest[k] == r[j - 1];
            assert s[k + 1] == f[j];
          } else {
            assert f[i] == r[i - 1] && f[j] == r[j - 1];
          }
        }
      }
    }
  }

  /** Filtering by `p` and then by a stronger `q` is filtering by `q`. */
  lemma {:induction false} FilterOfFilter<T>(s: seq<T>, p: T -> bool, q: T -> bool)
    requires forall i :: 0 <= i < |s| && q(s[i]) ==> p(s[i])
    ensures Filter(Filter(s, p), q) == Filter(s, q)
  {
    if s != [] {
      FilterOfFilter(s[1..], p, q);
    }
  }

  /** In a sequence without repeats every element occurs exactly once. */
  lemma {:induction false} DistinctMultiplicity<T>(s: seq<T>, x: T)
    requires Distinct(s)
    ensures multiset(s)[x] == if x in s then 1 else 0
  {
    if s != [] {
      assert s == [s[0]] + s[1..];
      DistinctMultiplicity(s[1..], x);
      if x == s[0] {
        assert x !in s[1..] by {
          forall k | 0 <= k < |s[1..]| ensures s[1..][k] != x { assert s[1..][k] == s[k + 1]; }
        }
      }
    }
  }

  /** Filtering keeps every occurrence of a kept element and none of a dropped one. */
  lemma {:induction false} FilterMultiplicity<T>(s: seq<T>, keep: T -> bool, x: T)
    ensures multiset(Filter(s, keep))[x] == if keep(x) then multiset(s)[x] else 0
  {
    if s != [] {
      assert s == [s[0]] + s[1..];
      FilterMultiplicity(s[1..], keep, x);
    }
  }
  /** A filter shortens a sequence exactly when the sequence holds an element it drops. */
  lemma {:induction false} FilterShorter<T>(s: seq<T>, keep: T -> bool)
    ensures |Filter(s, keep)| < |s| <==> exists i :: 0 <= i < |s| && !keep(s[i])
  {
    if s != [] {
      var rest := s[1..];
      FilterShorter(rest, keep);
      if keep(s[0]) {
        if i :| 0 <= i < |s| && !keep(s[i]) {
          assert rest[i - 1] == s[i];
        }
        if j :| 0 <= j < |rest| && !keep(rest[j]) {
          assert s[j + 1] == rest[j];
        }
      } else {
        assert !keep(s[0]);
      }
    }
  }

  /** When no element is kept, the filter is empty. */
  lemma {:induction false} FilterDropsAll<T>(s: seq<T>, keep: T -> bool)
    requires forall i :: 0 <= i < |s| ==> !keep(s[i])
    ensures Filter(s, keep) == []
  {
    if s != [] {
      FilterDropsAll(s[1..], keep);
    }
  }

  /** `r` is `s` with some elements left out and the rest in their order. */
  predicate Subsequence<T(==)>(r: seq<T>, s: seq<T>)
    decreases |s|
  {
    if r == [] then true
    else if s == [] then false
    else if r[0] == s[0] then Subsequence(r[1..], s[1..])
    else Subsequence(r, s[1..])
  }

  /** A filter leaves some elements out and keeps the others in their order. */
  lemma {:induction false} FilterSubsequence<T>(s: seq<T>, keep: T -> bool)
    ensures Subsequence(Filter(s, keep), s)
  {
    if s != [] {
      FilterSubsequence(s[1..], keep);
      if !keep(s[0]) {
        SubsequenceDropFront(Filter(s[1..], keep), s);
      }
    }
  }

  /** A subsequence of `s[1..]` is one of `s`. */
  lemma {:induction false} SubsequenceDropFront<T>(r: seq<T>, s: seq<T>)
    requires s != [] && Subsequence(r, s[1..])
    ensures Subsequence(r, s)
    decreases |s|, 0
  {
    if r != [] && r[0] == s[0] {
      SubsequenceTail(r, s[1..]);
    }
  }

  /** A subsequence with its head removed is still a subsequence. */
  lemma {:induction false} SubsequenceTail<T>(r: seq<T>, t: seq<T>)
    requires r != [] && Subsequence(r, t)
    ensures Subsequence(r[1..], t)
    decreases |t|, 1
  {
    if r[0] == t[0] {
      if r[1..] != [] {
        SubsequenceDropFront(r[1..], t);
      }
    } else {
      SubsequenceTail(r, t[1..]);
      if r[1..] != [] {
        SubsequenceDropFront(r[1..], t);
      }
    }
  }

  /** Every list is a subsequence of itself. */
  lemma {:induction false} SubsequenceOfSelf<T>(s: seq<T>)
    ensures Subsequence(s, s)
  {
    if s != [] {
      SubsequenceOfSelf(s[1..]);
    }
  }

  /** A prefix of a subsequence is a subsequence. */
  lemma {:induction false} SubsequencePrefix<T>(r: seq<T>, s: seq<T>, k: nat)
    requires Subsequence(r, s) && k <= |r|
    ensures Subsequence(r[..k], s)
    decreases |s|
  {
    if k > 0 {
      if r[0] == s[0] {
        SubsequencePrefix(r[1..], s[1..], k - 1);
        assert r[..k][1..] == r[1..][..k - 1];
      } else {
        SubsequencePrefix(r, s[1..], k);
      }
    }
  }
}

=== FILE: sync_queue.dfy ===
/**
 * The browser's offline favorites records and the per-user sync status that remembers which
 * local changes still have to reach the server: a queue of records to add, a queue of ids to
 * remove, and the time of the last successful sync. Enqueuing one kind of change cancels a
 * pending change of the other kind for the same id, so the two queues never disagree.
 */
module SyncQueue {
  import opened Wrappers
  import opened Seqs

  /** A movie as the client hands it to the offline store; a missing field is "". */
  datatype LocalMovie = LocalMovie(
    imdbID: string, Title: string, Year: string, Poster: string, Genre: string,
    Runtime: string, imdbRating: string, Type: string, Plot: string)

  /** `originalData` of a record added locally, or `source: 'database'` of a merged one. */
  datatype Origin = Original(movie: LocalMovie) | FromDatabase

  /**
   * A stored favorite. `legacyId` is the `id` key of records written before version 2.0,
   * and `addedAt` is missing from such records.
   */
  datatype LocalFavorite = LocalFavorite(
    imdbID: string, legacyId: string, Title: string, Year: string, Poster: string,
    Genre: string, Runtime: string, imdbRating: string, Type: string, Plot: string,
    addedAt: Option<int>, origin: Origin)

  datatype SyncStatus = SyncStatus(pendingAdds: seq<LocalFavorite>, pendingRemoves: seq<string>, lastSync: Option<int>)

  /** The status of a user nothing is stored for. */
  const EmptyStatus: SyncStatus := SyncStatus([], [], None)

  /** `getSyncStatus`: the stored status, or empty queues that were never synced. */
  function StatusOf(sync: map<string, SyncStatus>, email: string): (st: SyncStatus)
    ensures email !in sync ==> st.pendingAdds == [] && st.pendingRemoves == [] && st.lastSync.None?
  {
    if email in sync then sync[email] else EmptyStatus
  }

  predicate HasId(s: seq<LocalFavorite>, id: string) {
    exists i :: 0 <= i < |s| && s[i].imdbID == id
  }

  predicate UniqueIds(s: seq<LocalFavorite>) {
    forall i, j :: 0 <= i < j < |s| ==> s[i].imdbID != s[j].imdbID
  }

  /** Neither queue holds an id twice, and no id is waiting to be both added and removed. */
  predicate Coherent(st: SyncStatus) {
    UniqueIds(st.pendingAdds) && Distinct(st.pendingRemoves)
    && forall i :: 0 <= i < |st.pendingAdds| ==> st.pendingAdds[i].imdbID !in st.pendingRemoves
  }

  function IdIsNot(id: string): LocalFavorite -> bool {
    (f: LocalFavorite) => f.imdbID != id
  }

  function IdNotIn(ids: seq<string>): LocalFavorite -> bool {
    (f: LocalFavorite) => f.imdbID !in ids
  }

  function Differs(id: string): string -> bool {
    (x: string) => x != id
  }

  function NotIn(ids: seq<string>): string -> bool {
    (x: string) => x !in ids
  }

  /** Filtering out an id leaves a record with that id nowhere. */
  lemma FilteredIdGone(s: seq<LocalFavorite>, id: string)
    ensures !HasId(Filter(s, IdIsNot(id)), id)
  {
    var r := Filter(s, IdIsNot(id));
    forall i | 0 <= i < |r| ensures r[i].imdbID != id {
      assert IdIsNot(id)(r[i]);
    }
  }

  /** A sub-list of a list with distinct ids has distinct ids. */
  lemma FilterUniqueIds(s: seq<LocalFavorite>, keep: LocalFavorite -> bool)
    requires UniqueIds(s)
    ensures UniqueIds(Filter(s, keep))
  {
    FilterKeepsKeysUnique(s, keep, (f: LocalFavorite) => f.imdbID);
  }

  /** The change `addToSyncQueue` records: a record to add or an id to remove. */
  datatype SyncAction = AddAction(record: LocalFavorite) | RemoveAction(id: string)

  /**
   * `addToSyncQueue(_, 'add', record)`: the id leaves the remove queue, and the record joins
   * the add queue unless a record with its id is already waiting there.
   */
  function EnqueueAdd(st: SyncStatus, f: LocalFavorite): (r: SyncStatus)
    ensures HasId(r.pendingAdds, f.imdbID) && f.imdbID !in r.pendingRemoves
    ensures forall x :: x in r.pendingRemoves <==> x in st.pendingRemoves && x != f.imdbID
    ensures HasId(st.pendingAdds, f.imdbID) ==> r.pendingAdds == st.pendingAdds
    ensures !HasId(st.pendingAdds, f.imdbID) ==> r.pendingAdds == st.pendingAdds + [f]
    ensures r.lastSync == st.lastSync
  {
    var removes := Filter(st.pendingRemoves, Differs(f.imdbID));
    var adds := if HasId(st.pendingAdds, f.imdbID) then st.pendingAdds else st.pendingAdds + [f];
    assert HasId(adds, f.imdbID) by {
      if !HasId(st.pendingAdds, f.imdbID) {
        assert adds[|adds| - 1] == f;
      }
    }
    assert forall x :: x in removes ==> Differs(f.imdbID)(x);
    SyncStatus(adds, removes, st.lastSync)
  }

  /**
   * `addToSyncQueue(_, 'remove', id)`: records with the id leave the add queue, and the id
   * joins the remove queue unless it is already there.
   */
  function EnqueueRemove(st: SyncStatus, id: string): (r: SyncStatus)
    ensures id in r.pendingRemoves && !HasId(r.pendingAdds, id)
    ensures forall f :: f in r.pendingAdds <==> f in st.pendingAdds && f.imdbID != id
    ensures id in st.pendingRemoves ==> r.pendingRemoves == st.pendingRemoves
    ensures id !in st.pendingRemoves ==> r.pendingRemoves == st.pendingRemoves + [id]
    ensures r.lastSync == st.lastSync
  {
    var adds := Filter(st.pendingAdds, IdIsNot(id));
    FilteredIdGone(st.pendingAdds, id);
    assert forall f :: f in adds ==> IdIsNot(id)(f);
    var removes := if id in st.pendingRemoves then st.pendingRemoves else st.pendingRemoves + [id];
    SyncStatus(adds, removes, st.lastSync)
  }

  function Enqueue(st: SyncStatus, action: SyncAction): (r: SyncStatus)
    ensures r.lastSync == st.lastSync
    ensures Coherent(st) ==> Coherent(r)
  {
    match action
    case AddAction(f) =>
      if Coherent(st) then EnqueueAddKeepsCoherent(st, f); EnqueueAdd(st, f) else EnqueueAdd(st, f)
    case RemoveAction(id) =>
      if Coherent(st) then EnqueueRemoveKeepsCoherent(st, id); EnqueueRemove(st, id) else EnqueueRemove(st, id)
  }

  /** Enqueuing an add keeps the queues free of repeats and of contradicting changes. */
  lemma EnqueueAddKeepsCoherent(st: SyncStatus, f: LocalFavorite)
    requires Coherent(st)
    ensures Coherent(EnqueueAdd(st, f))
  {
    var r := EnqueueAdd(st, f);
    FilterDistinct(st.pendingRemoves, Differs(f.imdbID));
    forall i | 0 <= i < |r.pendingAdds| ensures r.pendingAdds[i].imdbID !in r.pendingRemoves {
      if i < |st.pendingAdds| {
        assert r.pendingAdds[i] == st.pendingAdds[i];
      }
    }
  }

  /** Enqueuing a remove keeps the queues free of repeats and of contradicting changes. */
  lemma EnqueueRemoveKeepsCoherent(st: SyncStatus, id: string)
    requires Coherent(st)
    ensures Coherent(EnqueueRemove(st, id))
  {
    var r := EnqueueRemove(st, id);
    FilterUniqueIds(st.pendingAdds, IdIsNot(id));
    assert Distinct(r.pendingRemoves) by {
      if id !in st.pendingRemoves {
        forall i, j | 0 <= i < j < |r.pendingRemoves| ensures r.pendingRemoves[i] != r.pendingRemoves[j] {
          if j == |st.pendingRemoves| {
            assert r.pendingRemoves[i] == st.pendingRemoves[i];
          }
        }
      }
    }
    forall i | 0 <= i < |r.pendingAdds| ensures r.pendingAdds[i].imdbID !in r.pendingRemoves {
      var f := r.pendingAdds[i];
      assert f in st.pendingAdds;
      var k :| 0 <= k < |st.pendingAdds| && st.pendingAdds[k] == f;
    }
  }

  /**
   * `markAsSynced`: each given list of synced ids leaves its queue (a list that is not given
   * leaves the queue alone), the rest stay in order, and `lastSync` is stamped.
   */
  function MarkSynced(st: SyncStatus, syncedAdds: Option<seq<string>>, syncedRemoves: Option<seq<string>>, now: int): (r: SyncStatus)
    ensures r.lastSync == Some(now)
    ensures forall f :: f in r.pendingAdds <==>
      f in st.pendingAdds && (syncedAdds.Some? ==> f.imdbID !in syncedAdds.value)
    ensures forall x :: x in r.pendingRemoves <==>
      x in st.pendingRemoves && (syncedRemoves.Some? ==> x !in syncedRemoves.value)
  {
    var adds := if syncedAdds.Some? then Filter(st.pendingAdds, IdNotIn(syncedAdds.value)) else st.pendingAdds;
    var removes := if syncedRemoves.Some? then Filter(st.pendingRemoves, NotIn(syncedRemoves.value)) else st.pendingRemoves;
    assert syncedAdds.Some? ==> forall f :: f in adds ==> IdNotIn(syncedAdds.value)(f);
    assert syncedRemoves.Some? ==> forall x :: x in removes ==> NotIn(syncedRemoves.value)(x);
    SyncStatus(adds, removes, Some(now))
  }

  /** Both queues keep their remaining items in their order. */
  lemma MarkSyncedKeepsOrder(st: SyncStatus, syncedAdds: Option<seq<string>>, syncedRemoves: Option<seq<string>>, now: int)
    ensures Subsequence(MarkSynced(st, syncedAdds, syncedRemoves, now).pendingAdds, st.pendingAdds)
    ensures Subsequence(MarkSynced(st, syncedAdds, syncedRemoves, now).pendingRemoves, st.pendingRemoves)
  {
    if syncedAdds.Some? {
      FilterSubsequence(st.pendingAdds, IdNotIn(syncedAdds.value));
    } else {
      SubsequenceOfSelf(st.pendingAdds);
    }
    if syncedRemoves.Some? {
      FilterSubsequence(st.pendingRemoves, NotIn(syncedRemoves.value));
    } else {
      SubsequenceOfSelf(st.pendingRemoves);
    }
  }

  /** Marking items as synced only ever shortens the queues, so coherence is kept. */
  lemma MarkSyncedKeepsCoherent(st: SyncStatus, syncedAdds: Option<seq<string>>, syncedRemoves: Option<seq<string>>, now: int)
    requires Coherent(st)
    ensures Coherent(MarkSynced(st, syncedAdds, syncedRemoves, now))
  {
    var r := MarkSynced(st, syncedAdds, syncedRemoves, now);
    if syncedAdds.Some? {
      FilterUniqueIds(st.pendingAdds, IdNotIn(syncedAdds.value));
    }
    if syncedRemoves.Some? {
      FilterDistinct(st.pendingRemoves, NotIn(syncedRemoves.value));
    }
    forall i | 0 <= i < |r.pendingAdds| ensures r.pendingAdds[i].imdbID !in r.pendingRemoves {
      var f := r.pendingAdds[i];
      assert f in st.pendingAdds;
      var k :| 0 <= k < |st.pendingAdds| && st.pendingAdds[k] == f;
    }
  }

  function Failed(ok: LocalFavorite -> bool): LocalFavorite -> bool {
    (f: LocalFavorite) => !ok(f)
  }

  function Rejected(ok: string -> bool): string -> bool {
    (x: string) => !ok(x)
  }

  /** The ids of the records `ok` accepts, in queue order (the `addSuccesses` list). */
  function IdsWhere(s: seq<LocalFavorite>, ok: LocalFavorite -> bool): (r: seq<string>)
    ensures |r| <= |s|
    ensures forall x :: x in r <==> exists i :: 0 <= i < |s| && s[i].imdbID == x && ok(s[i])
  {
    if s == [] then []
    else
      var last := s[|s| - 1];
      var front := IdsWhere(s[..|s| - 1], ok);
      assert forall i :: 0 <= i < |s| - 1 ==> s[..|s| - 1][i] == s[i];
      front + (if ok(last) then [last.imdbID] else [])
  }

  /**
   * The status after a replay in which `addOk` and `removeOk` say which requests the server
   * accepted: when something was accepted the accepted ids are marked as synced, otherwise
   * nothing is written.
   */
  function AfterSync(st: SyncStatus, addOk: LocalFavorite -> bool, removeOk: string -> bool, now: int): (r: SyncStatus)
    ensures r.lastSync == if AnyAccepted(st, addOk, removeOk) then Some(now) else st.lastSync
    ensures !AnyAccepted(st, addOk, removeOk) ==> r == st
  {
    var syncedAdds := IdsWhere(st.pendingAdds, addOk);
    var syncedRemoves := Filter(st.pendingRemoves, removeOk);
    if |syncedAdds| + |syncedRemoves| > 0 then MarkSynced(st, Some(syncedAdds), Some(syncedRemoves), now)
    else st
  }

  /** Whether the replay had at least one accepted request. */
  function AnyAccepted(st: SyncStatus, addOk: LocalFavorite -> bool, removeOk: string -> bool): (r: bool)
    ensures r <==> (exists i :: 0 <= i < |st.pendingAdds| && addOk(st.pendingAdds[i]))
                   || (exists i :: 0 <= i < |st.pendingRemoves| && removeOk(st.pendingRemoves[i]))
  {
    var adds := IdsWhere(st.pendingAdds, addOk);
    var removes := Filter(st.pendingRemoves, removeOk);
    assert adds != [] ==> adds[0] in adds;
    assert removes != [] ==> removes[0] in removes;
    assert (exists i :: 0 <= i < |st.pendingAdds| && addOk(st.pendingAdds[i])) ==> adds != [] by {
      if i :| 0 <= i < |st.pendingAdds| && addOk(st.pendingAdds[i]) {
        assert st.pendingAdds[i].imdbID in adds;
      }
    }
    |adds| + |removes| > 0
  }

  /**
   * After a replay of a coherent status, a queued change stays queued exactly when the
   * server did not accept it, and `lastSync` moves to `now` exactly when some change was
   * accepted.
   */
  lemma SyncKeepsExactlyFailures(st: SyncStatus, addOk: LocalFavorite -> bool, removeOk: string -> bool, now: int)
    requires Coherent(st)
    ensures var r := AfterSync(st, addOk, removeOk, now);
      && (forall i :: 0 <= i < |st.pendingAdds| ==> (st.pendingAdds[i] in r.pendingAdds <==> !addOk(st.pendingAdds[i])))
      && (forall f :: f in r.pendingAdds ==> f in st.pendingAdds)
      && (forall x :: x in st.pendingRemoves ==> (x in r.pendingRemoves <==> !removeOk(x)))
      && (forall x :: x in r.pendingRemoves ==> x in st.pendingRemoves)
      && r.lastSync == (if AnyAccepted(st, addOk, removeOk) then Some(now) else st.lastSync)
      && Coherent(r)
  {
    var r := AfterSync(st, addOk, removeOk, now);
    var syncedAdds := IdsWhere(st.pendingAdds, addOk);
    var syncedRemoves := Filter(st.pendingRemoves, removeOk);
    if AnyAccepted(st, addOk, removeOk) {
      MarkSyncedKeepsCoherent(st, Some(syncedAdds), Some(syncedRemoves), now);
      forall i | 0 <= i < |st.pendingAdds| ensures st.pendingAdds[i] in r.pendingAdds <==> !addOk(st.pendingAdds[i]) {
        var f := st.pendingAdds[i];
        if f.imdbID in syncedAdds {
          var j :| 0 <= j < |st.pendingAdds| && st.pendingAdds[j].imdbID == f.imdbID && addOk(st.pendingAdds[j]);
          assert j == i;
        }
      }
      forall x | x in st.pendingRemoves ensures x in r.pendingRemoves <==> !removeOk(x) {
        if removeOk(x) {
          assert x in syncedRemoves;
        }
      }
    } else {
      forall i | 0 <= i < |st.pendingAdds| ensures !addOk(st.pendingAdds[i]) {
        assert st.pendingAdds[i].imdbID !in syncedAdds;
      }
      forall x | x in st.pendingRemoves ensures !removeOk(x) {
        assert x !in syncedRemoves;
      }
    }
  }

  /** When the server accepts every queued change, nothing is left pending. */
  lemma AllAcceptedEmptiesQueues(st: SyncStatus, addOk: LocalFavorite -> bool, removeOk: string -> bool, now: int)
    requires forall i :: 0 <= i < |st.pendingAdds| ==> addOk(st.pendingAdds[i])
    requires forall x :: x in st.pendingRemoves ==> removeOk(x)
    ensures AfterSync(st, addOk, removeOk, now).pendingAdds == []
    ensures AfterSync(st, addOk, removeOk, now).pendingRemoves == []
  {
    var syncedAdds := IdsWhere(st.pendingAdds, addOk);
    var syncedRemoves := Filter(st.pendingRemoves, removeOk);
    forall i | 0 <= i < |st.pendingAdds| ensures !IdNotIn(syncedAdds)(st.pendingAdds[i]) {
      assert st.pendingAdds[i].imdbID in syncedAdds;
    }
    forall i | 0 <= i < |st.pendingRemoves| ensures !NotIn(syncedRemoves)(st.pendingRemoves[i]) {
      assert st.pendingRemoves[i] in syncedRemoves;
    }
    FilterDropsAll(st.pendingAdds, IdNotIn(syncedAdds));
    FilterDropsAll(st.pendingRemoves, NotIn(syncedRemoves));
    if st.pendingAdds != [] {
      assert st.pendingAdds[0].imdbID in syncedAdds;
    }
    if st.pendingRemoves != [] {
      assert st.pendingRemoves[0] in syncedRemoves;
    }
  }
}

=== FILE: text.dfy ===
/**
 * The string operations the favorites code relies on: ASCII `toLowerCase`, `trim`,
 * "keep only [a-z0-9]", prefix and substring tests, `split` on one separator,
 * the `/^\d+$/` test and the decimal rendering of integers.
 */
module Text {

  /** `toLowerCase` restricted to ASCII letters. */
  function LowerChar(c: char): (r: char)
    ensures 'A' <= c <= 'Z' ==> 'a' <= r <= 'z'
    ensures !('A' <= c <= 'Z') ==> r == c
  {
    if 'A' <= c <= 'Z' then (c as int + 32) as char else c
  }

  function Lower(s: string): (r: string)
    ensures |r| == |s|
    ensures forall i :: 0 <= i < |s| ==> r[i] == LowerChar(s[i])
  {
    seq(|s|, i requires 0 <= i < |s| => LowerChar(s[i]))
  }

  /** Lower-casing twice is lower-casing once. */
  lemma LowerIdempotent(s: string)
    ensures Lower(Lower(s)) == Lower(s)
  {
  }

  /** The white space `trim` removes, restricted to the ASCII set, NBSP and BOM. */
  predicate IsSpace(c: char) {
    c == ' ' || c == '\t' || c == '\n' || c == '\r'
    || c as int == 0x0B || c as int == 0x0C || c as int == 0xA0 || c as int == 0xFEFF
  }

  function TrimStart(s: string): (r: string)
    ensures |r| <= |s|
    ensures r == s[|s| - |r|..]
    ensures r != [] ==> !IsSpace(r[0])
  {
    if |s| > 0 && IsSpace(s[0]) then TrimStart(s[1..]) else s
  }

  function TrimEnd(s: string): (r: string)
    ensures |r| <= |s|
    ensures r == s[..|r|]
    ensures r != [] ==> !IsSpace(r[|r| - 1])
  {
    if |s| > 0 && IsSpace(s[|s| - 1]) then TrimEnd(s[..|s| - 1]) else s
  }

  function Trim(s: string): (r: string)
    ensures |r| <= |s|
    ensures r != [] ==> !IsSpace(r[0]) && !IsSpace(r[|r| - 1])
  {
    TrimEnd(TrimStart(s))
  }

  /** JavaScript's `a || b` on two strings: the empty string is falsy. */
  function OrElse(a: string, b: string): string {
    if a != "" then a else b
  }

  predicate IsDigit(c: char) {
    '0' <= c <= '9'
  }

  predicate IsLowerAlnum(c: char) {
    'a' <= c <= 'z' || IsDigit(c)
  }

  /** `.replace(/[^a-z0-9]/g, '')`: keeps the lower-case letters and digits, in order. */
  function KeepAlnum(s: string): (r: string)
    ensures |r| <= |s|
    ensures forall i :: 0 <= i < |r| ==> IsLowerAlnum(r[i])
  {
    if s == [] then []
    else if IsLowerAlnum(s[0]) then [s[0]] + KeepAlnum(s[1..])
    else KeepAlnum(s[1..])
  }

  /** A text that is already lower-case letters and digits loses nothing. */
  lemma {:induction false} KeepAlnumOfAlnum(s: string)
    requires forall i :: 0 <= i < |s| ==> IsLowerAlnum(s[i])
    ensures KeepAlnum(s) == s
  {
    if s != [] {
      KeepAlnumOfAlnum(s[1..]);
    }
  }

  /** `/^\d+$/.test(s)`: one or more ASCII digits and nothing else. */
  predicate AllDigits(s: string) {
    |s| > 0 && forall i :: 0 <= i < |s| ==> IsDigit(s[i])
  }

  predicate StartsWith(s: string, prefix: string) {
    |prefix| <= |s| && s[..|prefix|] == prefix
  }

  /** `s.includes(sub)`; every string includes the empty string. */
  predicate Contains(s: string, sub: string)
    decreases |s|
  {
    StartsWith(s, sub) || (|s| > 0 && Contains(s[1..], sub))
  }

  /** `s.split(sep)[0]`: everything before the first separator. */
  function FirstSegment(s: string, sep: char): (r: string)
    ensures sep !in r
    ensures |r| <= |s| && r == s[..|r|]
    ensures |r| < |s| ==> s[|r|] == sep
  {
    if s == [] then []
    else if s[0] == sep then []
    else [s[0]] + FirstSegment(s[1..], sep)
  }

  /** `s.split(sep)` followed by taking the last part: everything after the last separator. */
  function LastSegment(s: string, sep: char): (r: string)
    ensures sep !in r
    ensures |r| <= |s| && r == s[|s| - |r|..]
    ensures |r| < |s| ==> s[|s| - |r| - 1] == sep
  {
    if s == [] then []
    else if s[|s| - 1] == sep then []
    else LastSegment(s[..|s| - 1], sep) + [s[|s| - 1]]
  }

  /** Whatever precedes the last separator, the last segment is what follows it. */
  lemma {:induction false} LastSegmentAfter(a: string, sep: char, b: string)
    requires sep !in b
    ensures LastSegment(a + [sep] + b, sep) == b
  {
    if b == [] {
      assert (a + [sep] + b)[|a + [sep] + b| - 1] == sep;
    } else {
      var s := a + [sep] + b;
      var b' := b[..|b| - 1];
      assert s[..|s| - 1] == a + [sep] + b';
      assert sep !in b' by {
        forall i | 0 <= i < |b'| ensures b'[i] != sep { assert b'[i] == b[i]; }
      }
      LastSegmentAfter(a, sep, b');
      assert b == b' + [b[|b| - 1]];
    }
  }

  function DigitChar(d: nat): (c: char)
    requires d < 10
    ensures IsDigit(c)
  {
    ('0' as int + d) as char
  }

  /** The decimal digits of a natural number, without leading zeros. */
  function NatToDecimal(n: nat): (r: string)
    ensures AllDigits(r)
    ensures n > 0 ==> r[0] != '0'
    decreases n
  {
    if n < 10 then [DigitChar(n)] else NatToDecimal(n / 10) + [DigitChar(n % 10)]
  }

  /** `Number.prototype.toString` on an integer. */
  function IntToString(n: int): (r: string)
    ensures r != []
    ensures n >= 0 ==> AllDigits(r)
    ensures n < 0 ==> r[0] == '-'
  {
    if n < 0 then "-" + NatToDecimal(-n) else NatToDecimal(n)
  }

  /** `parts.join(sep)`. */
  function Join(parts: seq<string>, sep: string): string {
    if parts == [] then ""
    else if |parts| == 1 then parts[0]
    else parts[0] + sep + Join(parts[1..], sep)
  }

  /** JavaScript's `<` on two strings: lexicographic by character code. */
  predicate LexLess(a: string, b: string) {
    if b == [] then false
    else if a == [] then true
    else if a[0] != b[0] then a[0] < b[0]
    else LexLess(a[1..], b[1..])
  }
}

=== FILE: wrappers.dfy ===
/** The optional-value type used where the source returns `null` or leaves a field undefined. */
module Wrappers {

  datatype Option<+T> = None | Some(value: T)
}
